=== FILE: README.md ===
# calc-regex in Dafny

A model of the core of the `calc_regex` Rust library. The library parses
binary and text formats described by calc-regular expressions. These are
regular expressions extended with:

- length counts: a count field, then exactly that many bytes;
- occurrence counts: a count field, then that many repetitions;
- exact-length Kleene stars.

The model covers six parts:

- **The expression graph** (`Graph`). A `CalcRegex` is an arena of nodes plus a root index. Each node has an optional name, an optional length bound and a production (`Inner`). The model covers the manipulation functions `push_node`, `set_root`, `set_root_by_name`, `set_root_length_bound` and `set_length_bound`, and the name lookup. Children always sit below their parent in the arena (`Acyclic`). The interpreter uses that as its termination measure.
- **The interpreter** (`Interpreter`, `Matching`, `Parsing`).
  - It has three parse modes over an `ArrayInput`: unbounded, bounded by a byte count, and exact length. Each mode is modelled twice, as the `Reader::parse_*` wrapper (captures, plus the node's own bound) and as the `CalcRegex::parse_*` dispatcher on the production.
  - Also modelled: `read_count`; the three `match_regex_*` loops; and `Reader::parse`, `parse_record` and one step of the record iterator.
  - The compiled regex is a predicate `seq<byte> -> bool` on a whole slice. The count decoder is a function `seq<byte> -> Option<usize>`.
- **The capture stack and record queries** (`Captures`, `Records`).
  - The stack operations: start and finish a capture or a repeat; init and finalize the root capture.
  - Unique names with tick suffixes.
  - `$`-scopes that are transparent when a capture is attached.
  - Dotted, indexed name resolution, and the `Record`/`SubRecord` query methods.
- **The array input** (`Input`): `ArrayInput` with all-or-nothing reads and `split_here`.
- **Regex length-bound inference** (`Generate`).
  - `RegexAttributes::join` and the length part of `RegexProduction::apply`, folded over a sequence of steps.
  - These are checked against an independent account: split at the top-level bars, sum each branch, take the longest.
  - Also `is_atomic`, and the node-building rules of `CalcRegexProduction::apply`.
- **The count decoders** (`Aux`): `decimal`, `hex`, `little_endian`, `big_endian`.

**Rust panics and non-termination.** They are modelled as the values of `Errors.Fault`:

- `Panic(message)` stands for a debug build's panics. These are `unwrap` on `None`, failed assertions and `debug_assert`s, and arithmetic overflow and underflow, except the overflow of `read_n`'s `pos + n`: the interpreter uses the corrected test (see Findings). Each carries the message the program prints.
- `Hangs` stands for the exact Kleene-star loop when an element reads nothing. There the source loops forever.
- `Err(e)` carries the library's own `ParserError`.

Both `usize` (`Primitives.usize`, below 2^64) and the word size of 8 bytes are those of a 64-bit target.

## Model

| member | source | states |
|---|---|---|
| Graph.Position | src/calc_regex.rs:235-239 | the index of the first node with that name, and none exactly when no node has it |
| Graph.PositionIsUnique | src/calc_regex.rs:235-239 | with unique names, the lookup finds the one node that carries the name |
| Graph.SetRootPreservesWellFormed | src/calc_regex.rs:223-225 | moving the root to an existing node keeps the expression well formed; a later `set_root` overrides an earlier one; `set_root_by_name` is `set_root` at the named node's index |
| Graph.CalcRegex.SetRootByName | src/calc_regex.rs:157-162 | `NoSuchName(name)` exactly when no node has the name, otherwise the root moves to a node of that name and the nodes are unchanged |
| Graph.SetRootByNamePreservesWellFormed | src/calc_regex.rs:157-162 | moving the root by name keeps the graph well formed, and the new root carries the name |
| Graph.CalcRegex.SetRootLengthBound | src/calc_regex.rs:169-172 | only the root node changes, and it gets the bound |
| Graph.CalcRegex.SetLengthBound | src/calc_regex.rs:179-188 | `NoSuchName` exactly when no node has the name, otherwise exactly one node with that name gets the bound and every other node is unchanged |
| Graph.SetLengthBoundPreservesWellFormed | src/calc_regex.rs:179-188 | setting a bound keeps acyclicity, unique names and the root |
| Graph.SetLengthBoundLastWins | src/calc_regex.rs:179-188 | setting a bound twice is the same as setting the second bound once |
| Graph.PositionDependsOnNames | src/calc_regex.rs:235-239 | the lookup depends only on the node names, so bounds never move it |
| Graph.CalcRegex.PushNode | src/calc_regex.rs:251-261 | appends the node and returns the old node count as its index, or panics exactly when the name is already taken |
| Graph.PushNodePreservesArena | src/calc_regex.rs:251-261 | pushing a node whose children exist keeps the arena acyclic with unique names |
| Graph.EmptyStartsArena | src/calc_regex.rs:197-202 | `CalcRegex::new` is an acyclic arena with no names, not yet well formed; its first pushed node never clashes, lands at index 0 (the default root) and makes it well formed |
| Graph.EdgesPointDown | src/calc_regex.rs:22-31 | the graph is acyclic: in the flat node vector every edge of every production points to an earlier node |
| Interpreter.Reader.StartCapture | src/reader.rs:415-430 | pushes one capture and keeps the stack within the bytes read |
| Interpreter.Reader.FinishCapture | src/reader.rs:436-480 | pops one capture and keeps the stack within the bytes read |
| Interpreter.Reader.StartRepeat | src/reader.rs:377-384 | pushes one repeat and keeps the stack within the bytes read |
| Interpreter.Reader.FinishRepeat | src/reader.rs:386-410 | pops one repeat and keeps the stack within the bytes read |
| Interpreter.Unbounded | src/reader.rs:210-228 | on success the reader advances with its stack depth restored, the result is the byte count read, and a node with its own bound reads at most that bound |
| Interpreter.Bounded | src/reader.rs:235-253 | reads at most `bound` bytes and at most the node's own bound, that is at most their minimum, and returns the byte count read |
| Interpreter.Exact | src/reader.rs:260-283 | on success exactly `length` bytes are read; a node bound below `length` is `ConflictingBounds(length, bound)` before anything is read |
| Interpreter.InnerUnbounded | src/calc_regex.rs:273-329 | on success the reader advances; a Kleene star panics with the message the source prints |
| Interpreter.InnerBounded | src/calc_regex.rs:344-411 | on success at most `bound` bytes are read in total; a Kleene star panics |
| Interpreter.InnerExact | src/calc_regex.rs:426-499 | on success exactly `length` bytes are read, whatever the production |
| Interpreter.RepeatUnbounded | src/calc_regex.rs:289-295 | the reader advances; on success it ends where `n` unbounded element reads, started inside a new repeat, end; a failure of the first element is the repeat's failure; `n = 0` only opens and closes the repeat |
| Interpreter.RepeatBounded | src/calc_regex.rs:362-369 | on success the whole repeat reads at most `bound` bytes |
| Interpreter.RepeatExact | src/calc_regex.rs:444-452 | `n - 1` bounded elements, then one exact element, read exactly `length` bytes; `n = 0` is the subtraction-overflow panic |
| Interpreter.KleeneStarExact | src/calc_regex.rs:453-460 | reads exactly `length` bytes; length 0 reads no element; an element that reads nothing makes the loop hang |
| Interpreter.StarLoop | src/calc_regex.rs:456-458 | the loop stops exactly at remaining length 0, with exactly `length` bytes read, and hangs when a bounded element reads nothing |
| Interpreter.CountSpan | src/calc_regex.rs:509-513 | the count node is parsed inside a `$count` capture, unbounded or within the bound, and the result is the byte count it read |
| Interpreter.ReadCount | src/calc_regex.rs:503-518 | the decoder is applied to exactly the bytes the count node spanned; if it rejects them the error `CannotReadCount` carries those bytes |
| Interpreter.SeparatorUnbounded | src/calc_regex.rs:304-306 | without a separator node nothing is read |
| Interpreter.SeparatorBounded | src/calc_regex.rs:379-381 | the separator is parsed within the bound, and without one nothing is read |
| Interpreter.ValueExact | src/calc_regex.rs:388-390 | the value of a length count, inside `$value`, reads exactly `count` bytes |
| Interpreter.LengthCountUnbounded | src/calc_regex.rs:299-310 | a failed count read is the failure; on success the count and separator were read and the bytes consumed are the count field's, the separator's and exactly `count` more |
| Interpreter.LengthCountBounded | src/calc_regex.rs:373-391 | the whole length count stays within the bound |
| Interpreter.LengthCountBoundedAfterCount | src/calc_regex.rs:379-390 | after the separator, a remaining bound below the count is `ConflictingBounds(remaining, count)` |
| Interpreter.LengthCountExact | src/calc_regex.rs:461-478 | the whole length count reads exactly `length` bytes |
| Interpreter.LengthCountExactAfterCount | src/calc_regex.rs:467-477 | without a separator, a count that differs from the remaining length is `ConflictingBounds(remaining, count)`; with one, a count above the remaining length is the subtraction-overflow panic |
| Interpreter.OccurrenceCountUnbounded | src/calc_regex.rs:311-326 | a failed count read is the failure; on success the count and separator were read, the reader ends where `count` unbounded element reads end after opening `$value` and a repeat, and a count of 0 consumes only the count field and separator |
| Interpreter.OccurrenceCountBounded | src/calc_regex.rs:392-408 | count, separator and elements all share the bound, so the total stays within it |
| Interpreter.OccurrenceCountExact | src/calc_regex.rs:479-496 | the whole occurrence count reads exactly `length` bytes |
| Interpreter.OccurrenceCountExactAfterCount | src/calc_regex.rs:485-496 | a count of zero is the subtraction-overflow panic of `0..count-1` |
| Interpreter.ElementsExact | src/calc_regex.rs:488-495 | `count - 1` bounded elements and a last exact one read exactly the remaining length |
| Interpreter.UnboundedTimes | src/calc_regex.rs:291-293 | the reader advances; zero elements read nothing; a failure of the first element is the failure |
| Interpreter.UnboundedTimesSplit | src/calc_regex.rs:291-293 | reading `a + b` elements is reading `a`, then `b` from where those ended, and a failure among the first `a` is the failure |
| Interpreter.UnboundedTimesOne | src/calc_regex.rs:291-293 | one element is one unbounded read of the element node |
| Interpreter.BoundedTimes | src/calc_regex.rs:365-367 | `k` elements that each subtract what they read from the running bound read at most the bound in total, and the result is that total |
| ParseFacts.OwnBoundMakesUnboundedBounded | src/reader.rs:220-223 | a node with its own bound parses the same under the unbounded wrapper and under the bounded wrapper given that bound |
| Matching.UnboundedFrom | src/reader.rs:294-296 | the loop stops at the shortest matching prefix, or fails with `UnexpectedEof` when no prefix of the rest matches |
| Matching.MatchUnbounded | src/reader.rs:290-300 | consumes the shortest matching prefix, and fails exactly when no prefix matches |
| Matching.BoundedFrom | src/reader.rs:310-320 | each iteration reads one byte and tests the prefix; the result is the shortest match within the iterations left, the bytes read, or `UnexpectedEof` |
| Matching.MatchBounded | src/reader.rs:302-321 | an empty match consumes nothing; otherwise the shortest matching prefix of at most `bound` bytes, or `Regex` with exactly `bound` bytes read, or `UnexpectedEof` |
| Matching.BoundedAgreesWithUnbounded | src/reader.rs:290-321 | when a match exists, the bounded loop returns the unbounded loop's result exactly when the shortest match fits the bound |
| Matching.ShortestMatchUnique | src/reader.rs:290-321 | there is only one shortest match |
| Matching.MatchExact | src/reader.rs:324-340 | succeeds exactly when the next `length` bytes exist and match; too few bytes is `UnexpectedEof`, a mismatch carries the bytes read |
| Matching.FoobarShortest | src/reader.rs:1312-1324 | on `foobar`, six letters first match at length 6 |
| Matching.BoundedExample | src/reader.rs:1312-1357 | on `foobar` with `[a-z]{6}`, a bound of 6 or more consumes all six bytes, and a bound of 5 fails with the five bytes read |
| Parsing.InitCapture | src/reader.rs:347-360 | pushes an empty single capture under the name at the current position |
| Parsing.GetRecord | src/reader.rs:100-109 | an empty stack panics, a repeat on top panics, otherwise the record is the popped capture with the bytes split off the input |
| Parsing.ParseRoot | src/reader.rs:135-146 | a nameless root panics; on success the stack holds only the root capture, closed at the current position |
| Parsing.Parse | src/reader.rs:135-151 | on success the record holds every byte from the record start to the end of the input, and the reader is left empty with position 0 |
| Parsing.ParseRecord | src/reader.rs:182-194 | on success the record holds the bytes up to where the root ended, and the reader starts a new record there |
| Parsing.NextRecord | src/reader.rs:902-909 | no item exactly when the input is used up, otherwise the next `parse_record` |
| Parsing.ParseIsParseRecordAtEnd | src/reader.rs:135-194 | `parse` is `parse_record` when no input is left, fails alike, and is `TrailingCharacters` otherwise |
| Input.ArrayInput.Pos | src/reader.rs:1129-1131 | the position counts from the record start |
| Input.ArrayInput.ReadNext | src/reader.rs:1137-1144 | advances by one byte, or is `UnexpectedEof` at the end |
| Input.ArrayInput.ReadNAsWritten | src/reader.rs:1146-1153 | the source's `pos + n` check, including the overflow panic of `pos + n` |
| Input.ArrayInput.ReadN | src/reader.rs:1146-1153 | advances by exactly `n` bytes when they exist, otherwise `UnexpectedEof` |
| Input.ArrayInput.IsEmpty | src/reader.rs:1155-1157 | true exactly at the end of the input |
| Input.ArrayInput.SplitHere | src/reader.rs:1159-1163 | returns the bytes read since the record start, and the new record starts at the cursor |
| Input.NewInput | src/reader.rs:1121-1127 | starts at position 0 with no bytes read |
| Input.ReadNCompose | src/reader.rs:1146-1153 | reading `m` then `n` bytes is reading `m + n` bytes |
| Input.ReadOneIsReadNext | src/reader.rs:1137-1153 | reading one byte is `read_next` |
| Input.ReadNAgreesWithoutOverflow | src/reader.rs:1146-1153 | where `pos + n` does not overflow, the written check and the corrected one agree |
| Input.ReadNOverflowExample | src/reader.rs:1146-1153 | one byte into a two-byte input, `read_n(usize::MAX)` overflows as written but is `UnexpectedEof` when corrected |
| Input.InputExample | src/reader.rs:1277-1309 | the `input` unit test on `foo` |
| Captures.LastWhere | src/reader.rs:499-509 | the topmost stack entry satisfying the predicate, and none exactly when no entry does |
| Captures.TickCount | src/reader.rs:543-547 | the number of ticks the loop appends: the first tick count whose name is free, all shorter names being taken |
| Captures.UniqueName | src/reader.rs:531-549 | the name with ticks appended, not a key of the innermost single capture, with every shorter ticked name taken |
| Captures.ScopeKeys | src/reader.rs:533-543 | the child names of the innermost single capture, or none when there is none |
| Captures.InitCapture | src/reader.rs:347-360 | pushes an empty single capture and leaves the stack below unchanged |
| Captures.FinalizeCapture | src/reader.rs:363-374 | succeeds exactly on a stack of one single capture under the root name, and then closes it at the position |
| Captures.StartRepeat | src/reader.rs:377-384 | pushes an unnamed empty repeat |
| Captures.StartCapture | src/reader.rs:415-430 | pushes an empty capture under the unique name for the scope |
| Captures.AttachSingle | src/reader.rs:453-479 | attaching to a repeat appends the capture and names the repeat by its first element; a later element with another name fails the assertion; attaching to a single capture inserts it as a child under the saved name |
| Captures.FinishCapture | src/reader.rs:436-480 | pops a single capture whose saved name extends the given one, closes it at the position and attaches it to the nearest non-`$` entry; an empty stack, a repeat on top or a name mismatch panics |
| Captures.FinishRepeat | src/reader.rs:386-410 | pops a repeat and inserts it under its name into the nearest non-`$` single capture; an empty stack or a single capture on top panics |
| Captures.StackWithinMonotone | src/reader.rs:415-430 | spans within `n` bytes stay within any later position |
| Captures.StartCaptureKeepsWithin | src/reader.rs:415-430 | starting a capture keeps every span within the bytes read |
| Captures.StartRepeatKeepsWithin | src/reader.rs:377-384 | starting a repeat keeps every span within the bytes read |
| Captures.FinishCaptureKeepsWithin | src/reader.rs:436-480 | finishing a capture keeps every span within the bytes read |
| Captures.FinishRepeatKeepsWithin | src/reader.rs:386-410 | finishing a repeat keeps every span within the bytes read |
| Captures.FinalizeCaptureKeepsWithin | src/reader.rs:363-374 | the finalized root capture lies within the bytes read |
| Captures.SpecialScopeIsTransparent | src/reader.rs:452-478 | a capture finished inside a `$` scope becomes a child of the scope's parent, not of the scope |
| Captures.TicksExample | src/reader.rs:531-549 | `foo`, `foo'`, `foo''` for zero, one and two earlier captures named `foo` |
| Captures.RepeatNamingExample | src/reader.rs:459-470 | a repeat takes the name of its first element and collects later elements under it |
| Records.Split | src/reader.rs:798 | the parts contain no separator and join back to the input |
| Records.SplitJoin | src/reader.rs:798 | splitting the join of separator-free parts gives the parts back |
| Records.RSplitOnce | src/reader.rs:865-873 | no separator gives the whole string; otherwise the text before the last separator and the separator-free rest |
| Records.ParseFragment | src/reader.rs:800-813 | a fragment without `[` is a plain name; errors only when a `[` is present; a parsed name holds no `[` |
| Records.ParseFragmentErrors | src/reader.rs:800-813 | a missing `]` and a non-numeric index are the two `InvalidCaptureName` messages |
| Records.ParseRenderFragment | src/reader.rs:800-813 | a rendered `name[i]` fragment parses back to the name and index |
| Records.Descend | src/reader.rs:814-847 | `NoSuchName`, `MisplacedRepeatAccess` for an index on a single, `MisplacedSingleAccess` for no index on a repeat, `OutOfBounds(index, len)`, or the child |
| Records.Step | src/reader.rs:798-847 | one loop iteration: a fragment error, or the descent it selects |
| Records.Resolve | src/reader.rs:798-850 | the loop over the fragments: no fragment leaves the start capture, a failing first step is the failure, one fragment is one step (its partner `Records.ResolveConcat` splits any path) |
| Records.GetSingleCapture | src/reader.rs:789-851 | a name without a dot is one step from the root, and a plain name is a direct child lookup with `NoSuchName` or the misplaced-access errors; `Records.GetSingleCaptureFollowsPath` gives any rendered path |
| Records.GetSingleCaptureFollowsPath | src/reader.rs:789-851 | resolving the rendered dotted path follows the selectors one by one |
| Records.GetSingleCaptureConcat | src/reader.rs:789-851 | resolving `a.b` is resolving `b` from the result of `a` |
| Records.SingleFragment | src/reader.rs:789-851 | a name without dots is one step from the root |
| Records.GetRepeatCaptures | src/reader.rs:860-888 | the text before the last dot resolves as a single capture, and the last fragment must name a repeat there |
| Records.NestedRepeatParent | src/reader.rs:860-888 | the repeat `init.last` is the repeat `last` under the single capture `init` |
| Records.RepeatElementAgrees | src/reader.rs:789-888 | the `i`-th repeat element is what `name[i]` resolves to |
| Records.NestedRepeatElementAgrees | src/reader.rs:789-888 | the same under a dotted prefix |
| Records.GetRepeatCapturesWithin | src/reader.rs:860-888 | the repeat elements lie within the data |
| Records.Record.GetCapture | src/reader.rs:639-644 | fails exactly as the name resolution fails, otherwise gives the bytes of the capture's span |
| Records.Record.GetCaptures | src/reader.rs:669-679 | one byte span per repeat element, in order |
| Parsing.ParseGetAll | src/reader.rs:697-699 | `get_all` on a parsed record is every byte from the record start to the end of the input, and the root capture spans them all |
| Records.Record.GetSubRecord | src/reader.rs:721-730 | a valid view of the same record rooted at the resolved capture |
| Records.Record.GetSubRecords | src/reader.rs:756-766 | one valid view per repeat element, in order |
| Records.SubRecord.GetCapture | src/reader.rs:935-938 | names resolve from the view's capture, and the bytes come from the whole record |
| Records.SubRecord.GetCaptures | src/reader.rs:944-951 | one byte span of the record per repeat element under the view |
| Records.SubRecordGetAllIsCapture | src/reader.rs:957-959 | a sub-record exists exactly when the capture of that name does, and its `get_all` is that capture's bytes, from a record or from another sub-record |
| Records.SubRecord.GetSubRecord | src/reader.rs:965-971 | a nested view of the same record |
| Records.SubRecord.GetSubRecords | src/reader.rs:977-988 | one nested view per repeat element |
| Records.SubRecordQueryAgrees | src/reader.rs:639-644 | querying `a.b` on a record is querying `b` on the sub-record `a` |
| Records.RecordIsRootSubRecord | src/reader.rs:935-959 | a record answers like the sub-record rooted at its own capture |
| Records.PlainQueryExamples | src/reader.rs:814-847 | a single found, an unknown name, a repeat without index, a repeat found, a single asked for as a repeat |
| Records.IndexQueryExamples | src/reader.rs:826-836 | an index in range and one at the length |
| Records.MisplacedIndexExample | src/reader.rs:818-822 | an index on a single capture |
| Records.MissingBracketExample | src/reader.rs:802-806 | `b[1` lacks its `]` |
| Records.NonNumericExample | src/reader.rs:808-812 | `b[x]` has a non-numeric index |
| Generate.Join | src/generate.rs:59-121 | keeps `is_choice`; keeps the three-field invariant; the total is known exactly when both lengths are; outside a choice the lengths add; in a choice the branch grows and the total is the larger; any state breaking the invariant panics |
| Generate.JoinRejectsInconsistent | src/generate.rs:111-121 | every inconsistent state panics with the source's message |
| Generate.DefaultAttributes | src/generate.rs:125-137 | the empty regex is no choice, of known length 0 |
| Generate.Utf8Length | src/generate.rs:256-262 | a string's byte length is at least its character count |
| Generate.Utf8LengthOne | src/generate.rs:154-156 | a string is one byte long exactly when it is one ASCII character |
| Generate.IsAtomic | src/generate.rs:152-165 | atomic exactly when the pattern is one ASCII character (one byte), or starts with `(` and ends with `)`, or starts with `[` and ends with `]` |
| Generate.HexByte | src/generate.rs:264 | the byte is the base-16 value of the text, and there is none exactly when the text is not base-16 digits or its value is 256 or more |
| Generate.HexByteRoundTrip | src/generate.rs:264 | every byte written in base 16, in either case, reads back as itself |
| Generate.StepOf | src/generate.rs:236-378 | literal: its byte length; identifier and parentheses: the operand's maximum length; repeat: `n` times the element's maximum, unbounded for an unbounded element, the multiply-overflow panic at 2^64; byte literal and ranges: 1; choice exactly a new branch; star and plus exactly unbounded; a calc-regex identifier is the `Found CalcRegex in regular production rule!` panic; a byte literal fails exactly when its text is not a hex byte, with the non-hex panic; a char range succeeds exactly when both ends are one ASCII character in order, a hex range exactly when both ends are hex bytes in order, with the not-single, non-hex and reversed panics |
| Generate.ApplyStep | src/generate.rs:236-378 | keeps the invariant; a choice keeps the total; a star forgets all lengths |
| Generate.ApplyAttributes | src/generate.rs:236-378 | the attribute result of one production is its step applied to the previous attributes |
| Generate.Fold | src/generate.rs:236-378 | the attributes built left to right keep the invariant, and fail only by overflow |
| Generate.Branches | src/generate.rs:284-296 | there is at least one branch |
| Generate.MaxLen | src/generate.rs:74-81 | known exactly when both lengths are |
| Generate.FoldMatchesMaxMatchLength | src/generate.rs:59-121 | for every step sequence, the attributes agree with the independent account: the choice flag is a top-level bar, the total is the longest branch, and the current choice length is the last branch |
| Generate.StepAgrees | src/generate.rs:236-378 | one step keeps that agreement |
| Generate.ElementAgrees | src/generate.rs:59-121 | one element keeps that agreement |
| Generate.ElementAgreesOutsideChoice | src/generate.rs:85-91 | outside a choice, the one branch grows by the element |
| Generate.ElementAgreesInChoice | src/generate.rs:68-84 | in a choice, the last branch grows by the element and the total is the longer branch |
| Generate.ElementBranches | src/generate.rs:59-121 | an element extends the last branch |
| Generate.NoBarOneBranch | src/generate.rs:284-296 | without a bar there is one branch |
| Generate.LengthExamples | src/tests/generate/regex.rs:345-592 | 4+4+4 gives 12, `foo \| foo, bar \| bar` gives 8, a trailing star gives no bound, and `"foo"^3` gives 9 |
| Generate.Compile | src/generate.rs:185-201 | appends one regex node under the name, bounded by the regex's maximum length; it fails exactly when the name is taken |
| Generate.StructuralInner | src/generate.rs:443-486 | the node built for a structural production has exactly the production's operands as children |
| Generate.ApplyCalc | src/generate.rs:408-486 | old nodes and the root are kept; a regex operand or a structural production appends exactly its node at index `len`; outside identifiers it fails exactly when the name is taken or an occurrence count's target is unnamed, which panics |
| Generate.ApplyIdentifier | src/generate.rs:414-439 | the new nodes are appended without touching old nodes or the root; a regex operand is compiled first, at index `len`, under the identifier's name; a named identifier ends in an unbounded node under that name referring to the operand's node; an anonymous identifier returns the operand's node as is; with a rule name the arena is exactly the old nodes, the compiled regex if any, and the reference; it fails exactly when the identifier or the rule name is taken, and every failure is a panic |
| Generate.ApplyCalcPreservesArena | src/generate.rs:408-486 | every production keeps the arena acyclic with unique names |
| Generate.ApplyIdentifierPreservesArena | src/generate.rs:414-439 | so does an identifier |
| Aux.FromStrRadix | src/aux.rs:36-51 | some value only for a non-empty digit string, with an optional `+`, whose positional value fits a word |
| Aux.Latin1 | src/aux.rs:37 | reads each byte as the character of that code |
| Aux.ToDigits | src/aux.rs:36-51 | every number has a non-empty digit string |
| Aux.DigitsValueOfToDigits | src/aux.rs:36-51 | reading back the digits of `n` gives `n` |
| Aux.FromStrRadixRoundTrip | src/aux.rs:36-51 | parsing the digits of any word-sized `n` gives `n` |
| Aux.Decimal | src/aux.rs:36-39 | a count exactly when the bytes are decimal digits after an optional `+`, at least one, with a value below 2^64; the count is that value (`Aux.DecimalRoundTrip` is the converse) |
| Aux.Hex | src/aux.rs:48-51 | a count exactly when the bytes are hex digits of either case after an optional `+`, at least one, with a value below 2^64; the count is that value (`Aux.HexRoundTrip` is the converse) |
| Aux.DecimalRoundTrip | src/aux.rs:36-39 | `decimal` decodes the decimal digits of every word-sized `n` to `n` |
| Aux.HexRoundTrip | src/aux.rs:48-51 | `hex` decodes the hex digits, in either case, of every word-sized `n` to `n` |
| Aux.DecimalExamples | src/aux.rs:95-98 | `42` gives 42, `ab` gives none |
| Aux.HexExamples | src/aux.rs:100-104 | `2A` and `2a` give 42 |
| Aux.HexRejectExamples | src/aux.rs:104-106 | `a` gives 10, `g` and `0x2a` give none |
| Aux.LittleEndian | src/aux.rs:60-69 | none exactly for more than eight bytes, otherwise a value below `256^len` |
| Aux.BigEndian | src/aux.rs:78-88 | none exactly for more than eight bytes, otherwise a value below `256^len` |
| Aux.BeEqualsLeOfReverse | src/aux.rs:64-87 | the big-endian sum is the little-endian sum of the reversed bytes |
| Aux.BigEndianIsLittleEndianReversed | src/aux.rs:60-88 | `big_endian(b)` is `little_endian(reverse(b))` for every `b` |
| Aux.LittleEndianTrailingZeros | src/aux.rs:60-69 | zero bytes at the end do not change the little-endian value |
| Aux.LeadingZerosBigEndian | src/aux.rs:78-88 | zero bytes at the front do not change the big-endian value |
| Aux.LittleEndianRoundTrip | src/aux.rs:60-69 | `little_endian` inverts the little-endian encoding of every value that fits |
| Aux.EndianExamples | src/aux.rs:109-152 | the two- and four-byte cases of the `little_endian` and `big_endian` unit tests, and more than eight bytes giving none |
| Aux.WordExamples | src/aux.rs:116-152 | a full eight-byte word decodes in either byte order |

## Left out

- `StreamInput` and `IoError`: stream I/O is not modelled. Only `ArrayInput` is.
- The `generate!` macro: this is token-tree rewriting. The model takes the productions and the graph as values.
- Regex string assembly, escaping and compilation by the `regex` crate: the model keeps the compiled regex as a predicate and the length bookkeeping.
- Generate.Compile: the `RefCell` cache is left out. In the source, that cache returns an already compiled node a second time instead of pushing a new one. Without it, a second use of the same regex identifier pushes another node under the identifier's name, which the duplicate-name assertion of `push_node` (src/calc_regex.rs:254-256) refuses. So a grammar that uses a regex identifier twice, such as `baz := foo, bar, foo` (src/reader.rs:624-628), panics in the model where the source reuses the cached node.
- `Display`/`Error` impls and `Debug` printing (`print_captures`): these are formatting only.
- Rust lifetimes: a sub-record is a record paired with one of its captures. The capture and sub-record iterators are returned as sequences.
- The reader state after a failed parse: the model returns only the fault, not the half-built capture stack left behind.
- Interpreter.RepeatExact, `Interpreter.OccurrenceCountExactAfterCount` and `Interpreter.LengthCountExactAfterCount` model the `n - 1`, `count - 1` and `length - count` underflows as the panic of a debug build, not as preconditions. A release build would wrap around instead; that is not modelled.
- Interpreter.KleeneStarExact: an element that reads nothing gives `Hangs`, the value standing for the source's endless loop.
- Interpreter.InnerBounded: the split of the bound in a concatenation, where the left side gets `bound` and the right side what the left side left, is only in the function body. The contract states the total.
- Interpreter.RepeatBounded: that each element is bounded by what the elements before it left is only in the body of `Interpreter.BoundedTimes`. The contracts state the running total.
- Interpreter.InnerBounded and `Interpreter.InnerExact`: the property that each count production reports `ConflictingBounds` is stated on `Interpreter.LengthCountBoundedAfterCount` and `Interpreter.LengthCountExactAfterCount`. The dispatch to them is the function body, not a separate lemma.
- Matching.MatchExact: reads with the corrected `read_n`, whose past-the-end test cannot overflow. As written, `read_n(usize::MAX)` part-way into an input is the `pos + n` overflow panic of a debug build; the Findings table gives that case and `Input.ArrayInput.ReadNAsWritten` models it.
- Interpreter.RepeatUnbounded, `Interpreter.OccurrenceCountUnbounded` and `Interpreter.UnboundedTimes`: the contents of the repeat capture they build (one entry per element) are not stated; the contracts speak of the bytes read and the failures.
- Aux.FromStrRadix: the contract states only what a successful parse implies (an optional `+`, then digits of the radix, with their value below 2^64). The converse, that every word-sized value's digits parse back, is stated separately by `Aux.FromStrRadixRoundTrip`.
- Parsing.Parse: the root's own name never becoming queryable is not proved. The model's `Record` keeps no root name, and queries resolve from the root capture's children, so stating it would need a frame property of the capture stack across the whole parse, which the model does not carry.
- Graph.CalcRegex.SetRootLengthBound requires the root to exist; the source indexes the arena there and would panic on an out-of-range root.
- Generate.StepOf: a literal longer than `usize::MAX` bytes gets an unknown length. Such a literal cannot exist in the source.
- The `is_atomic` check on the operand of a star, plus or repeat only decides the parentheses of the regex text. Since the text is not modelled, neither is that choice.

## Findings

| source | as written | input that shows it | evidently intended | confidence | as-written member | corrected member |
|---|---|---|---|---|---|---|
| src/reader.rs:1146-1153 | `read_n` tests `self.pos + n > self.input.len()`, and `pos + n` can overflow `usize` | one byte into a two-byte input, `read_n(usize::MAX)`: the sum overflows, which panics in a debug build and wraps in a release build | a request past the end is `UnexpectedEof`, as `read_next` and every shorter request are | not executed | Input.ArrayInput.ReadNAsWritten, Input.ReadNOverflowExample | Input.ArrayInput.ReadN, Input.ReadNAgreesWithoutOverflow |

=== FILE: aux.dfy ===
/** Decoders for count fields: `decimal`, `hex`, `little_endian` and
    `big_endian` turn the bytes spanned by a count sub-expression into a
    `usize`, or reject them. */
module Aux {
  import opened Primitives
  import opened Wrappers

  /*** Digit strings (`str::parse::<usize>` and `usize::from_str_radix`) ***/

  /** `char::to_digit` before the radix check: the value of an ASCII
      alphanumeric character, letters of either case counting from 10. */
  function DigitValue(c: char): Option<nat> {
    if '0' <= c <= '9' then Some(c as int - '0' as int)
    else if 'a' <= c <= 'z' then Some(c as int - 'a' as int + 10)
    else if 'A' <= c <= 'Z' then Some(c as int - 'A' as int + 10)
    else None
  }

  predicate IsDigit(c: char, radix: nat) {
    DigitValue(c).Some? && DigitValue(c).value < radix
  }

  predicate AllDigits(s: seq<char>, radix: nat) {
    forall i :: 0 <= i < |s| ==> IsDigit(s[i], radix)
  }

  /** The value of a digit string read most significant digit first. */
  function DigitsValue(s: seq<char>, radix: nat): nat
    requires AllDigits(s, radix)
  {
    if |s| == 0 then 0
    else DigitsValue(s[..|s| - 1], radix) * radix + DigitValue(s[|s| - 1]).value
  }

  /** `usize::from_str_radix`: an optional leading `+` followed by at least
      one digit of the radix, whose value must fit a `usize`. */
  function FromStrRadix(s: seq<char>, radix: nat): (r: Option<usize>)
    requires 2 <= radix <= 36
    ensures r.Some? ==> |s| > 0 && s != "+"
    ensures r.Some? && s[0] != '+' ==> AllDigits(s, radix) && r.value == DigitsValue(s, radix)
    ensures r.Some? && s[0] == '+' ==> AllDigits(s[1..], radix) && r.value == DigitsValue(s[1..], radix)
  {
    if |s| == 0 || s == "+" then None
    else
      var digits := if s[0] == '+' then s[1..] else s;
      if AllDigits(digits, radix) && DigitsValue(digits, radix) < USIZE_LIMIT
      then Some(DigitsValue(digits, radix))
      else None
  }

  /** Reads bytes as Latin-1 characters. A byte string that is not ASCII
      holds a byte of 128 or more, which is no digit, so parsing it fails
      exactly when `str::from_utf8` or the digit check would. */
  function Latin1(bytes: seq<byte>): (s: seq<char>)
    ensures |s| == |bytes|
    ensures forall i :: 0 <= i < |bytes| ==> s[i] as int == bytes[i]
  {
    seq(|bytes|, i requires 0 <= i < |bytes| => bytes[i] as char)
  }

  /** The digits of a count field: the bytes after an optional leading
      `+`, read as characters. */
  function Unsigned(bytes: seq<byte>): (s: seq<char>)
    ensures |s| == if |bytes| > 0 && bytes[0] == 0x2B then |bytes| - 1 else |bytes|
  {
    Latin1(if |bytes| > 0 && bytes[0] == 0x2B then bytes[1..] else bytes)
  }

  /** `Unsigned` is what `FromStrRadix` strips the sign from. */
  lemma {:induction false} UnsignedIsStripped(bytes: seq<byte>)
    ensures var s := Latin1(bytes);
      Unsigned(bytes) == if |s| > 0 && s[0] == '+' then s[1..] else s
  {
    var s := Latin1(bytes);
    if |bytes| > 0 {
      assert s[0] == '+' <==> bytes[0] == 0x2B;
    }
  }

  /** `aux::decimal` (src/aux.rs:36-39): a count written in decimal ASCII
      digits after an optional `+`, fitting a `usize`; anything else, bytes
      that are not UTF-8 included, is no count. */
  function Decimal(bytes: seq<byte>): (r: Option<usize>)
    ensures r.Some? <==>
      |Unsigned(bytes)| > 0 && AllDigits(Unsigned(bytes), 10) && DigitsValue(Unsigned(bytes), 10) < USIZE_LIMIT
    ensures r.Some? ==> AllDigits(Unsigned(bytes), 10) && r.value == DigitsValue(Unsigned(bytes), 10)
  {
    UnsignedIsStripped(bytes);
    FromStrRadix(Latin1(bytes), 10)
  }

  /** `aux::hex` (src/aux.rs:48-51): the same with hexadecimal digits of
      either case. */
  function Hex(bytes: seq<byte>): (r: Option<usize>)
    ensures r.Some? <==>
      |Unsigned(bytes)| > 0 && AllDigits(Unsigned(bytes), 16) && DigitsValue(Unsigned(bytes), 16) < USIZE_LIMIT
    ensures r.Some? ==> AllDigits(Unsigned(bytes), 16) && r.value == DigitsValue(Unsigned(bytes), 16)
  {
    UnsignedIsStripped(bytes);
    FromStrRadix(Latin1(bytes), 16)
  }

  /*** Rendering digit strings: the inverse of the parsers ***/

  function DigitChar(d: nat, upper: bool): (c: char)
    requires d < 36
    ensures DigitValue(c) == Some(d)
  {
    if d < 10 then ('0' as int + d) as char
    else if upper then ('A' as int + d - 10) as char
    else ('a' as int + d - 10) as char
  }

  /** The shortest digit string of `n` in `radix`, letters in upper or
      lower case. */
  function ToDigits(n: nat, radix: nat, upper: bool): (s: seq<char>)
    requires 2 <= radix <= 36
    ensures |s| > 0 && AllDigits(s, radix)
    decreases n
  {
    if n < radix then [DigitChar(n, upper)]
    else
      DivMod(n, radix);
      ToDigits(n / radix, radix, upper) + [DigitChar(n % radix, upper)]
  }

  lemma {:induction false} DigitsValueOfToDigits(n: nat, radix: nat, upper: bool)
    requires 2 <= radix <= 36
    ensures DigitsValue(ToDigits(n, radix, upper), radix) == n
    decreases n
  {
    var s := ToDigits(n, radix, upper);
    if n < radix {
      assert s[..0] == [];
    } else {
      var q, d := n / radix, n % radix;
      DivMod(n, radix);
      var p := ToDigits(q, radix, upper);
      assert s == p + [DigitChar(d, upper)];
      assert s[..|s| - 1] == p;
      DigitsValueOfToDigits(q, radix, upper);
      assert DigitValue(s[|s| - 1]).value == d;
      assert DigitsValue(s, radix) == q * radix + d;
    }
  }

  lemma {:induction false} DivMod(n: nat, radix: nat)
    requires 2 <= radix <= n
    ensures n / radix < n && n == (n / radix) * radix + n % radix && n % radix < radix
  {
  }

  /** Every `usize` survives rendering and parsing, in any radix and either
      letter case. */
  lemma {:induction false} FromStrRadixRoundTrip(n: nat, radix: nat, upper: bool)
    requires 2 <= radix <= 36 && n < USIZE_LIMIT
    ensures FromStrRadix(ToDigits(n, radix, upper), radix) == Some(n)
  {
    var s := ToDigits(n, radix, upper);
    DigitsValueOfToDigits(n, radix, upper);
    assert IsDigit(s[0], radix);
    assert s[0] != '+';
  }

  /** ASCII characters as bytes. */
  function Ascii(s: seq<char>): (b: seq<byte>)
    requires forall i :: 0 <= i < |s| ==> s[i] as int < 256
    ensures Latin1(b) == s
  {
    seq(|s|, i requires 0 <= i < |s| => s[i] as int)
  }

  lemma {:induction false} DecimalRoundTrip(n: nat)
    requires n < USIZE_LIMIT
    ensures Decimal(Ascii(ToDigits(n, 10, false))) == Some(n)
  {
    FromStrRadixRoundTrip(n, 10, false);
  }

  /** `hex` accepts upper-case and lower-case digits alike. */
  lemma {:induction false} HexRoundTrip(n: nat, upper: bool)
    requires n < USIZE_LIMIT
    ensures Hex(Ascii(ToDigits(n, 16, upper))) == Some(n)
  {
    FromStrRadixRoundTrip(n, 16, upper);
  }

  /** The `decimal` unit tests of src/aux.rs:95-98. */
  lemma {:induction false} DecimalExamples()
    ensures Decimal([0x34, 0x32]) == Some(42)
    ensures Decimal([0x61, 0x62]) == None
  {
    assert Latin1([0x34, 0x32]) == "42";
    assert DigitsValue("4", 10) == 4 by { assert "4"[..0] == ""; }
    assert "42"[..1] == "4";
    assert Latin1([0x61, 0x62]) == "ab";
    assert !IsDigit('a', 10);
  }

  /** The `hex` unit tests of src/aux.rs:100-107: either letter case is a
      digit, `g` and a `0x` prefix are not. */
  lemma {:induction false} HexExamples()
    ensures Hex([0x32, 0x41]) == Some(42) && Hex([0x32, 0x61]) == Some(42)
  {
    assert Latin1([0x32, 0x41]) == "2A";
    assert Latin1([0x32, 0x61]) == "2a";
    assert DigitsValue("2", 16) == 2 by { assert "2"[..0] == ""; }
    assert "2A"[..1] == "2" && "2a"[..1] == "2";
  }

  lemma {:induction false} HexRejectExamples()
    ensures Hex([0x61]) == Some(10)
    ensures Hex([0x67]) == None
    ensures Hex([0x30, 0x78, 0x32, 0x61]) == None
  {
    assert Latin1([0x61]) == "a";
    assert DigitsValue("a", 16) == 10 by { assert "a"[..0] == ""; }
    assert Latin1([0x67]) == "g";
    assert !IsDigit('g', 16);
    assert Latin1([0x30, 0x78, 0x32, 0x61]) == "0x2a";
    assert !IsDigit("0x2a"[1], 16);
  }

    /*** Fixed-width binary counts ***/

  function Pow256(i: nat): (p: nat)
    ensures p > 0
  {
    if i == 0 then 1 else 256 * Pow256(i - 1)
  }

  /** The accumulator of the `little_endian` loop after its first `n`
      iterations: the sum of `bytes[i] * 256^i` for `i < n`. */
  function LeSum(bytes: seq<byte>, n: nat): nat
    requires n <= |bytes|
  {
    if n == 0 then 0 else LeSum(bytes, n - 1) + bytes[n - 1] * Pow256(n - 1)
  }

  /** The accumulator of the `big_endian` loop after its first `n`
      iterations: the sum of `bytes[i] * 256^(len - 1 - i)` for `i < n`. */
  function BeSum(bytes: seq<byte>, n: nat): nat
    requires n <= |bytes|
  {
    if n == 0 then 0 else BeSum(bytes, n - 1) + bytes[n - 1] * Pow256(|bytes| - n)
  }

  lemma {:induction false} LeSumBound(bytes: seq<byte>, n: nat)
    requires n <= |bytes|
    ensures LeSum(bytes, n) < Pow256(n)
  {
    if n > 0 {
      var p := Pow256(n - 1);
      LeSumBound(bytes, n - 1);
      assert LeSum(bytes, n) == LeSum(bytes, n - 1) + bytes[n - 1] * p;
      assert bytes[n - 1] * p <= 255 * p by { ByteTimes(bytes[n - 1], p); }
      assert Pow256(n) == 256 * p;
    }
  }

  lemma {:induction false} ByteTimes(b: byte, p: nat)
    ensures b * p <= 255 * p
  {
  }

  lemma {:induction false} Pow256Monotone(i: nat, j: nat)
    requires i <= j
    ensures Pow256(i) <= Pow256(j)
    decreases j
  {
    if i < j {
      Pow256Monotone(i, j - 1);
    }
  }

  /** `aux::little_endian` (src/aux.rs:60-69): `None` exactly for inputs
      longer than a machine word, otherwise a value below `256^|bytes|`. */
  function LittleEndian(bytes: seq<byte>): (r: Option<usize>)
    ensures r.Some? <==> |bytes| <= WORD_SIZE
    ensures r.Some? ==> r.value < Pow256(|bytes|)
  {
    if |bytes| > WORD_SIZE then None
    else
      LeSumBound(bytes, |bytes|);
      Pow256Monotone(|bytes|, WORD_SIZE);
      Some(LeSum(bytes, |bytes|))
  }

  /** `aux::big_endian` (src/aux.rs:78-88): `None` exactly for inputs longer
      than a machine word, otherwise a value below `256^|bytes|`. */
  function BigEndian(bytes: seq<byte>): (r: Option<usize>)
    ensures r.Some? <==> |bytes| <= WORD_SIZE
    ensures r.Some? ==> r.value < Pow256(|bytes|)
  {
    if |bytes| > WORD_SIZE then None
    else
      BeEqualsLeOfReverse(bytes);
      LeSumBound(Reverse(bytes), |bytes|);
      Pow256Monotone(|bytes|, WORD_SIZE);
      Some(BeSum(bytes, |bytes|))
  }

  function Reverse(bytes: seq<byte>): (r: seq<byte>)
    ensures |r| == |bytes|
    ensures forall i :: 0 <= i < |bytes| ==> r[i] == bytes[|bytes| - 1 - i]
  {
    if |bytes| == 0 then [] else [bytes[|bytes| - 1]] + Reverse(bytes[..|bytes| - 1])
  }

  /** The little-endian sum of the first `n` bytes ignores the bytes after
      them. */
  lemma {:induction false} LeSumPrefix(bytes: seq<byte>, m: nat, n: nat)
    requires n <= m <= |bytes|
    ensures LeSum(bytes, n) == LeSum(bytes[..m], n)
  {
    if n > 0 {
      LeSumPrefix(bytes, m, n - 1);
    }
  }

  /** Peeling the first byte: `le([x] + c) == x + 256 * le(c)`. */
  lemma {:induction false} LeSumFront(x: byte, c: seq<byte>)
    ensures LeSum([x] + c, |c| + 1) == x + 256 * LeSum(c, |c|)
    decreases |c|
  {
    if |c| > 0 {
      var p := c[..|c| - 1];
      var y := c[|c| - 1];
      var b := [x] + c;
      var P := Pow256(|p|);
      assert b[|c|] == y;
      assert LeSum(b, |c| + 1) == LeSum(b, |c|) + y * Pow256(|c|);
      assert LeSum(b, |c|) == LeSum([x] + p, |p| + 1) by {
        LeSumPrefix(b, |c|, |c|);
        assert b[..|c|] == [x] + p;
      }
      LeSumFront(x, p);
      var L := LeSum(p, |p|);
      assert LeSum(c, |c|) == L + y * P by {
        LeSumPrefix(c, |p|, |p|);
        assert c[..|p|] == p;
      }
      assert Pow256(|c|) == 256 * P;
      ShiftByte(x, L, y, P);
    }
  }

  lemma {:induction false} ShiftByte(x: int, L: int, y: int, P: int)
    ensures x + 256 * L + y * (256 * P) == x + 256 * (L + y * P)
  {
  }

  lemma {:induction false} ShiftProduct(A: int, y: int, P: int)
    ensures A * (256 * P) + y * P == (A * 256 + y) * P
  {
  }

  /** The big-endian sum of the first `n` bytes is the big-endian value of
      those bytes alone, shifted past the bytes that follow. */
  lemma {:induction false} BeSumPrefix(bytes: seq<byte>, n: nat)
    requires n <= |bytes|
    ensures BeSum(bytes, n) == BeSum(bytes[..n], n) * Pow256(|bytes| - n)
    decreases n
  {
    if n > 0 {
      var q := bytes[..n];
      var y := bytes[n - 1];
      var P := Pow256(|bytes| - n);
      BeSumPrefix(bytes, n - 1);
      BeSumPrefix(q, n - 1);
      assert q[..n - 1] == bytes[..n - 1];
      var A := BeSum(bytes[..n - 1], n - 1);
      assert BeSum(bytes, n - 1) == A * (256 * P) by {
        assert Pow256(|bytes| - n + 1) == 256 * P;
      }
      assert BeSum(bytes, n) == A * (256 * P) + y * P;
      assert q[n - 1] == y && Pow256(0) == 1 && Pow256(1) == 256;
      assert BeSum(q, n) == A * 256 + y;
      ShiftProduct(A, y, P);
    }
  }

  /** `big_endian(b) == little_endian(reverse(b))` as sums, for any length. */
  lemma {:induction false} BeEqualsLeOfReverse(bytes: seq<byte>)
    ensures BeSum(bytes, |bytes|) == LeSum(Reverse(bytes), |bytes|)
    decreases |bytes|
  {
    if |bytes| > 0 {
      var n := |bytes|;
      var p := bytes[..n - 1];
      var x := bytes[n - 1];
      calc {
        BeSum(bytes, n);
        BeSum(bytes, n - 1) + x;
        { BeSumPrefix(bytes, n - 1); }
        BeSum(p, n - 1) * 256 + x;
        { BeEqualsLeOfReverse(p); }
        LeSum(Reverse(p), n - 1) * 256 + x;
        { LeSumFront(x, Reverse(p)); }
        LeSum([x] + Reverse(p), n);
      }
      assert Reverse(bytes) == [x] + Reverse(p);
    }
  }

  lemma {:induction false} BigEndianIsLittleEndianReversed(bytes: seq<byte>)
    ensures BigEndian(bytes) == LittleEndian(Reverse(bytes))
  {
    BeEqualsLeOfReverse(bytes);
  }

  /** Trailing zero bytes do not change a little-endian value. */
  lemma {:induction false} LittleEndianTrailingZeros(bytes: seq<byte>, k: nat)
    requires |bytes| + k <= WORD_SIZE
    ensures LittleEndian(bytes + seq(k, _ => 0)) == LittleEndian(bytes)
  {
    var z: seq<byte> := seq(k, _ => 0);
    LeSumZeros(bytes + z, |bytes|, |bytes| + k);
    LeSumPrefix(bytes + z, |bytes|, |bytes|);
    assert (bytes + z)[..|bytes|] == bytes;
  }

  lemma {:induction false} LeSumZeros(bytes: seq<byte>, n: nat, m: nat)
    requires n <= m <= |bytes|
    requires forall i :: n <= i < m ==> bytes[i] == 0
    ensures LeSum(bytes, m) == LeSum(bytes, n)
    decreases m
  {
    if m > n {
      LeSumZeros(bytes, n, m - 1);
    }
  }

  /** Leading zero bytes do not change a big-endian value. */
  lemma {:induction false} LeadingZerosBigEndian(bytes: seq<byte>, k: nat)
    requires |bytes| + k <= WORD_SIZE
    ensures BigEndian(seq(k, _ => 0) + bytes) == BigEndian(bytes)
  {
    var z: seq<byte> := seq(k, _ => 0);
    BigEndianIsLittleEndianReversed(z + bytes);
    BigEndianIsLittleEndianReversed(bytes);
    assert Reverse(z + bytes) == Reverse(bytes) + z;
    LittleEndianTrailingZeros(Reverse(bytes), k);
  }

  /** The `k`-byte little-endian encoding of `n`. */
  function LeBytes(n: nat, k: nat): (b: seq<byte>)
    ensures |b| == k
  {
    if k == 0 then [] else [n % 256] + LeBytes(n / 256, k - 1)
  }

  /** The `little_endian` and `big_endian` unit tests of src/aux.rs:109-114
      and 131-137 and the nine-byte cases of 123-128 and 146-151: zero bytes at the
      high end change nothing, zero bytes at the low end scale, and more
      than eight bytes give `None`. */
  lemma {:induction false} EndianExamples()
    ensures LittleEndian([0x0a, 0x0b]) == Some(0x0b0a)
    ensures LittleEndian([0x0a, 0x0b, 0x00, 0x00]) == Some(0x0b0a)
    ensures LittleEndian([0x0a, 0x0b, 0x0c, 0x0d]) == Some(0x0d0c0b0a)
    ensures LittleEndian([0x0d, 0x0c, 0x0b, 0x0a, 0x04, 0x03, 0x02, 0x01, 0x00]) == None
    ensures BigEndian([0x0a, 0x0b]) == Some(0x0a0b)
    ensures BigEndian([0x00, 0x00, 0x0a, 0x0b]) == Some(0x0a0b)
    ensures BigEndian([0x0a, 0x0b, 0x00, 0x00]) == Some(0x0a0b0000)
    ensures BigEndian([0x0a, 0x0b, 0x0c, 0x0d]) == Some(0x0a0b0c0d)
    ensures BigEndian([0x01, 0x02, 0x03, 0x04, 0x0a, 0x0b, 0x0c, 0x0d, 0x00]) == None
  {
    Sums4([0x0a, 0x0b, 0x00, 0x00]);
    Sums4([0x0a, 0x0b, 0x0c, 0x0d]);
    Sums4([0x00, 0x00, 0x0a, 0x0b]);
    var two: seq<byte> := [0x0a, 0x0b];
    assert LeSum(two, 2) == 0x0b0a && BeSum(two, 2) == 0x0a0b by {
      assert Pow256(1) == 0x100;
    }
  }

  /** The eight-byte cases of the 64-bit tests of src/aux.rs:116-129 and
      139-152: a full machine word decodes in either byte order. */
  lemma {:induction false} WordExamples()
    ensures LittleEndian([0x0d, 0x0c, 0x0b, 0x0a, 0x04, 0x03, 0x02, 0x01]) == Some(0x0102_0304_0a0b_0c0d)
    ensures BigEndian([0x01, 0x02, 0x03, 0x04, 0x0a, 0x0b, 0x0c, 0x0d]) == Some(0x0102_0304_0a0b_0c0d)
  {
    assert Pow256(0) == 1 && Pow256(1) == 0x100 && Pow256(2) == 0x1_0000 && Pow256(3) == 0x100_0000;
    assert Pow256(4) == 0x1_0000_0000 && Pow256(5) == 0x100_0000_0000;
    assert Pow256(6) == 0x1_0000_0000_0000 && Pow256(7) == 0x100_0000_0000_0000;
    var le: seq<byte> := [0x0d, 0x0c, 0x0b, 0x0a, 0x04, 0x03, 0x02, 0x01];
    assert LeSum(le, 1) == 0x0d;
    assert LeSum(le, 2) == 0x0c0d;
    assert LeSum(le, 3) == 0x0b_0c0d;
    assert LeSum(le, 4) == 0x0a0b_0c0d;
    assert LeSum(le, 5) == 0x04_0a0b_0c0d;
    assert LeSum(le, 6) == 0x0304_0a0b_0c0d;
    assert LeSum(le, 7) == 0x02_0304_0a0b_0c0d;
    assert LeSum(le, 8) == 0x0102_0304_0a0b_0c0d;
    var be: seq<byte> := [0x01, 0x02, 0x03, 0x04, 0x0a, 0x0b, 0x0c, 0x0d];
    assert BeSum(be, 1) == 0x0100_0000_0000_0000;
    assert BeSum(be, 2) == 0x0102_0000_0000_0000;
    assert BeSum(be, 3) == 0x0102_0300_0000_0000;
    assert BeSum(be, 4) == 0x0102_0304_0000_0000;
    assert BeSum(be, 5) == 0x0102_0304_0a00_0000;
    assert BeSum(be, 6) == 0x0102_0304_0a0b_0000;
    assert BeSum(be, 7) == 0x0102_0304_0a0b_0c00;
    assert BeSum(be, 8) == 0x0102_0304_0a0b_0c0d;
  }

  /** The two sums of four bytes, written out. */
  lemma {:induction false} Sums4(b: seq<byte>)
    requires |b| == 4
    ensures LeSum(b, 4) == b[0] as int + b[1] as int * 0x100 + b[2] as int * 0x1_0000 + b[3] as int * 0x100_0000
    ensures BeSum(b, 4) == b[3] as int + b[2] as int * 0x100 + b[1] as int * 0x1_0000 + b[0] as int * 0x100_0000
  {
    assert Pow256(1) == 0x100 && Pow256(2) == 0x1_0000 && Pow256(3) == 0x100_0000;
    assert Pow256(0) == 1;
    assert LeSum(b, 1) == b[0] as int;
    assert LeSum(b, 2) == b[0] as int + b[1] as int * 0x100;
    assert BeSum(b, 1) == b[0] as int * 0x100_0000;
    assert LeSum(b, 3) == LeSum(b, 2) + b[2] as int * 0x1_0000;
    assert BeSum(b, 2) == b[0] as int * 0x100_0000 + b[1] as int * 0x1_0000;
    assert BeSum(b, 3) == BeSum(b, 2) + b[2] as int * 0x100;
  }

  /** `little_endian` inverts the little-endian encoding of every value that
      fits the width. */
  lemma {:induction false} LittleEndianRoundTrip(n: nat, k: nat)
    requires k <= WORD_SIZE && n < Pow256(k)
    ensures LittleEndian(LeBytes(n, k)) == Some(n)
  {
    LeSumOfLeBytes(n, k);
  }

  lemma {:induction false} LeSumOfLeBytes(n: nat, k: nat)
    requires n < Pow256(k)
    ensures LeSum(LeBytes(n, k), k) == n
  {
    if k > 0 {
      LeSumOfLeBytes(n / 256, k - 1);
      LeSumFront(n % 256, LeBytes(n / 256, k - 1));
    }
  }
}

=== FILE: captures.dfy ===
/** The capture tree a parse builds and the stack of open captures the
    reader keeps while building it. A finished capture is attached to the
    nearest open entry whose name does not start with `$`; names that are
    already taken in the enclosing single capture get tick (`'`) suffixes;
    a repeat capture learns its name from its first element. */
module Captures {
  import opened Wrappers
  import opened Errors

  /** A captured span `[startPos, endPos)` of the record's bytes with the
      named captures found inside it. */
  datatype SingleCapture = SingleCapture(startPos: nat, endPos: nat, children: map<string, Capture>)

  /** A capture is either one span or the spans of a repeated expression. */
  datatype Capture = Single(single: SingleCapture) | Repeat(items: seq<SingleCapture>)

  /** One open entry of the capture stack. */
  datatype Entry = Entry(name: string, capture: Capture)

  type Stack = seq<Entry>

  const UNWRAP_NONE: string := "called `Option::unwrap()` on a `None` value"
  const EXPECTED_SINGLE: string := "Expected single capture."
  const EXPECTED_REPEAT: string := "Expected repeat capture."
  const ASSERT_EQ_FAILED: string := "assertion `left == right` failed"
  const ASSERT_PREFIX_FAILED: string := "assertion failed: saved_name.starts_with(name)"

  /** Entries whose name starts with `$` (`$count`, `$value`) are scopes the
      reader opens for itself; finished captures pass through them. */
  predicate IsSpecial(name: string) {
    |name| > 0 && name[0] == '$'
  }

  predicate Attachable(e: Entry) {
    !IsSpecial(e.name)
  }

  predicate IsSingleEntry(e: Entry) {
    e.capture.Single?
  }

  /** `get_last_where`: the topmost entry satisfying `p`. */
  function LastWhere(stack: Stack, p: Entry -> bool): (r: Option<nat>)
    ensures r.Some? ==> r.value < |stack| && p(stack[r.value])
    ensures r.Some? ==> forall j :: r.value < j < |stack| ==> !p(stack[j])
    ensures r.None? <==> forall j :: 0 <= j < |stack| ==> !p(stack[j])
  {
    if |stack| == 0 then None
    else if p(stack[|stack| - 1]) then Some(|stack| - 1)
    else
      var q := LastWhere(stack[..|stack| - 1], p);
      assert forall j :: 0 <= j < |stack| - 1 ==> stack[j] == stack[..|stack| - 1][j];
      q
  }

  // ---------------------------------------------------------------------
  // Tick suffixes
  // ---------------------------------------------------------------------

  /** `k` tick characters. */
  function Ticks(k: nat): (t: string)
    ensures |t| == k && forall i :: 0 <= i < k ==> t[i] == '\''
  {
    seq(k, _ => '\'')
  }

  /** The names in `keys` of length at least `n`; it shrinks as a name
      grows, which bounds the tick loop. */
  function LongKeys(keys: set<string>, n: nat): set<string> {
    set s | s in keys && |s| >= n
  }

  lemma {:induction false} ProperSubsetSmaller<T>(a: set<T>, b: set<T>)
    requires a < b
    ensures |a| < |b|
  {
    assert b == a + (b - a);
    assert b - a != {};
  }

  lemma {:induction false} TicksPrefix(keys: set<string>, name: string, k: nat)
    requires name in keys
    requires forall j :: 0 <= j < k ==> (name + "'") + Ticks(j) in keys
    ensures forall j :: 0 <= j < k + 1 ==> name + Ticks(j) in keys
  {
    forall j | 0 <= j < k + 1 ensures name + Ticks(j) in keys {
      if j == 0 {
        assert name + Ticks(0) == name;
      } else {
        assert name + Ticks(j) == (name + "'") + Ticks(j - 1);
      }
    }
  }

  /** The number of ticks the `while contains_key` loop of
      `get_unique_name` appends: the first tick count giving a free name,
      every smaller count giving a taken one. */
  function TickCount(keys: set<string>, name: string): (k: nat)
    ensures name + Ticks(k) !in keys
    ensures forall j :: 0 <= j < k ==> name + Ticks(j) in keys
    decreases |LongKeys(keys, |name|)|
  {
    if name !in keys then
      assert name + Ticks(0) == name;
      0
    else
      assert |name + "'"| == |name| + 1;
      assert LongKeys(keys, |name| + 1) < LongKeys(keys, |name|) by {
        assert name in LongKeys(keys, |name|) && name !in LongKeys(keys, |name| + 1);
      }
      ProperSubsetSmaller(LongKeys(keys, |name| + 1), LongKeys(keys, |name|));
      var k := TickCount(keys, name + "'");
      TicksPrefix(keys, name, k);
      assert name + Ticks(1 + k) == (name + "'") + Ticks(k);
      1 + k
  }

  /** The children of the innermost open single capture, which is where
      name clashes are looked for; repeat entries are skipped because
      their elements share one name on purpose. */
  function ScopeKeys(stack: Stack): (keys: set<string>)
    ensures LastWhere(stack, IsSingleEntry).None? ==> keys == {}
    ensures LastWhere(stack, IsSingleEntry).Some? ==>
      keys == stack[LastWhere(stack, IsSingleEntry).value].capture.single.children.Keys
  {
    match LastWhere(stack, IsSingleEntry)
    case None => {}
    case Some(p) => stack[p].capture.single.children.Keys
  }

  /** `get_unique_name`: the name with the fewest ticks appended that is not
      taken in the innermost single capture. */
  function UniqueName(stack: Stack, name: string): (r: string)
    ensures |r| >= |name| && r == name + Ticks(|r| - |name|)
    ensures r !in ScopeKeys(stack)
    ensures forall j :: 0 <= j < |r| - |name| ==> name + Ticks(j) in ScopeKeys(stack)
  {
    name + Ticks(TickCount(ScopeKeys(stack), name))
  }

  // ---------------------------------------------------------------------
  // Stack operations
  // ---------------------------------------------------------------------

  function EmptyCapture(pos: nat): SingleCapture {
    SingleCapture(pos, 0, map[])
  }

  /** `init_capture`: opens the root capture at the cursor. */
  function InitCapture(stack: Stack, name: string, pos: nat): (r: Stack)
    ensures |r| == |stack| + 1 && r[..|stack|] == stack
    ensures r[|stack|].name == name && r[|stack|].capture == Single(EmptyCapture(pos))
  {
    stack + [Entry(name, Single(EmptyCapture(pos)))]
  }

  /** `finalize_capture`: the root capture must be the only entry and carry
      the root's name; it is closed at the cursor and left on the stack. */
  function FinalizeCapture(stack: Stack, name: string, pos: nat): (r: Result<Stack, Fault>)
    ensures r.Success? <==> |stack| == 1 && stack[0].name == name && stack[0].capture.Single?
    ensures r.Failure? ==> r.error.Panic?
    ensures r.Success? ==> r.value == [Entry(name, Single(stack[0].capture.single.(endPos := pos)))]
  {
    if |stack| != 1 then Failure(Panic(ASSERT_EQ_FAILED))
    else if stack[0].name != name then Failure(Panic(ASSERT_EQ_FAILED))
    else match stack[0].capture
      case Single(c) => Success([Entry(name, Single(c.(endPos := pos)))])
      case Repeat(_) => Failure(Panic(EXPECTED_SINGLE))
  }

  /** `start_repeat`: opens an unnamed, empty repeat capture. */
  function StartRepeat(stack: Stack): (r: Stack)
    ensures |r| == |stack| + 1 && r[..|stack|] == stack
    ensures r[|stack|] == Entry("", Repeat([]))
  {
    stack + [Entry("", Repeat([]))]
  }

  /** `start_capture`: opens a single capture at the cursor under a name
      that does not clash with a sibling. */
  function StartCapture(stack: Stack, name: string, pos: nat): (r: Stack)
    ensures |r| == |stack| + 1 && r[..|stack|] == stack
    ensures r[|stack|].capture == Single(EmptyCapture(pos))
    ensures r[|stack|].name !in ScopeKeys(stack)
    ensures r[|stack|].name == UniqueName(stack, name)
  {
    stack + [Entry(UniqueName(stack, name), Single(EmptyCapture(pos)))]
  }

  /** Commits a finished single capture `c` saved under `saved` to the
      parent entry: a repeat gets it appended (and, when it is the first
      element, its name), a single gets it as the child `saved`,
      replacing any child of that name. */
  function AttachSingle(parent: Entry, saved: string, c: SingleCapture): (r: Result<Entry, Fault>)
    ensures r.Failure? <==>
      parent.capture.Repeat? && parent.name != (if |parent.capture.items| == 0 then "" else saved)
    ensures r.Failure? ==> r.error == Panic(ASSERT_EQ_FAILED)
    ensures r.Success? && parent.capture.Repeat? ==>
      r.value == Entry(saved, Repeat(parent.capture.items + [c]))
    ensures r.Success? && parent.capture.Single? ==>
      r.value.name == parent.name && r.value.capture.Single?
      && r.value.capture.single.startPos == parent.capture.single.startPos
      && r.value.capture.single.endPos == parent.capture.single.endPos
      && r.value.capture.single.children.Keys == parent.capture.single.children.Keys + {saved}
      && r.value.capture.single.children[saved] == Single(c)
      && forall k :: k in parent.capture.single.children && k != saved ==>
           r.value.capture.single.children[k] == parent.capture.single.children[k]
  {
    match parent.capture
    case Repeat(items) =>
      if |items| == 0 then
        if parent.name != "" then Failure(Panic(ASSERT_EQ_FAILED))
        else
          assert items + [c] == [c];
          Success(Entry(saved, Repeat([c])))
      else if parent.name != saved then Failure(Panic(ASSERT_EQ_FAILED))
      else Success(Entry(saved, Repeat(items + [c])))
    case Single(s) =>
      Success(Entry(parent.name, Single(s.(children := s.children[saved := Single(c)]))))
  }

  /** `finish_capture`: pops the top single capture, closes it at the
      cursor and commits it to the nearest entry below whose name does not
      start with `$`. Everything else on the stack stays as it was. */
  function FinishCapture(stack: Stack, name: string, pos: nat): (r: Result<Stack, Fault>)
    ensures r.Failure? ==> r.error.Panic?
    ensures r.Success? ==> |stack| >= 1 && stack[|stack| - 1].capture.Single?
    ensures r.Success? ==> name <= stack[|stack| - 1].name
    ensures r.Success? ==> |r.value| == |stack| - 1
    ensures r.Success? ==>
      var top := stack[|stack| - 1];
      var p := LastWhere(stack[..|stack| - 1], Attachable);
      p.Some?
      && AttachSingle(stack[p.value], top.name, top.capture.single.(endPos := pos)) == Success(r.value[p.value])
      && forall j :: 0 <= j < |r.value| && j != p.value ==> r.value[j] == stack[j]
    ensures |stack| == 0 ==> r == Failure(Panic(UNWRAP_NONE))
    ensures |stack| >= 1 && stack[|stack| - 1].capture.Repeat? ==> r == Failure(Panic(EXPECTED_SINGLE))
    ensures |stack| >= 1 && stack[|stack| - 1].capture.Single? && !(name <= stack[|stack| - 1].name) ==>
      r == Failure(Panic(ASSERT_PREFIX_FAILED))
  {
    if |stack| == 0 then Failure(Panic(UNWRAP_NONE))
    else
      var top := stack[|stack| - 1];
      var rest := stack[..|stack| - 1];
      if !top.capture.Single? then Failure(Panic(EXPECTED_SINGLE))
      else if !(name <= top.name) then Failure(Panic(ASSERT_PREFIX_FAILED))
      else
        var c := top.capture.single.(endPos := pos);
        match LastWhere(rest, Attachable)
        case None => Failure(Panic(UNWRAP_NONE))
        case Some(p) =>
          var e :- AttachSingle(rest[p], top.name, c);
          Success(rest[p := e])
  }

  /** `finish_repeat`: pops the top repeat capture and stores it, under the
      name its first element gave it, as a child of the nearest single
      entry below whose name does not start with `$`. */
  function FinishRepeat(stack: Stack): (r: Result<Stack, Fault>)
    ensures r.Failure? ==> r.error.Panic?
    ensures r.Success? ==> |stack| >= 1 && stack[|stack| - 1].capture.Repeat?
    ensures r.Success? ==> |r.value| == |stack| - 1
    ensures r.Success? ==>
      var top := stack[|stack| - 1];
      var p := LastWhere(stack[..|stack| - 1], Attachable);
      p.Some? && stack[p.value].capture.Single?
      && r.value[p.value] == Entry(stack[p.value].name, Single(stack[p.value].capture.single.(
           children := stack[p.value].capture.single.children[top.name := top.capture])))
      && forall j :: 0 <= j < |r.value| && j != p.value ==> r.value[j] == stack[j]
    ensures |stack| == 0 ==> r == Failure(Panic(UNWRAP_NONE))
    ensures |stack| >= 1 && stack[|stack| - 1].capture.Single? ==> r == Failure(Panic(EXPECTED_REPEAT))
  {
    if |stack| == 0 then Failure(Panic(UNWRAP_NONE))
    else
      var top := stack[|stack| - 1];
      var rest := stack[..|stack| - 1];
      if !top.capture.Repeat? then Failure(Panic(EXPECTED_REPEAT))
      else match LastWhere(rest, Attachable)
        case None => Failure(Panic(UNWRAP_NONE))
        case Some(p) =>
          match rest[p].capture
          case Repeat(_) => Failure(Panic(EXPECTED_SINGLE))
          case Single(s) =>
            Success(rest[p := Entry(rest[p].name, Single(s.(children := s.children[top.name := top.capture])))])
  }

  // ---------------------------------------------------------------------
  // Spans stay inside the bytes read
  // ---------------------------------------------------------------------

  /** Every span in the capture is well-ordered and ends at or before `n`. */
  predicate Within(c: Capture, n: nat)
    decreases c, 1
  {
    match c
    case Single(s) => SingleWithin(s, n)
    case Repeat(items) => forall i :: 0 <= i < |items| ==> SingleWithin(items[i], n)
  }

  predicate SingleWithin(s: SingleCapture, n: nat)
    decreases s, 0
  {
    s.startPos <= s.endPos <= n && forall k :: k in s.children ==> Within(s.children[k], n)
  }

  /** An open entry: a single capture has started at or before `n` (its end
      is not set yet) and holds finished children; a repeat holds finished
      elements. */
  predicate OpenWithin(e: Entry, n: nat) {
    match e.capture
    case Single(s) => s.startPos <= n && forall k :: k in s.children ==> Within(s.children[k], n)
    case Repeat(items) => forall i :: 0 <= i < |items| ==> SingleWithin(items[i], n)
  }

  /** The invariant of the capture stack relative to the cursor `n`. */
  predicate StackWithin(stack: Stack, n: nat) {
    forall j :: 0 <= j < |stack| ==> OpenWithin(stack[j], n)
  }

  lemma {:induction false} WithinMonotone(c: Capture, n: nat, m: nat)
    requires Within(c, n) && n <= m
    ensures Within(c, m)
    decreases c, 1
  {
    match c
    case Single(s) => SingleWithinMonotone(s, n, m);
    case Repeat(items) =>
      forall i | 0 <= i < |items| ensures SingleWithin(items[i], m) {
        SingleWithinMonotone(items[i], n, m);
      }
  }

  lemma {:induction false} SingleWithinMonotone(s: SingleCapture, n: nat, m: nat)
    requires SingleWithin(s, n) && n <= m
    ensures SingleWithin(s, m)
    decreases s, 0
  {
    forall k | k in s.children ensures Within(s.children[k], m) {
      WithinMonotone(s.children[k], n, m);
    }
  }

  /** Reading more input keeps the stack invariant. */
  lemma {:induction false} StackWithinMonotone(stack: Stack, n: nat, m: nat)
    requires StackWithin(stack, n) && n <= m
    ensures StackWithin(stack, m)
  {
    forall j | 0 <= j < |stack| ensures OpenWithin(stack[j], m) {
      match stack[j].capture
      case Single(s) =>
        forall k | k in s.children ensures Within(s.children[k], m) {
          WithinMonotone(s.children[k], n, m);
        }
      case Repeat(items) =>
        forall i | 0 <= i < |items| ensures SingleWithin(items[i], m) {
          SingleWithinMonotone(items[i], n, m);
        }
    }
  }

  lemma {:induction false} StartCaptureKeepsWithin(stack: Stack, name: string, pos: nat)
    requires StackWithin(stack, pos)
    ensures StackWithin(StartCapture(stack, name, pos), pos)
  {
    var r := StartCapture(stack, name, pos);
    assert forall j :: 0 <= j < |stack| ==> r[j] == stack[j];
  }

  lemma {:induction false} StartRepeatKeepsWithin(stack: Stack, pos: nat)
    requires StackWithin(stack, pos)
    ensures StackWithin(StartRepeat(stack), pos)
  {
    var r := StartRepeat(stack);
    assert forall j :: 0 <= j < |stack| ==> r[j] == stack[j];
  }

  /** Closing the top capture at the cursor and committing it keeps every
      span inside the bytes read. */
  lemma {:induction false} FinishCaptureKeepsWithin(stack: Stack, name: string, pos: nat)
    requires StackWithin(stack, pos) && FinishCapture(stack, name, pos).Success?
    ensures StackWithin(FinishCapture(stack, name, pos).value, pos)
  {
    var r := FinishCapture(stack, name, pos).value;
    var top := stack[|stack| - 1];
    var c := top.capture.single.(endPos := pos);
    var p := LastWhere(stack[..|stack| - 1], Attachable).value;
    assert OpenWithin(top, pos);
    assert SingleWithin(c, pos);
    assert OpenWithin(stack[p], pos);
    assert OpenWithin(r[p], pos);
  }

  lemma {:induction false} FinishRepeatKeepsWithin(stack: Stack, pos: nat)
    requires StackWithin(stack, pos) && FinishRepeat(stack).Success?
    ensures StackWithin(FinishRepeat(stack).value, pos)
  {
    var r := FinishRepeat(stack).value;
    var top := stack[|stack| - 1];
    var p := LastWhere(stack[..|stack| - 1], Attachable).value;
    assert OpenWithin(top, pos);
    assert Within(top.capture, pos);
    assert OpenWithin(stack[p], pos);
    assert OpenWithin(r[p], pos);
  }

  /** A finalized root capture has a well-ordered span inside the bytes
      read. */
  lemma {:induction false} FinalizeCaptureKeepsWithin(stack: Stack, name: string, pos: nat)
    requires StackWithin(stack, pos) && FinalizeCapture(stack, name, pos).Success?
    ensures SingleWithin(FinalizeCapture(stack, name, pos).value[0].capture.single, pos)
  {
    assert OpenWithin(stack[0], pos);
  }

  // ---------------------------------------------------------------------
  // Properties of the stack discipline
  // ---------------------------------------------------------------------

  /** A capture finished inside a `$count` or `$value` scope lands in the
      enclosing named capture, next to the scope, and the scope itself keeps
      no children. */
  lemma {:induction false} SpecialScopeIsTransparent(root: SingleCapture, special: string, inner: SingleCapture, name: string, pos: nat)
    requires IsSpecial(special) && !IsSpecial("r")
    ensures var stack := [Entry("r", Single(root)), Entry(special, Single(EmptyCapture(0))), Entry(name, Single(inner))];
      FinishCapture(stack, name, pos)
        == Success([Entry("r", Single(root.(children := root.children[name := Single(inner.(endPos := pos))]))),
                    Entry(special, Single(EmptyCapture(0)))])
  {
    var stack := [Entry("r", Single(root)), Entry(special, Single(EmptyCapture(0))), Entry(name, Single(inner))];
    assert stack[..2] == [Entry("r", Single(root)), Entry(special, Single(EmptyCapture(0)))];
    assert !Attachable(stack[1]) && Attachable(stack[0]);
    assert LastWhere(stack[..2], Attachable) == Some(0);
    var c := inner.(endPos := pos);
    var e := Entry("r", Single(root.(children := root.children[name := Single(c)])));
    assert AttachSingle(stack[0], name, c) == Success(e);
    assert FinishCapture(stack, name, pos) == Success(stack[..2][0 := e]);
    assert stack[..2][0 := e] == [e, Entry(special, Single(EmptyCapture(0)))];
  }

  /** Capturing the same name three times inside one single capture gives
      the names `foo`, `foo'` and `foo''`. */
  lemma {:induction false} TicksExample()
    ensures UniqueName([Entry("r", Single(EmptyCapture(0)))], "foo") == "foo"
    ensures UniqueName([Entry("r", Single(SingleCapture(0, 0, map["foo" := Single(EmptyCapture(0))])))], "foo") == "foo'"
    ensures UniqueName([Entry("r", Single(SingleCapture(0, 0,
      map["foo" := Single(EmptyCapture(0)), "foo'" := Single(EmptyCapture(0))])))], "foo") == "foo''"
  {
    var s1 := [Entry("r", Single(EmptyCapture(0)))];
    assert LastWhere(s1, IsSingleEntry) == Some(0);
    assert Ticks(0) == "";
    var s2 := [Entry("r", Single(SingleCapture(0, 0, map["foo" := Single(EmptyCapture(0))])))];
    assert LastWhere(s2, IsSingleEntry) == Some(0);
    assert "foo" + "'" == "foo'" && "foo'" + "'" == "foo''";
    assert TickCount({"foo"}, "foo'") == 0;
    assert TickCount({"foo"}, "foo") == 1;
    assert "foo" + Ticks(1) == "foo'";
    var s3 := [Entry("r", Single(SingleCapture(0, 0,
      map["foo" := Single(EmptyCapture(0)), "foo'" := Single(EmptyCapture(0))])))];
    assert LastWhere(s3, IsSingleEntry) == Some(0);
    assert TickCount({"foo", "foo'"}, "foo''") == 0;
    assert TickCount({"foo", "foo'"}, "foo'") == 1;
    assert TickCount({"foo", "foo'"}, "foo") == 2;
    assert "foo" + Ticks(2) == "foo''";
  }

  /** The elements of a repeat share one name: the first element names the
      repeat, the second is appended under the same name, and finishing the
      repeat stores both under that name. */
  lemma {:induction false} RepeatNamingExample(root: SingleCapture)
    ensures var s0 := [Entry("r", Single(root)), Entry("", Repeat([])), Entry("x", Single(EmptyCapture(0)))];
      FinishCapture(s0, "x", 2) == Success([Entry("r", Single(root)), Entry("x", Repeat([SingleCapture(0, 2, map[])]))])
    ensures var s1 := [Entry("r", Single(root)), Entry("x", Repeat([SingleCapture(0, 2, map[])])), Entry("x", Single(EmptyCapture(2)))];
      FinishCapture(s1, "x", 4) == Success([Entry("r", Single(root)),
        Entry("x", Repeat([SingleCapture(0, 2, map[]), SingleCapture(2, 4, map[])]))])
    ensures var s2 := [Entry("r", Single(root)), Entry("x", Repeat([SingleCapture(0, 2, map[]), SingleCapture(2, 4, map[])]))];
      FinishRepeat(s2) == Success([Entry("r", Single(root.(children := root.children[
        "x" := Repeat([SingleCapture(0, 2, map[]), SingleCapture(2, 4, map[])])])))])
  {
    var s0 := [Entry("r", Single(root)), Entry("", Repeat([])), Entry("x", Single(EmptyCapture(0)))];
    assert s0[..2] == [Entry("r", Single(root)), Entry("", Repeat([]))];
    assert !IsSpecial("") && !IsSpecial("x") && !IsSpecial("r");
    assert LastWhere(s0[..2], Attachable) == Some(1);
    var e0 := Entry("x", Repeat([SingleCapture(0, 2, map[])]));
    assert AttachSingle(s0[1], "x", SingleCapture(0, 2, map[])) == Success(e0);
    assert s0[..2][1 := e0] == [Entry("r", Single(root)), e0];
    var s1 := [Entry("r", Single(root)), e0, Entry("x", Single(EmptyCapture(2)))];
    assert s1[..2] == [Entry("r", Single(root)), e0];
    assert LastWhere(s1[..2], Attachable) == Some(1);
    var e1 := Entry("x", Repeat([SingleCapture(0, 2, map[]), SingleCapture(2, 4, map[])]));
    assert [SingleCapture(0, 2, map[])] + [SingleCapture(2, 4, map[])] == e1.capture.items;
    assert AttachSingle(s1[1], "x", SingleCapture(2, 4, map[])) == Success(e1);
    assert s1[..2][1 := e1] == [Entry("r", Single(root)), e1];
    var s2 := [Entry("r", Single(root)), e1];
    assert s2[..1] == [Entry("r", Single(root))];
    assert LastWhere(s2[..1], Attachable) == Some(0);
    var e2 := Entry("r", Single(root.(children := root.children["x" := e1.capture])));
    assert s2[..1][0 := e2] == [e2];
  }
}

=== FILE: errors.dfy ===
/** The library's two error enums, plus the ways a call can end without
    returning one of them. */
module Errors {
  import opened Primitives

  /** An error while parsing input against a calc-regular expression. */
  datatype ParserError =
    /** A regex could not be matched; `value` is the offending input. */
    | Regex(regex: string, value: seq<byte>)
    /** The input ended before the expression could be matched. */
    | UnexpectedEof
    /** An explicit or inherited bound contradicts a decoded count. */
    | ConflictingBounds(oldBound: nat, newBound: nat)
    /** The count decoder rejected the bytes it was given. */
    | CannotReadCount(rawCount: seq<byte>)
    /** Input remains after the whole expression was parsed. */
    | TrailingCharacters

  /** An error while accessing a sub-expression or a capture by name. */
  datatype NameError =
    | NoSuchName(name: string)
    | OutOfBounds(name: string, index: nat, len: nat)
    | MisplacedSingleAccess(name: string)
    | MisplacedRepeatAccess(name: string)
    | InvalidCaptureName(message: string)

  /** How a call into the library can end without a value. `Err` is an
      ordinary returned error; `Panic` is a Rust panic (an `assert!`, a
      `debug_assert!`, an `unwrap` on `None` or an arithmetic underflow in a
      debug build); `Hangs` marks the point where the library would loop
      forever. */
  datatype Fault =
    | Err(err: ParserError)
    | Panic(message: string)
    | Hangs

  /** The messages of the arithmetic-overflow panics of a debug build. */
  const ADD_OVERFLOW: string := "attempt to add with overflow"
  const SUBTRACT_OVERFLOW: string := "attempt to subtract with overflow"
  const MULTIPLY_OVERFLOW: string := "attempt to multiply with overflow"
}

=== FILE: generate.dfy ===
/** Construction of expression graphs: the maximum-length bookkeeping of
    regular productions (`RegexAttributes`) and the node-building rules of
    calc-regular productions. */
module Generate {
  import opened Primitives
  import opened Wrappers
  import opened Errors
  import Aux
  import opened Graph

  /*** Maximum match length of regular productions ***/

  /** `is_choice`: a `|` at the top level; `totalLength`: the longest a match
      can be, when known; `currentChoiceLength`: the length so far of the
      last branch of a top-level choice. */
  datatype RegexAttributes = RegexAttributes(
    isChoice: bool,
    totalLength: Option<usize>,
    currentChoiceLength: Option<usize>)

  /** The invariant every production keeps: the last branch's length is
      tracked exactly when the regex is a choice of known total length, and
      it never exceeds the total. */
  predicate Consistent(a: RegexAttributes) {
    && (a.currentChoiceLength.Some? <==> a.isChoice && a.totalLength.Some?)
    && (a.currentChoiceLength.Some? ==> a.currentChoiceLength.value <= a.totalLength.value)
  }

  const REGEX_IN_CALC: string := "Found CalcRegex in regular production rule!"
  const NON_HEX_BYTE: string := "Found non-hex values in byte literal!"
  const NON_HEX_RANGE: string := "Found non-hex values in hex range!"
  const RANGE_NOT_SINGLE: string := "Ranges must be between two single characters!"
  const RANGE_REVERSED: string := "Lower range value is grater then upper value!"
  const ANONYMOUS_REPEAT: string :=
    "Anonymous repeat patterns are not supported. Please assign a name to the repeated expressions."
  const INVALID_ATTRIBUTES: string :=
    "Expected current_choice_length to be some value iff total_length is not None and is_choice is true!"

  /** `RegexAttributes::join`: appends an element of maximum length
      `elLen` to the last branch. Sums are `usize` additions, which panic on
      overflow in a debug build. */
  function Join(a: RegexAttributes, elLen: Option<usize>): (r: Result<RegexAttributes, Fault>)
    ensures r.Success? ==> r.value.isChoice == a.isChoice
    ensures r.Success? && Consistent(a) ==> Consistent(r.value)
    ensures r.Success? ==> (r.value.totalLength.Some? <==> a.totalLength.Some? && elLen.Some?)
    ensures r.Success? && !a.isChoice && r.value.totalLength.Some? ==>
      r.value.totalLength.value == a.totalLength.value + elLen.value
    ensures r.Success? && a.isChoice && r.value.totalLength.Some? ==>
      a.currentChoiceLength.Some? && elLen.Some?
      && r.value.currentChoiceLength == Some(a.currentChoiceLength.value + elLen.value)
      && r.value.totalLength.value == Max(a.totalLength.value, r.value.currentChoiceLength.value)
    ensures r.Failure? && (a.currentChoiceLength.Some? <==> a.isChoice && a.totalLength.Some?) ==>
      r.error == Panic(ADD_OVERFLOW)
  {
    match (a.totalLength, a.currentChoiceLength, a.isChoice, elLen)
    case (Some(total), Some(current), true, Some(el)) =>
      if el + current >= USIZE_LIMIT then Failure(Panic(ADD_OVERFLOW))
      else
        var current' := el + current;
        Success(RegexAttributes(true, Some(Max(total, current')), Some(current')))
    case (Some(total), None, false, Some(el)) =>
      if el + total >= USIZE_LIMIT then Failure(Panic(ADD_OVERFLOW))
      else Success(RegexAttributes(false, Some(el + total), None))
    case (None, None, true, _) => Success(RegexAttributes(true, None, None))
    case (Some(_), Some(_), true, None) => Success(RegexAttributes(true, None, None))
    case (_, None, false, None) => Success(RegexAttributes(false, None, None))
    case (None, None, false, _) => Success(RegexAttributes(false, None, None))
    case _ => Failure(Panic(INVALID_ATTRIBUTES))
  }

  function Max(a: nat, b: nat): nat {
    if a >= b then a else b
  }

  /** A combination the invariant rules out is the panic of the last match
      arm of `join`. */
  lemma {:induction false} JoinRejectsInconsistent(a: RegexAttributes, elLen: Option<usize>)
    requires !(a.currentChoiceLength.Some? <==> a.isChoice && a.totalLength.Some?)
    ensures Join(a, elLen) == Failure(Panic(INVALID_ATTRIBUTES))
  {
  }

  /** `Regex::default`: the empty regex, matching only the empty string. */
  function DefaultAttributes(): (a: RegexAttributes)
    ensures Consistent(a) && !a.isChoice && a.totalLength == Some(0)
  {
    RegexAttributes(false, Some(0), None)
  }

  /** `Regex::max_length`. */
  function MaxLength(a: RegexAttributes): Option<usize> {
    a.totalLength
  }

  /*** Atomic patterns ***/

  /** The number of bytes of a character in UTF-8. */
  function Utf8Width(c: char): nat {
    if c as int < 0x80 then 1
    else if c as int < 0x800 then 2
    else if c as int < 0x1_0000 then 3
    else 4
  }

  /** `str::len`: the length of a string in UTF-8 bytes. */
  function Utf8Length(s: string): (n: nat)
    ensures n >= |s|
  {
    if |s| == 0 then 0 else Utf8Length(s[..|s| - 1]) + Utf8Width(s[|s| - 1])
  }

  lemma {:induction false} Utf8LengthOne(s: string)
    ensures Utf8Length(s) == 1 <==> |s| == 1 && s[0] as int < 0x80
  {
    if |s| == 1 {
      assert s[..0] == [];
    }
  }

  /** `Regex::is_atomic`: one byte of pattern, or a pattern wrapped in
      parentheses or in brackets. The first and last characters are two
      different characters, so a lone `(` counts only by its length. */
  function IsAtomic(re: string): (b: bool)
    ensures b <==>
      (|re| == 1 && re[0] as int < 0x80)
      || (|re| >= 2 && re[0] == '(' && re[|re| - 1] == ')')
      || (|re| >= 2 && re[0] == '[' && re[|re| - 1] == ']')
  {
    Utf8LengthOne(re);
    if Utf8Length(re) == 1 then true
    else if |re| >= 2 && re[0] == '(' && re[|re| - 1] == ')' then true
    else |re| >= 2 && re[0] == '[' && re[|re| - 1] == ']'
  }

  /*** Regular productions ***/

  /** The value an identifier stands for in a production: a regular
      expression still being built, or a node of the graph. */
  datatype Interim =
    | RegexValue(re: string, attributes: RegexAttributes, isMatch: seq<byte> -> bool)
    | NodeValue(index: nat)

  /** `RegexProduction`, with each operand reduced to what the length
      bookkeeping needs: its attributes. */
  datatype RegexProduction =
    | Identifier(interim: Interim)
    | Literal(s: string)
    | ByteLiteral(v: string)
    | Parentheses(el: RegexAttributes)
    | Choice
    | KleeneStar(el: RegexAttributes)
    | KleenePlus(el: RegexAttributes)
    | Repeat(el: RegexAttributes, n: usize)
    | CharRange(min: string, max: string)
    | HexRange(min: string, max: string)

  /** What a production does to the attributes: append an element of some
      maximum length, open a new branch, or make the length unbounded. */
  datatype Step = Element(len: Option<usize>) | Bar | Star

  /** `u8::from_str_radix(v, 16)`. */
  function HexByte(v: string): (r: Option<byte>)
    ensures r.Some? ==> Aux.FromStrRadix(v, 16) == Some(r.value)
    ensures r.None? <==> Aux.FromStrRadix(v, 16).None? || Aux.FromStrRadix(v, 16).value >= 256
  {
    match Aux.FromStrRadix(v, 16)
    case Some(n) => if n < 256 then Some(n) else None
    case None => None
  }

  /** Every byte written in hexadecimal, in either case, reads back as
      itself. */
  lemma {:induction false} HexByteRoundTrip(v: byte, upper: bool)
    ensures HexByte(Aux.ToDigits(v as nat, 16, upper)) == Some(v)
  {
    Aux.FromStrRadixRoundTrip(v as nat, 16, upper);
  }

  /** The step each production of `RegexProduction::apply` takes, or its
      panic. */
  function StepOf(p: RegexProduction): (r: Result<Step, Fault>)
    ensures r.Success? && p.Literal? ==> r.value == Element(if Utf8Length(p.s) < USIZE_LIMIT then Some(Utf8Length(p.s)) else None)
    ensures r.Success? && (p.ByteLiteral? || p.CharRange? || p.HexRange?) ==> r.value == Element(Some(1))
    ensures p.Choice? <==> r == Success(Bar)
    ensures p.KleeneStar? || p.KleenePlus? <==> r == Success(Star)
    ensures p.Identifier? && p.interim.NodeValue? ==> r == Failure(Panic(REGEX_IN_CALC))
    ensures p.ByteLiteral? ==> (r.Success? <==> HexByte(p.v).Some?)
    ensures p.ByteLiteral? && HexByte(p.v).None? ==> r == Failure(Panic(NON_HEX_BYTE))
    ensures p.Identifier? && p.interim.RegexValue? ==> r == Success(Element(MaxLength(p.interim.attributes)))
    ensures p.Parentheses? ==> r == Success(Element(MaxLength(p.el)))
    ensures p.Repeat? && MaxLength(p.el).None? ==> r == Success(Element(None))
    ensures p.Repeat? && MaxLength(p.el).Some? && MaxLength(p.el).value * p.n < USIZE_LIMIT
      ==> r == Success(Element(Some(MaxLength(p.el).value * p.n)))
    ensures p.Repeat? && MaxLength(p.el).Some? && MaxLength(p.el).value * p.n >= USIZE_LIMIT
      ==> r == Failure(Panic(MULTIPLY_OVERFLOW))
    ensures p.CharRange? ==> (r.Success? <==>
      |p.min| == 1 && |p.max| == 1 && p.min[0] as int < 0x80 && p.max[0] as int < 0x80 && p.min[0] <= p.max[0])
    ensures p.CharRange? && !(|p.min| == 1 && p.min[0] as int < 0x80 && |p.max| == 1 && p.max[0] as int < 0x80)
      ==> r == Failure(Panic(RANGE_NOT_SINGLE))
    ensures p.HexRange? ==> (r.Success? <==>
      HexByte(p.min).Some? && HexByte(p.max).Some? && HexByte(p.min).value <= HexByte(p.max).value)
    ensures p.HexRange? && (HexByte(p.min).None? || HexByte(p.max).None?) ==> r == Failure(Panic(NON_HEX_RANGE))
    ensures p.CharRange? && |p.min| == 1 && p.min[0] as int < 0x80 && |p.max| == 1 && p.max[0] as int < 0x80
      && p.min[0] > p.max[0]
      ==> r == Failure(Panic(RANGE_REVERSED))
    ensures p.HexRange? && HexByte(p.min).Some? && HexByte(p.max).Some? && HexByte(p.min).value > HexByte(p.max).value
      ==> r == Failure(Panic(RANGE_REVERSED))
  {
    match p
    case Identifier(interim) =>
      if interim.RegexValue? then Success(Element(MaxLength(interim.attributes)))
      else Failure(Panic(REGEX_IN_CALC))
    case Literal(s) =>
      // A literal longer than `usize::MAX` bytes cannot exist.
      Success(Element(if Utf8Length(s) < USIZE_LIMIT then Some(Utf8Length(s)) else None))
    case ByteLiteral(v) =>
      if HexByte(v).Some? then Success(Element(Some(1)))
      else Failure(Panic(NON_HEX_BYTE))
    case Parentheses(el) => Success(Element(MaxLength(el)))
    case Choice => Success(Bar)
    case KleeneStar(_) => Success(Star)
    case KleenePlus(_) => Success(Star)
    case Repeat(el, n) =>
      if MaxLength(el).None? then Success(Element(None))
      else if MaxLength(el).value * n >= USIZE_LIMIT then Failure(Panic(MULTIPLY_OVERFLOW))
      else Success(Element(Some(MaxLength(el).value * n)))
    case CharRange(min, max) =>
      Utf8LengthOne(min);
      Utf8LengthOne(max);
      if !(Utf8Length(min) == 1 && Utf8Length(max) == 1) then
        Failure(Panic(RANGE_NOT_SINGLE))
      else if !(min[0] <= max[0]) then
        Failure(Panic(RANGE_REVERSED))
      else Success(Element(Some(1)))
    case HexRange(min, max) =>
      if HexByte(min).None? || HexByte(max).None? then
        Failure(Panic(NON_HEX_RANGE))
      else if !(HexByte(min).value <= HexByte(max).value) then
        Failure(Panic(RANGE_REVERSED))
      else Success(Element(Some(1)))
  }

  /** The attribute part of one step. */
  function ApplyStep(prev: RegexAttributes, step: Step): (r: Result<RegexAttributes, Fault>)
    ensures Consistent(prev) && r.Success? ==> Consistent(r.value)
    ensures Consistent(prev) && r.Failure? ==> r.error == Panic(ADD_OVERFLOW)
    ensures step.Bar? ==> r.Success? && r.value.isChoice && r.value.totalLength == prev.totalLength
    ensures step.Star? ==> r == Success(RegexAttributes(prev.isChoice, None, None))
  {
    match step
    case Element(len) => Join(prev, len)
    case Bar =>
      Success(RegexAttributes(true, prev.totalLength, if prev.totalLength.Some? then Some(0) else None))
    case Star => Success(RegexAttributes(prev.isChoice, None, None))
  }

  /** The attributes `RegexProduction::apply` gives the extended regex. */
  function ApplyAttributes(prev: RegexAttributes, p: RegexProduction): (r: Result<RegexAttributes, Fault>)
    ensures Consistent(prev) && r.Success? ==> Consistent(r.value)
    ensures r.Success? ==> StepOf(p).Success? && ApplyStep(prev, StepOf(p).value) == r
  {
    var step :- StepOf(p);
    ApplyStep(prev, step)
  }

  /** The attributes of a regex built from the empty regex by a sequence of
      steps, applied left to right. */
  function Fold(steps: seq<Step>): (r: Result<RegexAttributes, Fault>)
    ensures r.Success? ==> Consistent(r.value)
    ensures r.Failure? ==> r.error == Panic(ADD_OVERFLOW)
  {
    if |steps| == 0 then Success(DefaultAttributes())
    else
      var prev :- Fold(steps[..|steps| - 1]);
      ApplyStep(prev, steps[|steps| - 1])
  }

  /*** An independent account of the maximum length ***/

  /** The top-level branches of a sequence of steps, split at the bars. */
  function Branches(steps: seq<Step>): (bs: seq<seq<Step>>)
    ensures |bs| >= 1
  {
    if |steps| == 0 then [[]]
    else
      var bs := Branches(steps[..|steps| - 1]);
      var last := steps[|steps| - 1];
      if last.Bar? then bs + [[]]
      else bs[..|bs| - 1] + [bs[|bs| - 1] + [last]]
  }

  /** The longest match of one branch: the sum of its elements' lengths,
      unknown if any element's length is unknown or a star occurs. */
  function BranchLength(branch: seq<Step>): Option<nat> {
    if |branch| == 0 then Some(0)
    else
      var last := branch[|branch| - 1];
      match (BranchLength(branch[..|branch| - 1]), last)
      case (Some(n), Element(Some(l))) => Some(n + l)
      case _ => None
  }

  /** The longest of the branches; unknown if any branch is. */
  function Longest(bs: seq<seq<Step>>): Option<nat> {
    if |bs| == 0 then Some(0)
    else MaxLen(Longest(bs[..|bs| - 1]), BranchLength(bs[|bs| - 1]))
  }

  function MaxLen(m: Option<nat>, l: Option<nat>): (r: Option<nat>)
    ensures r.Some? <==> m.Some? && l.Some?
  {
    if m.Some? && l.Some? then Some(Max(m.value, l.value)) else None
  }

  /** The longest match of the whole regex: its longest branch. */
  function MaxMatchLength(steps: seq<Step>): Option<nat> {
    Longest(Branches(steps))
  }

  /** A top-level `|` occurs somewhere in the steps. */
  predicate HasBar(steps: seq<Step>) {
    Bar in steps
  }

  function Last<T>(s: seq<T>): T
    requires |s| > 0
  {
    s[|s| - 1]
  }

  function AddLength(n: Option<nat>, len: Option<usize>): Option<nat> {
    if n.Some? && len.Some? then Some(n.value + len.value) else None
  }

  /** The attributes `a` are what the independent account says of
      `steps`: `is_choice` records a top-level bar, `totalLength` is the
      longest branch (unknown when any branch is), and
      `currentChoiceLength` is the length of the last branch of a choice of
      known length. */
  ghost predicate Agrees(steps: seq<Step>, a: RegexAttributes) {
    && a.isChoice == HasBar(steps)
    && a.totalLength == MaxMatchLength(steps)
    && a.currentChoiceLength
      == if HasBar(steps) && MaxMatchLength(steps).Some? then BranchLength(Last(Branches(steps))) else None
  }

  /** Whatever the steps, the attributes built by `join` and the choice and
      star rules agree with the independent account. */
  lemma {:induction false} FoldMatchesMaxMatchLength(steps: seq<Step>)
    requires Fold(steps).Success?
    ensures Agrees(steps, Fold(steps).value)
  {
    if |steps| > 0 {
      var init := steps[..|steps| - 1];
      var last := steps[|steps| - 1];
      assert steps == init + [last];
      FoldMatchesMaxMatchLength(init);
      StepAgrees(init, Fold(init).value, last);
    }
  }

  /** One step keeps the attributes in agreement with the account. */
  lemma {:induction false} StepAgrees(init: seq<Step>, a: RegexAttributes, last: Step)
    requires Agrees(init, a) && Consistent(a) && ApplyStep(a, last).Success?
    ensures Agrees(init + [last], ApplyStep(a, last).value)
  {
    var steps := init + [last];
    assert steps[..|steps| - 1] == init;
    var bs := Branches(init);
    var k := |bs| - 1;
    match last
    case Bar =>
      assert (bs + [[]])[..|bs|] == bs;
    case Star =>
      var nb := bs[k] + [last];
      assert (bs[..k] + [nb])[..k] == bs[..k];
      assert nb[..|nb| - 1] == bs[k];
    case Element(len) =>
      ElementAgrees(init, a, len);
  }

  lemma {:induction false} ElementAgrees(init: seq<Step>, a: RegexAttributes, len: Option<usize>)
    requires Agrees(init, a) && Consistent(a) && Join(a, len).Success?
    ensures Agrees(init + [Element(len)], Join(a, len).value)
  {
    ElementBranches(init, len);
    if a.isChoice {
      ElementAgreesInChoice(init, a, len);
    } else {
      ElementAgreesOutsideChoice(init, a, len);
    }
  }

  /** Without a bar there is one branch, and its length is the total. */
  lemma {:induction false} ElementAgreesOutsideChoice(init: seq<Step>, a: RegexAttributes, len: Option<usize>)
    requires Agrees(init, a) && Consistent(a) && Join(a, len).Success? && !a.isChoice
    requires HasBar(init + [Element(len)]) <==> HasBar(init)
    requires var bs := Branches(init);
      MaxMatchLength(init + [Element(len)]) == MaxLen(Longest(bs[..|bs| - 1]), AddLength(BranchLength(Last(bs)), len))
    ensures Agrees(init + [Element(len)], Join(a, len).value)
  {
    var bs := Branches(init);
    NoBarOneBranch(init);
    assert bs[..|bs| - 1] == [];
    assert Longest(bs[..|bs| - 1]) == Some(0);
    assert a.totalLength == BranchLength(Last(bs));
    var r := Join(a, len).value;
    var x := AddLength(BranchLength(Last(bs)), len);
    assert r.totalLength == x && r.currentChoiceLength.None? && !r.isChoice;
    assert MaxLen(Some(0), x) == x;
  }

  /** After a bar the element extends the last branch, whose length is
      `currentChoiceLength`, and the total is the longest branch. */
  lemma {:induction false} ElementAgreesInChoice(init: seq<Step>, a: RegexAttributes, len: Option<usize>)
    requires Agrees(init, a) && Consistent(a) && Join(a, len).Success? && a.isChoice
    requires HasBar(init + [Element(len)]) <==> HasBar(init)
    requires var bs := Branches(init);
      var steps := init + [Element(len)];
      && MaxMatchLength(steps) == MaxLen(Longest(bs[..|bs| - 1]), AddLength(BranchLength(Last(bs)), len))
      && BranchLength(Last(Branches(steps))) == AddLength(BranchLength(Last(bs)), len)
    ensures Agrees(init + [Element(len)], Join(a, len).value)
  {
    var steps := init + [Element(len)];
    var bs := Branches(init);
    var m := Longest(bs[..|bs| - 1]);
    var c := BranchLength(Last(bs));
    assert a.totalLength == MaxLen(m, c);
    var r := Join(a, len).value;
    var x := AddLength(c, len);
    assert MaxMatchLength(steps) == MaxLen(m, x) && BranchLength(Last(Branches(steps))) == x;
    if a.totalLength.Some? && len.Some? {
      assert a.currentChoiceLength == c;
      assert r.currentChoiceLength == x && r.totalLength == MaxLen(m, x);
    } else {
      assert r.currentChoiceLength.None? && r.totalLength.None? && MaxLen(m, x).None?;
    }
    assert r.isChoice == HasBar(steps);
  }

  /** Appending an element extends the last branch. */
  lemma {:induction false} ElementBranches(init: seq<Step>, len: Option<usize>)
    ensures var bs := Branches(init);
      var steps := init + [Element(len)];
      && MaxMatchLength(steps) == MaxLen(Longest(bs[..|bs| - 1]), AddLength(BranchLength(Last(bs)), len))
      && Last(Branches(steps)) == Last(bs) + [Element(len)]
      && BranchLength(Last(Branches(steps))) == AddLength(BranchLength(Last(bs)), len)
  {
    var steps := init + [Element(len)];
    assert steps[..|steps| - 1] == init;
    var bs := Branches(init);
    var k := |bs| - 1;
    var nb := bs[k] + [Element(len)];
    var bs' := Branches(steps);
    assert bs' == bs[..k] + [nb];
    assert bs'[..k] == bs[..k];
    assert Last(bs') == nb;
    assert nb[..|nb| - 1] == bs[k];
    assert BranchLength(nb) == AddLength(BranchLength(bs[k]), len);
    assert Longest(bs') == MaxLen(Longest(bs[..k]), BranchLength(nb));
  }

  lemma {:induction false} NoBarOneBranch(steps: seq<Step>)
    requires !HasBar(steps)
    ensures |Branches(steps)| == 1
  {
    if |steps| > 0 {
      var init := steps[..|steps| - 1];
      assert steps == init + [steps[|steps| - 1]];
      NoBarOneBranch(init);
    }
  }

  /** The length bounds the unit tests expect: three 4-byte literals give
      12 (`concatenate`, src/tests/generate/regex.rs:561-575);
      `foo | foo, bar | bar` gives 8 (`choice_concat`, same file, 345-359);
      a trailing star gives no bound (`concatenate_star`, 578-592);
      `"foo"^3` gives 9 (`repeat_regex_anonymous`,
      src/tests/generate/calc_regex.rs:517-529). */
  lemma {:induction false} LengthExamples()
    ensures Fold([Element(Some(4)), Element(Some(4)), Element(Some(4))])
      == Success(RegexAttributes(false, Some(12), None))
    ensures Fold([Element(Some(4)), Bar, Element(Some(4)), Element(Some(4)), Bar, Element(Some(4))])
      == Success(RegexAttributes(true, Some(8), Some(4)))
    ensures Fold([Element(Some(4)), Star]) == Success(RegexAttributes(false, None, None))
    ensures StepOf(RegexProduction.Repeat(RegexAttributes(false, Some(3), None), 3)) == Success(Element(Some(9)))
  {
    var e := Element(Some(4));
    assert Fold([]) == Success(RegexAttributes(false, Some(0), None));
    assert [e][..0] == [];
    assert Fold([e]) == Success(RegexAttributes(false, Some(4), None));
    assert [e, e][..1] == [e];
    assert Fold([e, e]) == Success(RegexAttributes(false, Some(8), None));
    assert [e, e, e][..2] == [e, e];
    assert [e, Star][..1] == [e];
    assert [e, Bar][..1] == [e];
    assert Fold([e, Bar]) == Success(RegexAttributes(true, Some(4), Some(0)));
    assert [e, Bar, e][..2] == [e, Bar];
    assert Fold([e, Bar, e]) == Success(RegexAttributes(true, Some(4), Some(4)));
    assert [e, Bar, e, e][..3] == [e, Bar, e];
    assert Fold([e, Bar, e, e]) == Success(RegexAttributes(true, Some(8), Some(8)));
    assert [e, Bar, e, e, Bar][..4] == [e, Bar, e, e];
    assert Fold([e, Bar, e, e, Bar]) == Success(RegexAttributes(true, Some(8), Some(0)));
    assert [e, Bar, e, e, Bar, e][..5] == [e, Bar, e, e, Bar];
  }

  /*** Calc-regular productions ***/

  /** `CalcRegexProduction`. A regular operand is the value it was built
      into; its matcher stands for the compiled `^(?-u:…)$` pattern. */
  datatype CalcRegexProduction =
    | IdentifierOf(interim: Interim, identifier: string)
    | RegexOf(re: string, attributes: RegexAttributes, isMatch: seq<byte> -> bool)
    | ConcatOf(lhs: nat, rhs: nat)
    | RepeatOf(elem: nat, n: usize)
    | KleeneStarOf(elem: nat)
    | LengthCountOf(r: nat, s: Option<nat>, t: nat, f: Decoder)
    | OccurrenceCountOf(r: nat, s: Option<nat>, t: nat, f: Decoder)

  /** The node indices a production refers to. */
  function ProductionChildren(p: CalcRegexProduction): seq<nat> {
    match p
    case IdentifierOf(interim, _) => if interim.NodeValue? then [interim.index] else []
    case RegexOf(_, _, _) => []
    case ConcatOf(lhs, rhs) => [lhs, rhs]
    case RepeatOf(elem, _) => [elem]
    case KleeneStarOf(elem) => [elem]
    case LengthCountOf(r, s, t, _) => if s.Some? then [r, s.value, t] else [r, t]
    case OccurrenceCountOf(r, s, t, _) => if s.Some? then [r, s.value, t] else [r, t]
  }

  /** The pattern text of a compiled regex: anchored, grouped, and with
      Unicode turned off. */
  function AnchoredPattern(re: string): string {
    "^(?-u:" + re + ")$"
  }

  /** The node a compiled regex becomes. */
  function RegexNode(regex: Interim, name: Option<string>): Node
    requires regex.RegexValue?
  {
    Node(name, MaxLength(regex.attributes), Inner.Regex(AnchoredPattern(regex.re), regex.isMatch))
  }

  /** `Regex::compile` without its cache: pushes a `Regex` node whose bound
      is the regex's maximum length. */
  function Compile(g: CalcRegex, regex: Interim, name: Option<string>): (r: Result<(CalcRegex, nat), Fault>)
    requires regex.RegexValue?
    ensures r.Success? ==> r.value.1 == |g.nodes| && r.value.0.nodes == g.nodes + [RegexNode(regex, name)]
    ensures r.Failure? <==> name.Some? && Position(g.nodes, name.value).Some?
  {
    g.PushNode(RegexNode(regex, name))
  }

  /** A production built purely from nodes already pushed. */
  predicate IsStructural(p: CalcRegexProduction) {
    !p.IdentifierOf? && !p.RegexOf?
  }

  /** The node body a structural production becomes; it refers to exactly
      the production's children. */
  function StructuralInner(p: CalcRegexProduction): (r: Inner)
    requires IsStructural(p)
    ensures Children(r) == ProductionChildren(p)
  {
    match p
    case ConcatOf(lhs, rhs) => Concat(lhs, rhs)
    case RepeatOf(elem, n) => Graph.Repeat(elem, n)
    case KleeneStarOf(elem) => Graph.KleeneStar(elem)
    case LengthCountOf(r, s, t, f) => LengthCount(r, s, t, f)
    case OccurrenceCountOf(r, s, t, f) => OccurrenceCount(r, s, t, f)
  }

  /** `CalcRegexProduction::apply`: the index of the node standing for the
      production, after pushing whatever nodes it needs. An occurrence
      count whose element has no name is refused. */
  function ApplyCalc(g: CalcRegex, p: CalcRegexProduction, name: Option<string>): (r: Result<(CalcRegex, nat), Fault>)
    requires forall k :: 0 <= k < |ProductionChildren(p)| ==> ProductionChildren(p)[k] < |g.nodes|
    ensures r.Success? ==> r.value.1 < |r.value.0.nodes| && r.value.0.root == g.root
    ensures r.Success? ==> |r.value.0.nodes| >= |g.nodes| && r.value.0.nodes[..|g.nodes|] == g.nodes
    ensures p.OccurrenceCountOf? && p.t < |g.nodes| && g.nodes[p.t].name.None? ==> r.Failure? && r.error.Panic?
    ensures p.RegexOf? && r.Success? ==>
      r.value.1 == |g.nodes| && r.value.0.nodes == g.nodes + [RegexNode(RegexValue(p.re, p.attributes, p.isMatch), name)]
    ensures IsStructural(p) && r.Success? ==>
      r.value.1 == |g.nodes| && r.value.0 == g.(nodes := g.nodes + [Node(name, None, StructuralInner(p))])
    ensures !p.IdentifierOf? ==> (r.Failure? <==>
      (name.Some? && Position(g.nodes, name.value).Some?)
      || (p.OccurrenceCountOf? && p.t < |g.nodes| && g.nodes[p.t].name.None?))
  {
    if p.IdentifierOf? then
      assert p.interim.NodeValue? ==> p.interim.index == ProductionChildren(p)[0];
      ApplyIdentifier(g, p.interim, p.identifier, name)
    else if p.RegexOf? then Compile(g, RegexValue(p.re, p.attributes, p.isMatch), name)
    else if p.OccurrenceCountOf? && (assert p.t == ProductionChildren(p)[|ProductionChildren(p)| - 1]; g.nodes[p.t].name.None?) then
      Failure(Panic(ANONYMOUS_REPEAT))
    else g.PushNode(Node(name, None, StructuralInner(p)))
  }

  /** The `IdentifierOf` case of `CalcRegexProduction::apply`: a regular
      operand is compiled under the identifier's name; a rule that is
      itself named gets a `Reference` node to the operand, otherwise the
      operand's own node stands for it. */
  function ApplyIdentifier(g: CalcRegex, interim: Interim, identifier: string, name: Option<string>): (r: Result<(CalcRegex, nat), Fault>)
    requires interim.NodeValue? ==> interim.index < |g.nodes|
    ensures r.Success? ==> r.value.1 < |r.value.0.nodes| && r.value.0.root == g.root
    ensures r.Success? ==> |r.value.0.nodes| >= |g.nodes| && r.value.0.nodes[..|g.nodes|] == g.nodes
    ensures name.Some? && r.Success? ==>
      r.value.1 == |r.value.0.nodes| - 1
      && r.value.0.nodes[r.value.1].name == name && r.value.0.nodes[r.value.1].lengthBound == None
      && r.value.0.nodes[r.value.1].inner == Reference(if interim.NodeValue? then interim.index else |g.nodes|)
    ensures interim.NodeValue? && name.None? ==> r == Success((g, interim.index))
    ensures interim.RegexValue? && r.Success? ==>
      |g.nodes| < |r.value.0.nodes| && r.value.0.nodes[|g.nodes|] == RegexNode(interim, Some(identifier))
    ensures interim.RegexValue? && name.None? && r.Success? ==>
      r.value.1 == |g.nodes| && r.value.0.nodes == g.nodes + [RegexNode(interim, Some(identifier))]
    ensures interim.RegexValue? && Position(g.nodes, identifier).Some? ==> r.Failure? && r.error.Panic?
    ensures interim.NodeValue? && name.Some? ==> (r.Failure? <==> Position(g.nodes, name.value).Some?)
    ensures interim.RegexValue? && name.Some? ==>
      (r.Failure? <==>
        (Position(g.nodes, identifier).Some?
         || Position(g.nodes + [RegexNode(interim, Some(identifier))], name.value).Some?))
    ensures name.Some? && r.Success? ==>
      r.value.0.nodes
        == (if interim.RegexValue? then g.nodes + [RegexNode(interim, Some(identifier))] else g.nodes)
           + [Node(name, None, Reference(if interim.NodeValue? then interim.index else |g.nodes|))]
    ensures r.Failure? ==> r.error.Panic?
  {
    var (g1, target) :-
      if interim.RegexValue? then Compile(g, interim, Some(identifier))
      else Success((g, interim.index));
    if name.Some? then g1.PushNode(Node(name, None, Reference(target)))
    else Success((g1, target))
  }

  /** Every production keeps the arena acyclic with unique names: children
      are pushed before the node that refers to them. */
  lemma {:induction false} ApplyCalcPreservesArena(g: CalcRegex, p: CalcRegexProduction, name: Option<string>)
    requires Acyclic(g.nodes) && UniqueNames(g.nodes)
    requires forall k :: 0 <= k < |ProductionChildren(p)| ==> ProductionChildren(p)[k] < |g.nodes|
    requires ApplyCalc(g, p, name).Success?
    ensures Acyclic(ApplyCalc(g, p, name).value.0.nodes)
    ensures UniqueNames(ApplyCalc(g, p, name).value.0.nodes)
  {
    if p.IdentifierOf? {
      assert p.interim.NodeValue? ==> p.interim.index == ProductionChildren(p)[0];
      ApplyIdentifierPreservesArena(g, p.interim, p.identifier, name);
    } else if p.RegexOf? {
      PushNodePreservesArena(g, RegexNode(RegexValue(p.re, p.attributes, p.isMatch), name));
    } else {
      PushNodePreservesArena(g, Node(name, None, StructuralInner(p)));
    }
  }

  /** The same for the `IdentifierOf` case. */
  lemma {:induction false} ApplyIdentifierPreservesArena(g: CalcRegex, interim: Interim, identifier: string, name: Option<string>)
    requires Acyclic(g.nodes) && UniqueNames(g.nodes)
    requires interim.NodeValue? ==> interim.index < |g.nodes|
    requires ApplyIdentifier(g, interim, identifier, name).Success?
    ensures Acyclic(ApplyIdentifier(g, interim, identifier, name).value.0.nodes)
    ensures UniqueNames(ApplyIdentifier(g, interim, identifier, name).value.0.nodes)
  {
    var g1 := g;
    var target := 0;
    if interim.RegexValue? {
      PushNodePreservesArena(g, RegexNode(interim, Some(identifier)));
      g1 := Compile(g, interim, Some(identifier)).value.0;
      target := |g.nodes|;
    } else {
      target := interim.index;
    }
    if name.Some? {
      PushNodePreservesArena(g1, Node(name, None, Reference(target)));
    }
  }
}

=== FILE: graph.dfy ===
/** The expression graph of a calc-regular expression: a flat arena of
    nodes, each naming its sub-expressions by index, plus the index of the
    root node that input is parsed against. */
module Graph {
  import opened Primitives
  import opened Wrappers
  import opened Errors

  /** A decoder turning the bytes of a count field into a number. */
  type Decoder = seq<byte> -> Option<usize>

  /** The production a node stands for. `Regex` carries its pattern text
      and the whole-slice matcher compiled from it; `Reference` is the
      source's `Inner::CalcRegex`, a node that stands for another node. */
  datatype Inner =
    | Regex(pattern: string, isMatch: seq<byte> -> bool)
    | Reference(target: nat)
    | Concat(left: nat, right: nat)
    | Repeat(elem: nat, n: usize)
    | KleeneStar(elem: nat)
    | LengthCount(r: nat, s: Option<nat>, t: nat, f: Decoder)
    | OccurrenceCount(r: nat, s: Option<nat>, t: nat, f: Decoder)

  /** A sub-expression with its optional unique name and optional length
      bound. */
  datatype Node = Node(name: Option<string>, lengthBound: Option<usize>, inner: Inner)

  /** The indices an inner production refers to. */
  function Children(inner: Inner): seq<nat> {
    match inner
    case Regex(_, _) => []
    case Reference(target) => [target]
    case Concat(left, right) => [left, right]
    case Repeat(elem, _) => [elem]
    case KleeneStar(elem) => [elem]
    case LengthCount(r, s, t, _) => if s.Some? then [r, s.value, t] else [r, t]
    case OccurrenceCount(r, s, t, _) => if s.Some? then [r, s.value, t] else [r, t]
  }

  predicate ChildrenBelow(inner: Inner, i: nat) {
    forall k :: 0 <= k < |Children(inner)| ==> Children(inner)[k] < i
  }

  /** Children are pushed before their parents, so every edge points to a
      smaller index: the graph is acyclic. */
  predicate Acyclic(nodes: seq<Node>) {
    forall i :: 0 <= i < |nodes| ==> ChildrenBelow(nodes[i].inner, i)
  }

  /** Every edge out of node `i` of an acyclic arena points below `i`. */
  lemma {:induction false} EdgesPointDown(nodes: seq<Node>, i: nat)
    requires Acyclic(nodes) && i < |nodes|
    ensures match nodes[i].inner
      case Regex(_, _) => true
      case Reference(target) => target < i
      case Concat(left, right) => left < i && right < i
      case Repeat(elem, _) => elem < i
      case KleeneStar(elem) => elem < i
      case LengthCount(r, s, t, _) => r < i && t < i && (s.Some? ==> s.value < i)
      case OccurrenceCount(r, s, t, _) => r < i && t < i && (s.Some? ==> s.value < i)
  {
    var cs := Children(nodes[i].inner);
    assert ChildrenBelow(nodes[i].inner, i);
    if 1 <= |cs| { assert cs[0] < i; }
    if 2 <= |cs| { assert cs[1] < i; }
    if 3 <= |cs| { assert cs[2] < i; }
  }

  predicate HasName(node: Node, name: string) {
    node.name == Some(name)
  }

  /** No two nodes share a name. */
  predicate UniqueNames(nodes: seq<Node>) {
    forall i, j :: 0 <= i < j < |nodes| && nodes[i].name.Some? ==> nodes[j].name != nodes[i].name
  }

  /** The index of the first node named `name` (`get_position_by_name`,
      and the node `get_node_mut_by_name` finds). */
  function Position(nodes: seq<Node>, name: string): (r: Option<nat>)
    ensures r.Some? ==> r.value < |nodes| && HasName(nodes[r.value], name)
    ensures r.Some? ==> forall j :: 0 <= j < r.value ==> !HasName(nodes[j], name)
    ensures r.None? <==> forall j :: 0 <= j < |nodes| ==> !HasName(nodes[j], name)
  {
    if |nodes| == 0 then None
    else
      var p := Position(nodes[..|nodes| - 1], name);
      if p.Some? then Some(p.value)
      else if HasName(nodes[|nodes| - 1], name) then Some(|nodes| - 1)
      else
        assert forall j :: 0 <= j < |nodes| - 1 ==> nodes[j] == nodes[..|nodes| - 1][j];
        None
  }

  /** With unique names, the first node of a name is the only one. */
  lemma {:induction false} PositionIsUnique(nodes: seq<Node>, name: string, i: nat)
    requires UniqueNames(nodes) && i < |nodes| && HasName(nodes[i], name)
    ensures Position(nodes, name) == Some(i)
  {
  }

  /** A calc-regular expression: the node arena and the root index. */
  datatype CalcRegex = CalcRegex(nodes: seq<Node>, root: nat)
  {
    ghost predicate WellFormed() {
      root < |nodes| && Acyclic(nodes) && UniqueNames(nodes)
    }

    /** `set_root`: the index is taken as given. */
    function SetRoot(i: nat): (g: CalcRegex)
      ensures g.nodes == nodes && g.root == i
    {
      this.(root := i)
    }

    /** `set_root_by_name`: the root moves to the node of that name, or the
        expression is left alone with `NoSuchName`. */
    function SetRootByName(name: string): (r: Result<CalcRegex, NameError>)
      ensures r.Failure? <==> forall j :: 0 <= j < |nodes| ==> !HasName(nodes[j], name)
      ensures r.Failure? ==> r.error == NoSuchName(name)
      ensures r.Success? ==>
        r.value.nodes == nodes && r.value.root < |nodes| && HasName(nodes[r.value.root], name)
    {
      var pos :- Position(nodes, name).ToResult(NoSuchName(name));
      Success(SetRoot(pos))
    }

    /** `set_root_length_bound`: the root node gets the bound. */
    function SetRootLengthBound(bound: usize): (g: CalcRegex)
      requires root < |nodes|
      ensures g.root == root && |g.nodes| == |nodes|
      ensures g.nodes[root] == nodes[root].(lengthBound := Some(bound))
      ensures forall j :: 0 <= j < |nodes| && j != root ==> g.nodes[j] == nodes[j]
    {
      this.(nodes := nodes[root := nodes[root].(lengthBound := Some(bound))])
    }

    /** `set_length_bound`: the node of that name gets the bound, or
        `NoSuchName`. */
    function SetLengthBound(name: string, bound: usize): (r: Result<CalcRegex, NameError>)
      ensures r.Failure? <==> forall j :: 0 <= j < |nodes| ==> !HasName(nodes[j], name)
      ensures r.Failure? ==> r.error == NoSuchName(name)
      ensures r.Success? ==> r.value.root == root && |r.value.nodes| == |nodes|
      ensures r.Success? ==>
        exists i :: (0 <= i < |nodes| && HasName(nodes[i], name)
          && r.value.nodes[i] == nodes[i].(lengthBound := Some(bound))
          && forall j :: 0 <= j < |nodes| && j != i ==> r.value.nodes[j] == nodes[j])
    {
      var i :- Position(nodes, name).ToResult(NoSuchName(name));
      Success(this.(nodes := nodes[i := nodes[i].(lengthBound := Some(bound))]))
    }

    /** `push_node`: appends a node and returns its index, the old node
        count; a name already in use is a failed assertion. */
    function PushNode(node: Node): (r: Result<(CalcRegex, nat), Fault>)
      ensures r.Failure? <==> node.name.Some? && Position(nodes, node.name.value).Some?
      ensures r.Failure? ==> r.error.Panic?
      ensures r.Success? ==> r.value.1 == |nodes| && r.value.0 == this.(nodes := nodes + [node])
    {
      if node.name.Some? && Position(nodes, node.name.value).Some? then
        Failure(Panic(DuplicateNodeMessage(node.name.value)))
      else
        Success((this.(nodes := nodes + [node]), |nodes|))
    }
  }

  /** The message of the assertion `push_node` makes about a name. */
  function DuplicateNodeMessage(name: string): string {
    "A node named \"" + name + "\" already exists!"
  }

  /** `CalcRegex::new`. */
  function Empty(): (g: CalcRegex)
    ensures g.nodes == [] && g.root == 0
  {
    CalcRegex([], 0)
  }

  /** Pushing a node whose children are already present, under a fresh
      name, keeps the arena acyclic and its names unique. */
  lemma {:induction false} PushNodePreservesArena(g: CalcRegex, node: Node)
    requires Acyclic(g.nodes) && UniqueNames(g.nodes)
    requires ChildrenBelow(node.inner, |g.nodes|)
    requires g.PushNode(node).Success?
    ensures Acyclic(g.PushNode(node).value.0.nodes)
    ensures UniqueNames(g.PushNode(node).value.0.nodes)
  {
    var nodes := g.PushNode(node).value.0.nodes;
    forall i, j | 0 <= i < j < |nodes| && nodes[i].name.Some?
      ensures nodes[j].name != nodes[i].name
    {
      if j == |g.nodes| && node.name.Some? {
        assert !HasName(g.nodes[i], node.name.value);
      }
    }
  }

  /** Setting a length bound changes no name and no edge, so it keeps a
      well-formed expression well-formed, and the named node now carries
      the bound. */
  lemma {:induction false} SetLengthBoundPreservesWellFormed(g: CalcRegex, name: string, bound: usize)
    requires g.WellFormed() && g.SetLengthBound(name, bound).Success?
    ensures g.SetLengthBound(name, bound).value.WellFormed()
    ensures var h := g.SetLengthBound(name, bound).value;
      Position(h.nodes, name) == Position(g.nodes, name) && Position(h.nodes, name).Some?
      && h.nodes[Position(h.nodes, name).value].lengthBound == Some(bound)
  {
    var h := g.SetLengthBound(name, bound).value;
    var i := Position(g.nodes, name).value;
    assert forall j :: 0 <= j < |h.nodes| ==> h.nodes[j].name == g.nodes[j].name && h.nodes[j].inner == g.nodes[j].inner;
    PositionIsUnique(h.nodes, name, i);
  }

  /** Setting the same bound twice is setting it once; a second bound
      replaces the first. */
  lemma {:induction false} SetLengthBoundLastWins(g: CalcRegex, name: string, b1: usize, b2: usize)
    requires g.SetLengthBound(name, b1).Success?
    ensures g.SetLengthBound(name, b1).value.SetLengthBound(name, b2) == g.SetLengthBound(name, b2)
  {
    var h := g.SetLengthBound(name, b1).value;
    var i := Position(g.nodes, name).value;
    PositionDependsOnNames(h.nodes, g.nodes, name);
    assert h.nodes[i := h.nodes[i].(lengthBound := Some(b2))] == g.nodes[i := g.nodes[i].(lengthBound := Some(b2))];
  }

  /** `Position` looks at nothing but the names. */
  lemma {:induction false} PositionDependsOnNames(a: seq<Node>, b: seq<Node>, name: string)
    requires |a| == |b| && forall j :: 0 <= j < |a| ==> a[j].name == b[j].name
    ensures Position(a, name) == Position(b, name)
  {
    if |a| > 0 {
      PositionDependsOnNames(a[..|a| - 1], b[..|b| - 1], name);
    }
  }

  /** Moving the root to an existing node keeps a well-formed expression
      well-formed, a later `set_root` overrides an earlier one, and moving
      it by name is moving it to the named node's index. */
  lemma {:induction false} SetRootPreservesWellFormed(g: CalcRegex, i: nat, j: nat, name: string)
    requires g.WellFormed() && i < |g.nodes|
    ensures g.SetRoot(i).WellFormed() && g.SetRoot(i).root == i
    ensures g.SetRoot(i).SetRoot(j) == g.SetRoot(j)
    ensures g.SetRootByName(name).Success? ==>
      Position(g.nodes, name).Some? && g.SetRootByName(name).value == g.SetRoot(Position(g.nodes, name).value)
  {
  }

  /** A new expression is an empty, trivially acyclic arena with unique
      names, not yet well-formed; its first node cannot clash with any name
      and lands at index 0, the default root, after which the expression is
      well-formed. */
  lemma {:induction false} EmptyStartsArena(node: Node)
    requires ChildrenBelow(node.inner, 0)
    ensures Acyclic(Empty().nodes) && UniqueNames(Empty().nodes) && !Empty().WellFormed()
    ensures Empty().PushNode(node) == Success((CalcRegex([node], 0), 0))
    ensures Empty().PushNode(node).value.0.WellFormed()
  {
    assert Empty().nodes + [node] == [node];
    PushNodePreservesArena(Empty(), node);
  }

  /** Moving the root by name keeps a well-formed expression well-formed,
      and the new root is the node of that name. */
  lemma {:induction false} SetRootByNamePreservesWellFormed(g: CalcRegex, name: string)
    requires g.WellFormed() && g.SetRootByName(name).Success?
    ensures g.SetRootByName(name).value.WellFormed()
    ensures g.SetRootByName(name).value.nodes[g.SetRootByName(name).value.root].name == Some(name)
  {
  }
}

=== FILE: input.dfy ===
/** The in-memory byte source `ArrayInput`: a slice of the whole input, the
    offset `start` where the current record began and the read cursor
    `pos`. Reads are all-or-nothing. */
module Input {
  import opened Primitives
  import opened Wrappers
  import opened Errors

  datatype ArrayInput = ArrayInput(input: seq<byte>, start: nat, pos: nat)
  {
    /** `start` never passes the cursor, the cursor never passes the end,
        and a Rust slice holds at most `isize::MAX` bytes. */
    ghost predicate Valid() {
      start <= pos <= |input| <= MAX_SLICE
    }

    /** `Input::pos`: the number of bytes read since the last split. */
    function Pos(): (p: nat)
      requires Valid()
      ensures p == |Bytes()|
    {
      pos - start
    }

    /** `Input::bytes`: the bytes read since the last split. */
    function Bytes(): (b: seq<byte>)
      requires Valid()
    {
      input[start..pos]
    }

    /** `read_next`: one more byte, or `UnexpectedEof` at the end. */
    function ReadNext(): (r: Result<ArrayInput, ParserError>)
      requires Valid()
      ensures r.Success? <==> pos < |input|
      ensures r.Success? ==> r.value.Valid() && r.value == this.(pos := pos + 1)
      ensures r.Success? ==> r.value.Bytes() == Bytes() + [input[pos]]
      ensures r.Failure? ==> r.error == UnexpectedEof
    {
      if pos + 1 > |input| then Failure(UnexpectedEof)
      else
        assert input[start..pos + 1] == input[start..pos] + [input[pos]];
        Success(this.(pos := pos + 1))
    }

    /** `read_n` as written: the sum `pos + n` is a `usize` addition, which
        overflows (a panic in a debug build) for `n` close to `usize::MAX`. */
    function ReadNAsWritten(n: usize): (r: Result<ArrayInput, Fault>)
      requires Valid()
      ensures pos + n >= USIZE_LIMIT <==> r == Failure(Panic(ADD_OVERFLOW))
    {
      if pos + n >= USIZE_LIMIT then Failure(Panic(ADD_OVERFLOW))
      else if pos + n > |input| then Failure(Err(UnexpectedEof))
      else Success(this.(pos := pos + n))
    }

    /** `read_n` with the comparison made without overflow: exactly `n`
        more bytes, or `UnexpectedEof` and nothing read. */
    function ReadN(n: usize): (r: Result<ArrayInput, ParserError>)
      requires Valid()
      ensures r.Success? <==> n <= |input| - pos
      ensures r.Success? ==> r.value.Valid() && r.value == this.(pos := pos + n)
      ensures r.Success? ==> r.value.Bytes() == Bytes() + input[pos..pos + n]
      ensures r.Failure? ==> r.error == UnexpectedEof
    {
      if n > |input| - pos then Failure(UnexpectedEof)
      else
        assert input[start..pos + n] == input[start..pos] + input[pos..pos + n];
        Success(this.(pos := pos + n))
    }

    /** `is_empty`: the cursor is at the end of the input. */
    function IsEmpty(): (e: bool)
      requires Valid()
      ensures e <==> Pos() == |input| - start
    {
      pos == |input|
    }

    /** `split_here`: hands out the bytes read since the last split and
        starts a new record at the cursor. */
    function SplitHere(): (r: (seq<byte>, ArrayInput))
      requires Valid()
      ensures r.0 == Bytes()
      ensures r.1.Valid() && r.1.Pos() == 0 && r.1.Bytes() == []
      ensures r.1.input == input && r.1.pos == pos
    {
      (input[start..pos], this.(start := pos))
    }
  }

  /** `Input::new`: a fresh source at the beginning of the slice. */
  function NewInput(input: seq<byte>): (a: ArrayInput)
    requires |input| <= MAX_SLICE
    ensures a.Valid() && a.Pos() == 0 && a.Bytes() == [] && a.input == input
  {
    ArrayInput(input, 0, 0)
  }

  /** Reading `m` and then `n` bytes is reading `m + n` bytes. */
  lemma {:induction false} ReadNCompose(a: ArrayInput, m: usize, n: usize)
    requires a.Valid() && m + n < USIZE_LIMIT
    ensures a.ReadN(m).Success? && a.ReadN(m).value.ReadN(n).Success? <==> a.ReadN(m + n).Success?
    ensures a.ReadN(m).Success? && a.ReadN(m).value.ReadN(n).Success? ==>
      a.ReadN(m).value.ReadN(n).value == a.ReadN(m + n).value
  {
  }

  /** Reading one byte with `read_n` is `read_next`. */
  lemma {:induction false} ReadOneIsReadNext(a: ArrayInput)
    requires a.Valid()
    ensures a.ReadN(1) == a.ReadNext()
  {
  }

  /** Wherever `pos + n` fits a `usize`, the corrected `read_n` behaves as
      written. */
  lemma {:induction false} ReadNAgreesWithoutOverflow(a: ArrayInput, n: usize)
    requires a.Valid() && a.pos + n < USIZE_LIMIT
    ensures a.ReadN(n).Success? <==> a.ReadNAsWritten(n).Success?
    ensures a.ReadN(n).Success? ==> a.ReadN(n).value == a.ReadNAsWritten(n).value
    ensures a.ReadN(n).Failure? ==> a.ReadNAsWritten(n) == Failure(Err(a.ReadN(n).error))
  {
  }

  /** A count of `usize::MAX` read after one byte of input makes the
      written `read_n` overflow instead of reporting `UnexpectedEof`; the
      corrected version reports `UnexpectedEof`. */
  lemma {:induction false} ReadNOverflowExample()
    ensures NewInput([0x39, 0x3A]).ReadN(1).Success?
    ensures NewInput([0x39, 0x3A]).ReadN(1).value.ReadNAsWritten(USIZE_LIMIT - 1)
      == Failure(Panic(ADD_OVERFLOW))
    ensures NewInput([0x39, 0x3A]).ReadN(1).value.ReadN(USIZE_LIMIT - 1) == Failure(UnexpectedEof)
  {
  }

  /** The unit test `input` of src/reader.rs:1277-1309 on the input "foo". */
  lemma {:induction false} InputExample()
    ensures !NewInput([0x66, 0x6F, 0x6F]).IsEmpty()
    ensures NewInput([0x66, 0x6F, 0x6F]).ReadN(2)
      == Success(ArrayInput([0x66, 0x6F, 0x6F], 0, 2))
    ensures ArrayInput([0x66, 0x6F, 0x6F], 0, 2).Bytes() == [0x66, 0x6F]
    ensures ArrayInput([0x66, 0x6F, 0x6F], 0, 2).ReadNext()
      == Success(ArrayInput([0x66, 0x6F, 0x6F], 0, 3))
    ensures ArrayInput([0x66, 0x6F, 0x6F], 0, 3).IsEmpty()
    ensures ArrayInput([0x66, 0x6F, 0x6F], 0, 3).ReadNext() == Failure(UnexpectedEof)
    ensures ArrayInput([0x66, 0x6F, 0x6F], 0, 3).ReadN(1) == Failure(UnexpectedEof)
    ensures ArrayInput([0x66, 0x6F, 0x6F], 0, 3).ReadN(0).Success?
  {
    assert ArrayInput([0x66, 0x6F, 0x6F], 0, 2).Bytes() == [0x66, 0x6F];
  }
}

=== FILE: interpreter.dfy ===
/** The interpreter: a `Reader` walks a calc-regular expression over the
    input in one of three modes — unbounded (read until the expression is
    matched), bounded (read at most `bound` bytes) and exact (read exactly
    `length` bytes) — and records named captures on its stack as it goes.

    Every mode has a wrapper per node (the `Reader::parse_*` functions:
    captures under the node's name and the node's own length bound) and a
    dispatcher on the node's production (the `CalcRegex::parse_*`
    functions); the productions with loops or counts have a function of
    their own. All of them are mutually recursive; the measure is the node
    index, which only goes down along edges, then the layer, then the
    iterations left. */
module Interpreter {
  import opened Primitives
  import opened Wrappers
  import opened Errors
  import opened Input
  import opened Graph
  import opened Matching
  import Captures

  /** The panic of `parse_unbounded` and `parse_bounded` on a Kleene star. */
  const STAR_PANIC: string := "KleeneStar can only be parsed with parse_exact()."
  /** The names of the special captures around a count and its value. */
  const COUNT: string := "$count"
  const VALUE: string := "$value"

  /** The parser state: the input and the stack of open captures. Capture
      positions count from the start of the current record. */
  datatype Reader = Reader(input: ArrayInput, captures: Captures.Stack)
  {
    /** The input is consistent and every capture on the stack lies within
        the bytes read so far. */
    ghost predicate Valid() {
      input.Valid() && Captures.StackWithin(captures, input.Pos())
    }

    function Pos(): nat
      requires input.Valid()
    {
      input.Pos()
    }

    /** The same captures over input read further. */
    function WithInput(a: ArrayInput): (rd: Reader)
      requires Valid() && a.Valid()
      requires a.input == input.input && a.start == input.start && input.pos <= a.pos
      ensures rd.Valid() && rd.input == a && rd.captures == captures
    {
      Captures.StackWithinMonotone(captures, input.Pos(), a.Pos());
      Reader(a, captures)
    }

    /** `Reader::start_capture`. */
    function StartCapture(name: string): (rd: Reader)
      requires Valid()
      ensures rd.Valid() && rd.input == input && |rd.captures| == |captures| + 1
    {
      Captures.StartCaptureKeepsWithin(captures, name, Pos());
      this.(captures := Captures.StartCapture(captures, name, Pos()))
    }

    /** `Reader::finish_capture`. */
    function FinishCapture(name: string): (r: Result<Reader, Fault>)
      requires Valid()
      ensures r.Success? ==>
        r.value.Valid() && r.value.input == input && |r.value.captures| == |captures| - 1
    {
      match Captures.FinishCapture(captures, name, Pos())
      case Failure(e) => Failure(e)
      case Success(stack) =>
        Captures.FinishCaptureKeepsWithin(captures, name, Pos());
        Success(this.(captures := stack))
    }

    /** `Reader::start_repeat`. */
    function StartRepeat(): (rd: Reader)
      requires Valid()
      ensures rd.Valid() && rd.input == input && |rd.captures| == |captures| + 1
    {
      Captures.StartRepeatKeepsWithin(captures, Pos());
      this.(captures := Captures.StartRepeat(captures))
    }

    /** `Reader::finish_repeat`. */
    function FinishRepeat(): (r: Result<Reader, Fault>)
      requires Valid()
      ensures r.Success? ==>
        r.value.Valid() && r.value.input == input && |r.value.captures| == |captures| - 1
    {
      match Captures.FinishRepeat(captures)
      case Failure(e) => Failure(e)
      case Success(stack) =>
        Captures.FinishRepeatKeepsWithin(captures, Pos());
        Success(this.(captures := stack))
    }
  }

  /** What a bounded or unbounded parse returns: the bytes it read and the
      state after. */
  datatype Progress = Progress(read: nat, rd: Reader)

  /** What `read_count` returns: the decoded count, the bytes the count
      field took and the state after. */
  datatype Count = Count(count: usize, read: nat, rd: Reader)

  /** `rd2` continues `rd`: same input and record start, the cursor has not
      moved back, every open capture is closed again, and the invariant
      holds. */
  ghost predicate Advances(rd: Reader, rd2: Reader) {
    rd2.Valid() && rd2.input.input == rd.input.input && rd2.input.start == rd.input.start
    && rd.input.pos <= rd2.input.pos && |rd2.captures| == |rd.captures|
  }

  /** The number of bytes read between two states. */
  function Consumed(rd: Reader, rd2: Reader): int {
    rd2.input.pos - rd.input.pos
  }

  /** Node `i` can be walked: it exists and every edge points down. */
  predicate Walkable(g: CalcRegex, i: nat) {
    Acyclic(g.nodes) && i < |g.nodes|
  }

  predicate IsCount(inner: Inner) {
    inner.LengthCount? || inner.OccurrenceCount?
  }

  // =====================================================================
  // The wrappers `Reader::parse_*`
  // =====================================================================

  /** `Reader::parse_unbounded`: captures under the node's name; a node
      with a length bound is parsed bounded by it. Returns the bytes read. */
  function Unbounded(g: CalcRegex, i: nat, rd: Reader): (r: Result<Progress, Fault>)
    requires Walkable(g, i) && rd.Valid()
    ensures r.Success? ==> Advances(rd, r.value.rd) && r.value.read == Consumed(rd, r.value.rd)
    ensures r.Success? && g.nodes[i].lengthBound.Some? ==> r.value.read <= g.nodes[i].lengthBound.value
    decreases i, 5, 0
  {
    var node := g.nodes[i];
    var rd1 := if node.name.Some? then rd.StartCapture(node.name.value) else rd;
    var rd2 :- if node.lengthBound.Some? then InnerBounded(g, i, node.lengthBound.value, rd1)
               else InnerUnbounded(g, i, rd1);
    var rd3 :- if node.name.Some? then rd2.FinishCapture(node.name.value) else Success(rd2);
    Success(Progress(Consumed(rd, rd3), rd3))
  }

  /** `Reader::parse_bounded`: the node's own bound, if any, tightens the
      given one. Returns the bytes read, which never exceed either. */
  function Bounded(g: CalcRegex, i: nat, bound: usize, rd: Reader): (r: Result<Progress, Fault>)
    requires Walkable(g, i) && rd.Valid()
    ensures r.Success? ==>
      Advances(rd, r.value.rd) && r.value.read == Consumed(rd, r.value.rd) && r.value.read <= bound
    ensures r.Success? && g.nodes[i].lengthBound.Some? ==> r.value.read <= g.nodes[i].lengthBound.value
    decreases i, 5, 0
  {
    var node := g.nodes[i];
    var rd1 := if node.name.Some? then rd.StartCapture(node.name.value) else rd;
    var b := if node.lengthBound.Some? then Min(bound, node.lengthBound.value) else bound;
    var rd2 :- InnerBounded(g, i, b, rd1);
    var rd3 :- if node.name.Some? then rd2.FinishCapture(node.name.value) else Success(rd2);
    Success(Progress(Consumed(rd, rd3), rd3))
  }

  /** `Reader::parse_exact`: a node bound below the demanded length is a
      conflict, reported before anything is read. */
  function Exact(g: CalcRegex, i: nat, length: usize, rd: Reader): (r: Result<Reader, Fault>)
    requires Walkable(g, i) && rd.Valid()
    ensures r.Success? ==> Advances(rd, r.value) && Consumed(rd, r.value) == length
    ensures g.nodes[i].lengthBound.Some? && g.nodes[i].lengthBound.value < length ==>
      r == Failure(Err(ConflictingBounds(length, g.nodes[i].lengthBound.value)))
    decreases i, 5, 0
  {
    var node := g.nodes[i];
    if node.lengthBound.Some? && node.lengthBound.value < length then
      Failure(Err(ConflictingBounds(length, node.lengthBound.value)))
    else
      var rd1 := if node.name.Some? then rd.StartCapture(node.name.value) else rd;
      var rd2 :- InnerExact(g, i, length, rd1);
      if node.name.Some? then rd2.FinishCapture(node.name.value) else Success(rd2)
  }

  // =====================================================================
  // The dispatchers `CalcRegex::parse_*`
  // =====================================================================

  /** `CalcRegex::parse_unbounded`. */
  function InnerUnbounded(g: CalcRegex, i: nat, rd: Reader): (r: Result<Reader, Fault>)
    requires Walkable(g, i) && rd.Valid()
    ensures r.Success? ==> Advances(rd, r.value)
    ensures g.nodes[i].inner.KleeneStar? ==> r == Failure(Panic(STAR_PANIC))
    decreases i, 4, 0
  {
    EdgesPointDown(g.nodes, i);
    match g.nodes[i].inner
    case Regex(_, isMatch) =>
      (match MatchUnbounded(isMatch, rd.input)
       case Failure(e) => Failure(Err(e))
       case Success(a) => Success(rd.WithInput(a)))
    case Reference(target) =>
      var p :- Unbounded(g, target, rd);
      Success(p.rd)
    case Concat(left, right) =>
      var p :- Unbounded(g, left, rd);
      var q :- Unbounded(g, right, p.rd);
      Success(q.rd)
    case Repeat(_, _) => RepeatUnbounded(g, i, rd)
    case KleeneStar(_) => Failure(Panic(STAR_PANIC))
    case LengthCount(_, _, _, _) => LengthCountUnbounded(g, i, rd)
    case OccurrenceCount(_, _, _, _) => OccurrenceCountUnbounded(g, i, rd)
  }

  /** `CalcRegex::parse_bounded`: reads at most `bound` bytes. */
  function InnerBounded(g: CalcRegex, i: nat, bound: usize, rd: Reader): (r: Result<Reader, Fault>)
    requires Walkable(g, i) && rd.Valid()
    ensures r.Success? ==> Advances(rd, r.value) && Consumed(rd, r.value) <= bound
    ensures g.nodes[i].inner.KleeneStar? ==> r == Failure(Panic(STAR_PANIC))
    decreases i, 4, 0
  {
    EdgesPointDown(g.nodes, i);
    match g.nodes[i].inner
    case Regex(pattern, isMatch) =>
      (match MatchBounded(isMatch, pattern, bound, rd.input)
       case Failure(e) => Failure(Err(e))
       case Success(a) => Success(rd.WithInput(a)))
    case Reference(target) =>
      var p :- Bounded(g, target, bound, rd);
      Success(p.rd)
    case Concat(left, right) =>
      var p :- Bounded(g, left, bound, rd);
      var q :- Bounded(g, right, bound - p.read, p.rd);
      Success(q.rd)
    case Repeat(_, _) => RepeatBounded(g, i, bound, rd)
    case KleeneStar(_) => Failure(Panic(STAR_PANIC))
    case LengthCount(_, _, _, _) => LengthCountBounded(g, i, bound, rd)
    case OccurrenceCount(_, _, _, _) => OccurrenceCountBounded(g, i, bound, rd)
  }

  /** `CalcRegex::parse_exact`: reads exactly `length` bytes. */
  function InnerExact(g: CalcRegex, i: nat, length: usize, rd: Reader): (r: Result<Reader, Fault>)
    requires Walkable(g, i) && rd.Valid()
    ensures r.Success? ==> Advances(rd, r.value) && Consumed(rd, r.value) == length
    decreases i, 4, 0
  {
    EdgesPointDown(g.nodes, i);
    match g.nodes[i].inner
    case Regex(pattern, isMatch) =>
      (match MatchExact(isMatch, pattern, length, rd.input)
       case Failure(e) => Failure(Err(e))
       case Success(a) => Success(rd.WithInput(a)))
    case Reference(target) => Exact(g, target, length, rd)
    case Concat(left, right) =>
      var p :- Bounded(g, left, length, rd);
      Exact(g, right, length - p.read, p.rd)
    case Repeat(_, _) => RepeatExact(g, i, length, rd)
    case KleeneStar(_) => KleeneStarExact(g, i, length, rd)
    case LengthCount(_, _, _, _) => LengthCountExact(g, i, length, rd)
    case OccurrenceCount(_, _, _, _) => OccurrenceCountExact(g, i, length, rd)
  }

  // =====================================================================
  // Repetitions
  // =====================================================================

  /** Unbounded `Repeat`: `n` elements in a repeat capture. */
  function RepeatUnbounded(g: CalcRegex, i: nat, rd: Reader): (r: Result<Reader, Fault>)
    requires Walkable(g, i) && rd.Valid() && g.nodes[i].inner.Repeat?
    ensures r.Success? ==> Advances(rd, r.value)
    ensures g.nodes[i].inner.n == 0 ==> r == rd.StartRepeat().FinishRepeat()
    ensures var elem, n := g.nodes[i].inner.elem, g.nodes[i].inner.n;
      elem < i && 0 < n && Unbounded(g, elem, rd.StartRepeat()).Failure?
      ==> r == Failure(Unbounded(g, elem, rd.StartRepeat()).error)
    ensures var elem, n := g.nodes[i].inner.elem, g.nodes[i].inner.n;
      elem < i && r.Success? ==>
        var elems := UnboundedTimes(g, i, elem, n, rd.StartRepeat());
        elems.Success? && r.value.input == elems.value.input
    decreases i, 3, 0
  {
    EdgesPointDown(g.nodes, i);
    var rd1 :- UnboundedTimes(g, i, g.nodes[i].inner.elem, g.nodes[i].inner.n, rd.StartRepeat());
    rd1.FinishRepeat()
  }

  /** Bounded `Repeat`: the `n` elements share the bound. */
  function RepeatBounded(g: CalcRegex, i: nat, bound: usize, rd: Reader): (r: Result<Reader, Fault>)
    requires Walkable(g, i) && rd.Valid() && g.nodes[i].inner.Repeat?
    ensures r.Success? ==> Advances(rd, r.value) && Consumed(rd, r.value) <= bound
    decreases i, 3, 0
  {
    EdgesPointDown(g.nodes, i);
    var p :- BoundedTimes(g, i, g.nodes[i].inner.elem, g.nodes[i].inner.n, bound, rd.StartRepeat());
    p.rd.FinishRepeat()
  }

  /** Exact `Repeat`: `n - 1` elements bounded by what is left, the last
      one takes the rest exactly; `n = 0` underflows. */
  function RepeatExact(g: CalcRegex, i: nat, length: usize, rd: Reader): (r: Result<Reader, Fault>)
    requires Walkable(g, i) && rd.Valid() && g.nodes[i].inner.Repeat?
    ensures r.Success? ==> Advances(rd, r.value) && Consumed(rd, r.value) == length
    ensures g.nodes[i].inner.n == 0 ==> r == Failure(Panic(SUBTRACT_OVERFLOW))
    decreases i, 3, 0
  {
    EdgesPointDown(g.nodes, i);
    var elem := g.nodes[i].inner.elem;
    var n := g.nodes[i].inner.n;
    if n == 0 then Failure(Panic(SUBTRACT_OVERFLOW))
    else
      var p :- BoundedTimes(g, i, elem, n - 1, length, rd.StartRepeat());
      var rd2 :- Exact(g, elem, length - p.read, p.rd);
      rd2.FinishRepeat()
  }

  /** Exact `KleeneStar`: elements until exactly `length` bytes are read. */
  function KleeneStarExact(g: CalcRegex, i: nat, length: usize, rd: Reader): (r: Result<Reader, Fault>)
    requires Walkable(g, i) && rd.Valid() && g.nodes[i].inner.KleeneStar?
    ensures r.Success? ==> Advances(rd, r.value) && Consumed(rd, r.value) == length
    ensures length == 0 ==> r == rd.StartRepeat().FinishRepeat()
    ensures g.nodes[i].inner.elem < i && 0 < length
      && Bounded(g, g.nodes[i].inner.elem, length, rd.StartRepeat()).Success?
      && Bounded(g, g.nodes[i].inner.elem, length, rd.StartRepeat()).value.read == 0
      ==> r == Failure(Hangs)
    decreases i, 3, 0
  {
    EdgesPointDown(g.nodes, i);
    var rd1 :- StarLoop(g, i, g.nodes[i].inner.elem, length, rd.StartRepeat());
    rd1.FinishRepeat()
  }

  // =====================================================================
  // Counts: `read_count` and the two count productions
  // =====================================================================

  /** The first half of `read_count`: opens `$count`, parses the count
      node `r` (unbounded, or bounded by `bound`) and closes `$count`.
      Returns the bytes read. */
  function CountSpan(g: CalcRegex, i: nat, bound: Option<usize>, rd: Reader): (r: Result<Progress, Fault>)
    requires Walkable(g, i) && rd.Valid() && IsCount(g.nodes[i].inner)
    ensures r.Success? ==> Advances(rd, r.value.rd) && r.value.read == Consumed(rd, r.value.rd)
    ensures r.Success? && bound.Some? ==> r.value.read <= bound.value
    decreases i, 1, 0
  {
    EdgesPointDown(g.nodes, i);
    var rd1 := rd.StartCapture(COUNT);
    var p :- if bound.None? then Unbounded(g, g.nodes[i].inner.r, rd1)
             else Bounded(g, g.nodes[i].inner.r, bound.value, rd1);
    var rd2 :- p.rd.FinishCapture(COUNT);
    Success(Progress(Consumed(rd, rd2), rd2))
  }

  /** `read_count`: the decoder `f` is applied to exactly the bytes the
      count node spans; if it rejects them, the error carries them. On
      success returns the count, the bytes read and the new state. */
  function ReadCount(g: CalcRegex, i: nat, bound: Option<usize>, rd: Reader): (r: Result<Count, Fault>)
    requires Walkable(g, i) && rd.Valid() && IsCount(g.nodes[i].inner)
    ensures r.Success? ==> Advances(rd, r.value.rd) && r.value.read == Consumed(rd, r.value.rd)
    ensures r.Success? && bound.Some? ==> r.value.read <= bound.value
    ensures r.Success? ==>
      g.nodes[i].inner.f(rd.input.input[rd.input.pos..r.value.rd.input.pos]) == Some(r.value.count)
    ensures CountSpan(g, i, bound, rd).Success? ==>
      var raw := rd.input.input[rd.input.pos..CountSpan(g, i, bound, rd).value.rd.input.pos];
      g.nodes[i].inner.f(raw).None? ==> r == Failure(Err(CannotReadCount(raw)))
    decreases i, 2, 0
  {
    var span :- CountSpan(g, i, bound, rd);
    var raw := rd.input.input[rd.input.pos..span.rd.input.pos];
    match g.nodes[i].inner.f(raw)
    case None => Failure(Err(CannotReadCount(raw)))
    case Some(count) => Success(Count(count, span.read, span.rd))
  }

  /** Parses the optional separator `s` of a count node, unbounded. */
  function SeparatorUnbounded(g: CalcRegex, i: nat, rd: Reader): (r: Result<Reader, Fault>)
    requires Walkable(g, i) && rd.Valid() && IsCount(g.nodes[i].inner)
    ensures r.Success? ==> Advances(rd, r.value)
    ensures g.nodes[i].inner.s.None? ==> r == Success(rd)
    decreases i, 1, 0
  {
    EdgesPointDown(g.nodes, i);
    var s := g.nodes[i].inner.s;
    if s.None? then Success(rd)
    else
      var p :- Unbounded(g, s.value, rd);
      Success(p.rd)
  }

  /** Parses the optional separator `s` of a count node within `bound`
      bytes; returns the bytes read. */
  function SeparatorBounded(g: CalcRegex, i: nat, bound: usize, rd: Reader): (r: Result<Progress, Fault>)
    requires Walkable(g, i) && rd.Valid() && IsCount(g.nodes[i].inner)
    ensures r.Success? ==>
      Advances(rd, r.value.rd) && r.value.read == Consumed(rd, r.value.rd) && r.value.read <= bound
    ensures g.nodes[i].inner.s.None? ==> r == Success(Progress(0, rd))
    decreases i, 1, 0
  {
    EdgesPointDown(g.nodes, i);
    var s := g.nodes[i].inner.s;
    if s.None? then Success(Progress(0, rd)) else Bounded(g, s.value, bound, rd)
  }

  /** The value `t` of a length count, exactly `count` bytes, inside a
      `$value` scope. */
  function ValueExact(g: CalcRegex, i: nat, count: usize, rd: Reader): (r: Result<Reader, Fault>)
    requires Walkable(g, i) && rd.Valid() && IsCount(g.nodes[i].inner)
    ensures r.Success? ==> Advances(rd, r.value) && Consumed(rd, r.value) == count
    decreases i, 1, 0
  {
    EdgesPointDown(g.nodes, i);
    var rd1 :- Exact(g, g.nodes[i].inner.t, count, rd.StartCapture(VALUE));
    rd1.FinishCapture(VALUE)
  }

  /** Unbounded `LengthCount`: count, separator, then exactly `count`
      bytes of `t`. */
  function LengthCountUnbounded(g: CalcRegex, i: nat, rd: Reader): (r: Result<Reader, Fault>)
    requires Walkable(g, i) && rd.Valid() && g.nodes[i].inner.LengthCount?
    ensures r.Success? ==> Advances(rd, r.value)
    ensures ReadCount(g, i, None, rd).Failure? ==> r == Failure(ReadCount(g, i, None, rd).error)
    ensures r.Success? ==>
      var c := ReadCount(g, i, None, rd);
      c.Success? && SeparatorUnbounded(g, i, c.value.rd).Success?
      && Consumed(rd, r.value)
         == c.value.read + Consumed(c.value.rd, SeparatorUnbounded(g, i, c.value.rd).value) + c.value.count
    decreases i, 3, 0
  {
    var c :- ReadCount(g, i, None, rd);
    var rd2 :- SeparatorUnbounded(g, i, c.rd);
    ValueExact(g, i, c.count, rd2)
  }

  /** Bounded `LengthCount`: the count field within the bound, then the
      rest within what it left. */
  function LengthCountBounded(g: CalcRegex, i: nat, bound: usize, rd: Reader): (r: Result<Reader, Fault>)
    requires Walkable(g, i) && rd.Valid() && g.nodes[i].inner.LengthCount?
    ensures r.Success? ==> Advances(rd, r.value) && Consumed(rd, r.value) <= bound
    decreases i, 3, 0
  {
    match ReadCount(g, i, Some(bound), rd)
    case Failure(e) => Failure(e)
    case Success(c) => LengthCountBoundedAfterCount(g, i, bound - c.read, c.count, c.rd)
  }

  /** Bounded `LengthCount` once the count is known: the separator within
      the bound, then, if what is left of the bound cannot hold `count`
      bytes, `ConflictingBounds(left, count)` before the value is read. */
  function LengthCountBoundedAfterCount(g: CalcRegex, i: nat, bound: usize, count: usize, rd: Reader): (r: Result<Reader, Fault>)
    requires Walkable(g, i) && rd.Valid() && g.nodes[i].inner.LengthCount?
    ensures r.Success? ==> Advances(rd, r.value) && Consumed(rd, r.value) <= bound
    ensures SeparatorBounded(g, i, bound, rd).Success? ==>
      var sep := SeparatorBounded(g, i, bound, rd).value;
      bound - sep.read < count ==> r == Failure(Err(ConflictingBounds(bound - sep.read, count)))
    decreases i, 2, 1
  {
    var sep :- SeparatorBounded(g, i, bound, rd);
    var left := bound - sep.read;
    if left < count then Failure(Err(ConflictingBounds(left, count)))
    else ValueExact(g, i, count, sep.rd)
  }

  /** Exact `LengthCount`: the count field within the length, then the rest
      takes exactly what it left. */
  function LengthCountExact(g: CalcRegex, i: nat, length: usize, rd: Reader): (r: Result<Reader, Fault>)
    requires Walkable(g, i) && rd.Valid() && g.nodes[i].inner.LengthCount?
    ensures r.Success? ==> Advances(rd, r.value) && Consumed(rd, r.value) == length
    decreases i, 3, 0
  {
    match ReadCount(g, i, Some(length), rd)
    case Failure(e) => Failure(e)
    case Success(c) => LengthCountExactAfterCount(g, i, length - c.read, c.count, c.rd)
  }

  /** Exact `LengthCount` once the count is known, with `length` bytes
      left: a separator takes `length - count` bytes (a count above
      `length` underflows); without one, `count` must equal `length`, or
      the bounds conflict. */
  function LengthCountExactAfterCount(g: CalcRegex, i: nat, length: usize, count: usize, rd: Reader): (r: Result<Reader, Fault>)
    requires Walkable(g, i) && rd.Valid() && g.nodes[i].inner.LengthCount?
    ensures r.Success? ==> Advances(rd, r.value) && Consumed(rd, r.value) == length
    ensures g.nodes[i].inner.s.Some? && count > length ==> r == Failure(Panic(SUBTRACT_OVERFLOW))
    ensures g.nodes[i].inner.s.None? && count != length ==>
      r == Failure(Err(ConflictingBounds(length, count)))
    decreases i, 2, 1
  {
    EdgesPointDown(g.nodes, i);
    var s := g.nodes[i].inner.s;
    var rd2 :-
      if s.Some? then
        (if count > length then Failure(Panic(SUBTRACT_OVERFLOW))
         else Exact(g, s.value, length - count, rd))
      else if length != count then Failure(Err(ConflictingBounds(length, count)))
      else Success(rd);
    ValueExact(g, i, count, rd2)
  }

  /** Unbounded `OccurrenceCount`: `count` elements `t` in a repeat inside
      a `$value` scope. */
  function OccurrenceCountUnbounded(g: CalcRegex, i: nat, rd: Reader): (r: Result<Reader, Fault>)
    requires Walkable(g, i) && rd.Valid() && g.nodes[i].inner.OccurrenceCount?
    ensures r.Success? ==> Advances(rd, r.value)
    ensures ReadCount(g, i, None, rd).Failure? ==> r == Failure(ReadCount(g, i, None, rd).error)
    ensures r.Success? ==>
      var c := ReadCount(g, i, None, rd);
      c.Success? && SeparatorUnbounded(g, i, c.value.rd).Success?
      && (c.value.count == 0 ==>
            Consumed(rd, r.value) == c.value.read + Consumed(c.value.rd, SeparatorUnbounded(g, i, c.value.rd).value))
    ensures r.Success? && g.nodes[i].inner.t < i ==>
      var c := ReadCount(g, i, None, rd).value;
      var sep := SeparatorUnbounded(g, i, c.rd).value;
      var elems := UnboundedTimes(g, i, g.nodes[i].inner.t, c.count, sep.StartCapture(VALUE).StartRepeat());
      elems.Success? && r.value.input == elems.value.input
    decreases i, 3, 0
  {
    EdgesPointDown(g.nodes, i);
    var c :- ReadCount(g, i, None, rd);
    var rd2 :- SeparatorUnbounded(g, i, c.rd);
    var rd3 :- UnboundedTimes(g, i, g.nodes[i].inner.t, c.count, rd2.StartCapture(VALUE).StartRepeat());
    var rd4 :- rd3.FinishRepeat();
    rd4.FinishCapture(VALUE)
  }

  /** Bounded `OccurrenceCount`: the elements share what is left of the
      bound. */
  function OccurrenceCountBounded(g: CalcRegex, i: nat, bound: usize, rd: Reader): (r: Result<Reader, Fault>)
    requires Walkable(g, i) && rd.Valid() && g.nodes[i].inner.OccurrenceCount?
    ensures r.Success? ==> Advances(rd, r.value) && Consumed(rd, r.value) <= bound
    decreases i, 3, 0
  {
    EdgesPointDown(g.nodes, i);
    var c :- ReadCount(g, i, Some(bound), rd);
    var sep :- SeparatorBounded(g, i, bound - c.read, c.rd);
    var p :- BoundedTimes(g, i, g.nodes[i].inner.t, c.count, bound - c.read - sep.read, sep.rd.StartCapture(VALUE).StartRepeat());
    var rd4 :- p.rd.FinishRepeat();
    rd4.FinishCapture(VALUE)
  }

  /** Exact `OccurrenceCount`: the count field within the length, then
      the rest takes exactly what it left. */
  function OccurrenceCountExact(g: CalcRegex, i: nat, length: usize, rd: Reader): (r: Result<Reader, Fault>)
    requires Walkable(g, i) && rd.Valid() && g.nodes[i].inner.OccurrenceCount?
    ensures r.Success? ==> Advances(rd, r.value) && Consumed(rd, r.value) == length
    decreases i, 3, 0
  {
    match ReadCount(g, i, Some(length), rd)
    case Failure(e) => Failure(e)
    case Success(c) => OccurrenceCountExactAfterCount(g, i, length - c.read, c.count, c.rd)
  }

  /** Exact `OccurrenceCount` once the count is known: after the separator,
      all but the last element are bounded by what is left and the last
      takes the rest exactly; a count of zero underflows in `0..count-1`. */
  function OccurrenceCountExactAfterCount(g: CalcRegex, i: nat, length: usize, count: usize, rd: Reader): (r: Result<Reader, Fault>)
    requires Walkable(g, i) && rd.Valid() && g.nodes[i].inner.OccurrenceCount?
    ensures r.Success? ==> Advances(rd, r.value) && Consumed(rd, r.value) == length
    ensures count == 0 && SeparatorBounded(g, i, length, rd).Success? ==> r == Failure(Panic(SUBTRACT_OVERFLOW))
    decreases i, 2, 1
  {
    var sep :- SeparatorBounded(g, i, length, rd);
    if count == 0 then Failure(Panic(SUBTRACT_OVERFLOW))
    else ElementsExact(g, i, count, length - sep.read, sep.rd)
  }

  /** The `$value` scope of an exact `OccurrenceCount` with `count > 0`
      elements `t`: the first `count - 1` bounded by `length`, the last
      taking exactly the rest. */
  function ElementsExact(g: CalcRegex, i: nat, count: usize, length: usize, rd: Reader): (r: Result<Reader, Fault>)
    requires Walkable(g, i) && rd.Valid() && g.nodes[i].inner.OccurrenceCount? && 0 < count
    ensures r.Success? ==> Advances(rd, r.value) && Consumed(rd, r.value) == length
    decreases i, 1, 0
  {
    EdgesPointDown(g.nodes, i);
    var t := g.nodes[i].inner.t;
    var p :- BoundedTimes(g, i, t, count - 1, length, rd.StartCapture(VALUE).StartRepeat());
    var rd3 :- Exact(g, t, length - p.read, p.rd);
    var rd4 :- rd3.FinishRepeat();
    rd4.FinishCapture(VALUE)
  }

  // =====================================================================
  // Loops
  // =====================================================================

  /** `k` more unbounded elements `j` of node `i`. */
  function UnboundedTimes(g: CalcRegex, i: nat, j: nat, k: nat, rd: Reader): (r: Result<Reader, Fault>)
    requires Walkable(g, i) && j < i && rd.Valid()
    ensures r.Success? ==> Advances(rd, r.value)
    ensures k == 0 ==> r == Success(rd)
    ensures 0 < k && Unbounded(g, j, rd).Failure? ==> r == Failure(Unbounded(g, j, rd).error)
    decreases i, 0, k
  {
    if k == 0 then Success(rd)
    else
      var p :- Unbounded(g, j, rd);
      UnboundedTimes(g, i, j, k - 1, p.rd)
  }

  /** `k` more bounded elements `j` of node `i`, each bounded by what the
      ones before left of `bound`. Returns the bytes read. */
  function BoundedTimes(g: CalcRegex, i: nat, j: nat, k: nat, bound: usize, rd: Reader): (r: Result<Progress, Fault>)
    requires Walkable(g, i) && j < i && rd.Valid()
    ensures r.Success? ==>
      Advances(rd, r.value.rd) && r.value.read == Consumed(rd, r.value.rd) && r.value.read <= bound
    decreases i, 0, k
  {
    if k == 0 then Success(Progress(0, rd))
    else
      var p :- Bounded(g, j, bound, rd);
      var q :- BoundedTimes(g, i, j, k - 1, bound - p.read, p.rd);
      Success(Progress(p.read + q.read, q.rd))
  }

  /** The exact Kleene star loop: bounded elements until `length` bytes
      are read. An element that reads nothing leaves the cursor and the
      remaining length where they were, so the loop would never end. */
  function StarLoop(g: CalcRegex, i: nat, j: nat, length: usize, rd: Reader): (r: Result<Reader, Fault>)
    requires Walkable(g, i) && j < i && rd.Valid()
    ensures r.Success? ==> Advances(rd, r.value) && Consumed(rd, r.value) == length
    ensures length == 0 ==> r == Success(rd)
    ensures 0 < length && Bounded(g, j, length, rd).Success? && Bounded(g, j, length, rd).value.read == 0 ==>
      r == Failure(Hangs)
    decreases i, 0, length
  {
    if length == 0 then Success(rd)
    else
      var p :- Bounded(g, j, length, rd);
      if p.read == 0 then Failure(Hangs)
      else StarLoop(g, i, j, length - p.read, p.rd)
  }

  /** Reading `a + b` elements is reading `a` of them and then `b` more
      from where those ended; a failure among the first `a` is the
      failure of the whole. */
  lemma {:induction false} UnboundedTimesSplit(g: CalcRegex, i: nat, j: nat, a: nat, b: nat, rd: Reader)
    requires Walkable(g, i) && j < i && rd.Valid()
    ensures UnboundedTimes(g, i, j, a + b, rd) ==
      (match UnboundedTimes(g, i, j, a, rd)
       case Failure(e) => Failure(e)
       case Success(rd1) => UnboundedTimes(g, i, j, b, rd1))
    decreases a
  {
    if a > 0 {
      match Unbounded(g, j, rd)
      case Failure(_) =>
      case Success(p) =>
        UnboundedTimesSplit(g, i, j, a - 1, b, p.rd);
    }
  }

  /** One element is one `Unbounded` read. */
  lemma {:induction false} UnboundedTimesOne(g: CalcRegex, i: nat, j: nat, rd: Reader)
    requires Walkable(g, i) && j < i && rd.Valid()
    ensures UnboundedTimes(g, i, j, 1, rd) ==
      (match Unbounded(g, j, rd)
       case Failure(e) => Failure(e)
       case Success(p) => Success(p.rd))
  {
  }
}

=== FILE: matching.dfy ===
/** The three ways the reader runs a compiled regex against the input: read
    until the bytes read so far match (no bound), read until they match but
    at most `bound` bytes, or read exactly `length` bytes and test them once.
    The regex is a whole-slice predicate; the pattern text only appears in
    error values. */
module Matching {
  import opened Primitives
  import opened Wrappers
  import opened Errors
  import opened Input

  /** A compiled, anchored regex: does it match this whole byte slice? */
  type Matcher = seq<byte> -> bool

  /** The `k` bytes from `from` are in the input and match. */
  predicate MatchesAt(isMatch: Matcher, input: seq<byte>, from: nat, k: nat) {
    from + k <= |input| && isMatch(input[from..from + k])
  }

  /** No prefix of length below `k` from `from` matches. */
  predicate NoMatchBelow(isMatch: Matcher, input: seq<byte>, from: nat, k: nat) {
    forall j :: 0 <= j < k ==> !MatchesAt(isMatch, input, from, j)
  }

  /** `k` is the length of the shortest matching prefix from `from`. */
  predicate ShortestMatch(isMatch: Matcher, input: seq<byte>, from: nat, k: nat) {
    MatchesAt(isMatch, input, from, k) && NoMatchBelow(isMatch, input, from, k)
  }

  // ---------------------------------------------------------------------
  // match_regex_unbounded
  // ---------------------------------------------------------------------

  /** The `while !is_match { read_next()? }` loop, started at `from`. */
  function UnboundedFrom(isMatch: Matcher, a: ArrayInput, from: nat): (r: Result<ArrayInput, ParserError>)
    requires a.Valid() && a.start <= from <= a.pos
    requires NoMatchBelow(isMatch, a.input, from, a.pos - from)
    ensures r.Success? ==>
      a.pos <= r.value.pos && r.value == a.(pos := r.value.pos) && r.value.Valid()
      && ShortestMatch(isMatch, a.input, from, r.value.pos - from)
    ensures r.Failure? ==>
      r.error == UnexpectedEof
      && NoMatchBelow(isMatch, a.input, from, |a.input| - from + 1)
    decreases |a.input| - a.pos
  {
    if isMatch(a.input[from..a.pos]) then Success(a)
    else
      assert !MatchesAt(isMatch, a.input, from, a.pos - from);
      var b :- a.ReadNext();
      UnboundedFrom(isMatch, b, from)
  }

  /** `match_regex_unbounded`: consumes the shortest matching prefix, or
      fails with `UnexpectedEof` when no prefix of the rest matches. */
  function MatchUnbounded(isMatch: Matcher, a: ArrayInput): (r: Result<ArrayInput, ParserError>)
    requires a.Valid()
    ensures r.Success? ==>
      a.pos <= r.value.pos && r.value == a.(pos := r.value.pos) && r.value.Valid()
      && ShortestMatch(isMatch, a.input, a.pos, r.value.pos - a.pos)
    ensures r.Failure? <==> NoMatchBelow(isMatch, a.input, a.pos, |a.input| - a.pos + 1)
    ensures r.Failure? ==> r.error == UnexpectedEof
  {
    UnboundedFrom(isMatch, a, a.pos)
  }

  // ---------------------------------------------------------------------
  // match_regex_bounded
  // ---------------------------------------------------------------------

  /** The `for _ in 0..bound` loop with `remaining` iterations left. */
  function BoundedFrom(isMatch: Matcher, pattern: string, a: ArrayInput, from: nat, remaining: nat): (r: Result<ArrayInput, ParserError>)
    requires a.Valid() && a.start <= from <= a.pos
    requires NoMatchBelow(isMatch, a.input, from, a.pos - from + 1)
    ensures r.Success? ==>
      a.pos <= r.value.pos && r.value == a.(pos := r.value.pos) && r.value.Valid()
      && r.value.pos - a.pos <= remaining
      && ShortestMatch(isMatch, a.input, from, r.value.pos - from)
    ensures r.Failure? && r.error.Regex? ==>
      a.pos + remaining <= |a.input|
      && r.error == Regex(pattern, a.input[from..a.pos + remaining])
      && NoMatchBelow(isMatch, a.input, from, a.pos - from + remaining + 1)
    ensures r.Failure? && !r.error.Regex? ==>
      r.error == UnexpectedEof && a.pos + remaining > |a.input|
      && NoMatchBelow(isMatch, a.input, from, |a.input| - from + 1)
    decreases remaining
  {
    if remaining == 0 then Failure(Regex(pattern, a.input[from..a.pos]))
    else
      var b :- a.ReadNext();
      if isMatch(b.input[from..b.pos]) then Success(b)
      else
        assert !MatchesAt(isMatch, a.input, from, b.pos - from);
        BoundedFrom(isMatch, pattern, b, from, remaining - 1)
  }

  /** `match_regex_bounded`: an empty match consumes nothing; otherwise the
      shortest matching prefix of at most `bound` bytes is consumed, and if
      there is none the error carries the `bound` bytes read, or the input
      ends first. */
  function MatchBounded(isMatch: Matcher, pattern: string, bound: nat, a: ArrayInput): (r: Result<ArrayInput, ParserError>)
    requires a.Valid()
    ensures isMatch([]) ==> r == Success(a)
    ensures r.Success? ==>
      a.pos <= r.value.pos && r.value == a.(pos := r.value.pos) && r.value.Valid()
      && r.value.pos - a.pos <= bound
      && ShortestMatch(isMatch, a.input, a.pos, r.value.pos - a.pos)
    ensures r.Failure? && r.error.Regex? ==>
      a.pos + bound <= |a.input|
      && r.error == Regex(pattern, a.input[a.pos..a.pos + bound])
      && NoMatchBelow(isMatch, a.input, a.pos, bound + 1)
    ensures r.Failure? && !r.error.Regex? ==>
      r.error == UnexpectedEof && a.pos + bound > |a.input|
      && NoMatchBelow(isMatch, a.input, a.pos, |a.input| - a.pos + 1)
  {
    if isMatch([]) then
      assert a.input[a.pos..a.pos] == [];
      Success(a)
    else
      assert a.input[a.pos..a.pos] == [];
      BoundedFrom(isMatch, pattern, a, a.pos, bound)
  }

  /** Whatever the bound, `match_regex_bounded` either agrees with
      `match_regex_unbounded` or stops because the shortest match is longer
      than the bound. */
  lemma {:induction false} BoundedAgreesWithUnbounded(isMatch: Matcher, pattern: string, bound: nat, a: ArrayInput)
    requires a.Valid()
    requires MatchUnbounded(isMatch, a).Success?
    ensures var u := MatchUnbounded(isMatch, a).value;
      u.pos - a.pos <= bound <==> MatchBounded(isMatch, pattern, bound, a) == Success(u)
  {
    var u := MatchUnbounded(isMatch, a).value;
    var k := u.pos - a.pos;
    var m := MatchBounded(isMatch, pattern, bound, a);
    ShortestMatchUnique(isMatch, a.input, a.pos, k);
    if k <= bound {
      assert MatchesAt(isMatch, a.input, a.pos, k);
      assert m.Success?;
      assert ShortestMatch(isMatch, a.input, a.pos, m.value.pos - a.pos);
    }
  }

  /** There is only one shortest match. */
  lemma {:induction false} ShortestMatchUnique(isMatch: Matcher, input: seq<byte>, from: nat, k: nat)
    requires ShortestMatch(isMatch, input, from, k)
    ensures forall j :: ShortestMatch(isMatch, input, from, j) ==> j == k
  {
  }

  // ---------------------------------------------------------------------
  // match_regex_exact
  // ---------------------------------------------------------------------

  /** `match_regex_exact`: reads exactly `length` bytes and tests them; on
      a mismatch the error carries those bytes. The read is the corrected
      `read_n`, so a length running past the end is `UnexpectedEof` even
      where `pos + length` would overflow a `usize`. */
  function MatchExact(isMatch: Matcher, pattern: string, length: usize, a: ArrayInput): (r: Result<ArrayInput, ParserError>)
    requires a.Valid()
    ensures r.Success? <==> MatchesAt(isMatch, a.input, a.pos, length)
    ensures r.Success? ==> r.value == a.(pos := a.pos + length) && r.value.Valid()
    ensures a.pos + length > |a.input| ==> r == Failure(UnexpectedEof)
    ensures a.pos + length <= |a.input| && r.Failure? ==>
      r.error == Regex(pattern, a.input[a.pos..a.pos + length])
  {
    var b :- a.ReadN(length);
    var value := b.input[a.pos..b.pos];
    if isMatch(value) then Success(b) else Failure(Regex(pattern, value))
  }

  /** The text `foobar` as bytes. */
  const FOOBAR: seq<byte> := [0x66, 0x6F, 0x6F, 0x62, 0x61, 0x72]

  /** The pattern text of `("a" - "z")^6`. */
  const SIX_LOWER: string := "^(?-u:([a-z]){6})$"

  /** The compiled regex `^(?-u:([a-z]){6})$`: six lower-case ASCII letters. */
  predicate SixLower(b: seq<byte>) {
    |b| == 6 && forall k :: 0 <= k < |b| ==> 0x61 <= b[k] <= 0x7A
  }

  /** Against `foobar`, the shortest match of six letters is the whole
      input. */
  lemma {:induction false} FoobarShortest()
    ensures ShortestMatch(SixLower, FOOBAR, 0, 6)
  {
    assert FOOBAR[0..6] == FOOBAR;
    forall j | 0 <= j < 6 ensures !MatchesAt(SixLower, FOOBAR, 0, j) {
      assert |FOOBAR[0..j]| == j;
    }
  }

  /** The unit tests `parse_bounded_tight`, `parse_bounded_within` and
      `parse_bounded_exceeded` of src/reader.rs:1312-1357, at the level of
      the matcher: on `foobar`, a bound of 6 or more consumes all six
      bytes, and a bound of 5 fails with the five bytes read. */
  lemma {:induction false} BoundedExample(a: ArrayInput, bound: nat)
    requires a.input == FOOBAR && a.start == 0 && a.pos == 0
    ensures bound >= 6 ==> MatchBounded(SixLower, SIX_LOWER, bound, a) == Success(a.(pos := 6))
    ensures bound == 5 ==>
      MatchBounded(SixLower, SIX_LOWER, bound, a) == Failure(Regex(SIX_LOWER, [0x66, 0x6F, 0x6F, 0x62, 0x61]))
  {
    FoobarShortest();
    ShortestMatchUnique(SixLower, FOOBAR, 0, 6);
    assert !SixLower([]);
    assert FOOBAR[0..5] == [0x66, 0x6F, 0x6F, 0x62, 0x61];
  }
}

=== FILE: parse.dfy ===
/** The public parsing entry points of `Reader`: `parse` (one record that
    must use up the input), `parse_record` (one record, input may remain)
    and the `RecordIter` step of `parse_many`. */
module Parsing {
  import opened Primitives
  import opened Wrappers
  import opened Errors
  import opened Input
  import opened Graph
  import opened Matching
  import opened Interpreter
  import Captures
  import Records

  /** The result of a successful parse: the record and the reader, ready
      for the next record. */
  type Parsed = (Records.Record, Reader)

  /** `init_capture` on a reader. */
  function InitCapture(rd: Reader, name: string): (r: Reader)
    requires rd.Valid()
    ensures r.Valid() && r.input == rd.input && |r.captures| == |rd.captures| + 1
    ensures r.captures[|rd.captures|] == Captures.Entry(name, Captures.Single(Captures.EmptyCapture(rd.Pos())))
  {
    var stack := Captures.InitCapture(rd.captures, name, rd.Pos());
    assert forall j :: 0 <= j < |rd.captures| ==> stack[j] == rd.captures[j];
    rd.(captures := stack)
  }

  /** `get_record`: pops the root capture and splits the bytes read off the
      input as the record's data. */
  function GetRecord(rd: Reader): (r: Result<Parsed, Fault>)
    requires rd.Valid()
    ensures |rd.captures| == 0 ==> r == Failure(Panic(Captures.UNWRAP_NONE))
    ensures |rd.captures| > 0 && rd.captures[|rd.captures| - 1].capture.Repeat? ==>
      r == Failure(Panic(Captures.EXPECTED_SINGLE))
    ensures r.Success? ==>
      var top := rd.captures[|rd.captures| - 1];
      top.capture.Single?
      && r.value.0 == Records.Record(top.capture.single, rd.input.Bytes())
      && r.value.1 == Reader(rd.input.SplitHere().1, rd.captures[..|rd.captures| - 1])
  {
    if |rd.captures| == 0 then Failure(Panic(Captures.UNWRAP_NONE))
    else
      var top := rd.captures[|rd.captures| - 1];
      match top.capture
      case Repeat(_) => Failure(Panic(Captures.EXPECTED_SINGLE))
      case Single(c) =>
        var (data, rest) := rd.input.SplitHere();
        Success((Records.Record(c, data), Reader(rest, rd.captures[..|rd.captures| - 1])))
  }

  /** The part `parse` and `parse_record` share: open the root capture,
      parse the root's production (bounded by the root's own bound, if
      any) and close the root capture. A root without a name is an
      `unwrap` on `None`. On success the stack holds exactly the closed
      root capture, spanning what was read. */
  function ParseRoot(g: CalcRegex, rd: Reader): (r: Result<Reader, Fault>)
    requires Walkable(g, g.root) && rd.Valid()
    ensures g.nodes[g.root].name.None? ==> r == Failure(Panic(Captures.UNWRAP_NONE))
    ensures r.Success? ==>
      rd.captures == [] && r.value.input.Valid()
      && r.value.input.input == rd.input.input && r.value.input.start == rd.input.start
      && rd.input.pos <= r.value.input.pos
      && |r.value.captures| == 1 && r.value.captures[0].capture.Single?
      && r.value.captures[0].name == g.nodes[g.root].name.value
      && r.value.captures[0].capture.single.endPos == r.value.Pos()
      && Captures.SingleWithin(r.value.captures[0].capture.single, r.value.Pos())
  {
    var root := g.nodes[g.root];
    if root.name.None? then Failure(Panic(Captures.UNWRAP_NONE))
    else
      var name := root.name.value;
      var rd1 := InitCapture(rd, name);
      var rd2 :- if root.lengthBound.Some? then InnerBounded(g, g.root, root.lengthBound.value, rd1)
                 else InnerUnbounded(g, g.root, rd1);
      var stack :- Captures.FinalizeCapture(rd2.captures, name, rd2.Pos());
      Captures.FinalizeCaptureKeepsWithin(rd2.captures, name, rd2.Pos());
      Success(rd2.(captures := stack))
  }

  /** `Reader::parse`: one record that must use up the input, or
      `TrailingCharacters`. The record holds every byte from the start of
      the record to the end of the input, its root capture ends there, and
      the reader is left empty with no open capture. */
  function Parse(g: CalcRegex, rd: Reader): (r: Result<Parsed, Fault>)
    requires Walkable(g, g.root) && rd.Valid()
    ensures g.nodes[g.root].name.None? ==> r == Failure(Panic(Captures.UNWRAP_NONE))
    ensures r.Success? ==>
      rd.captures == [] && r.value.0.Valid()
      && r.value.0.data == rd.input.input[rd.input.start..]
      && r.value.0.capture.endPos == |r.value.0.data|
    ensures r.Success? ==>
      r.value.1.Valid() && r.value.1.captures == [] && r.value.1.input.IsEmpty()
      && r.value.1.input.input == rd.input.input && r.value.1.Pos() == 0
  {
    var rd1 :- ParseRoot(g, rd);
    if rd1.input.IsEmpty() then GetRecord(rd1) else Failure(Err(TrailingCharacters))
  }

  /** `get_all` on a parsed record gives back exactly the bytes it was
      parsed from, from the start of the input to its end, and the root
      capture spans all of them. */
  lemma {:induction false} ParseGetAll(g: CalcRegex, rd: Reader)
    requires Walkable(g, g.root) && rd.Valid() && Parse(g, rd).Success?
    ensures Parse(g, rd).value.0.GetAll() == rd.input.input[rd.input.start..]
    ensures Parse(g, rd).value.0.capture.endPos == |Parse(g, rd).value.0.GetAll()|
  {
  }

  /** `Reader::parse_record`: one record; the input may go on. The record
      holds the bytes from the start of the record to where the root
      ended, and the reader starts a new record there. */
  function ParseRecord(g: CalcRegex, rd: Reader): (r: Result<Parsed, Fault>)
    requires Walkable(g, g.root) && rd.Valid()
    ensures g.nodes[g.root].name.None? ==> r == Failure(Panic(Captures.UNWRAP_NONE))
    ensures r.Success? ==>
      r.value.1.Valid() && r.value.1.captures == [] && r.value.1.Pos() == 0
      && r.value.1.input.input == rd.input.input && rd.input.pos <= r.value.1.input.pos
    ensures r.Success? ==>
      rd.captures == [] && r.value.0.Valid()
      && r.value.0.data == rd.input.input[rd.input.start..r.value.1.input.pos]
      && r.value.0.capture.endPos == |r.value.0.data|
  {
    var rd1 :- ParseRoot(g, rd);
    GetRecord(rd1)
  }

  /** `RecordIter::next`: nothing once the input is used up, otherwise the
      next record. */
  function NextRecord(g: CalcRegex, rd: Reader): (r: Option<Result<Parsed, Fault>>)
    requires Walkable(g, g.root) && rd.Valid()
    ensures r.None? <==> rd.input.IsEmpty()
    ensures r.Some? ==> r.value == ParseRecord(g, rd)
  {
    if rd.input.IsEmpty() then None else Some(ParseRecord(g, rd))
  }

  /** `parse` is `parse_record` plus the demand that the input is used up:
      they fail alike, and where `parse_record` succeeds, `parse` returns
      the same record exactly when no input is left. */
  lemma {:induction false} ParseIsParseRecordAtEnd(g: CalcRegex, rd: Reader)
    requires Walkable(g, g.root) && rd.Valid()
    ensures ParseRecord(g, rd).Failure? ==> Parse(g, rd) == ParseRecord(g, rd)
    ensures ParseRecord(g, rd).Success? && ParseRecord(g, rd).value.1.input.IsEmpty() ==>
      Parse(g, rd) == ParseRecord(g, rd)
    ensures ParseRecord(g, rd).Success? && !ParseRecord(g, rd).value.1.input.IsEmpty() ==>
      Parse(g, rd) == Failure(Err(TrailingCharacters))
  {
  }
}

=== FILE: parse_facts.dfy ===
/** Properties that relate the three parse modes to each other. */
module ParseFacts {
  import opened Primitives
  import opened Wrappers
  import opened Errors
  import opened Input
  import opened Graph
  import opened Interpreter

  /** A node with its own bound `b` is parsed alike by the unbounded and
      the bounded wrapper given `b`: its bound is the only limit either
      way. */
  lemma {:induction false} OwnBoundMakesUnboundedBounded(g: CalcRegex, i: nat, rd: Reader)
    requires Walkable(g, i) && rd.Valid() && g.nodes[i].lengthBound.Some?
    ensures Unbounded(g, i, rd) == Bounded(g, i, g.nodes[i].lengthBound.value, rd)
  {
  }
}

=== FILE: primitives.dfy ===
/** Machine-level value types shared by every module: bytes of input and the
    64-bit `usize` the library uses for lengths, bounds and decoded counts. */
module Primitives {

  /** One byte of input. */
  type byte = b: int | 0 <= b < 256

  /** 2^64: the number of values a `usize` can hold on a 64-bit target. */
  const USIZE_LIMIT: int := 0x1_0000_0000_0000_0000

  /** `mem::size_of::<usize>()` on a 64-bit target. */
  const WORD_SIZE: nat := 8

  /** The largest slice length Rust allows (`isize::MAX`). */
  const MAX_SLICE: int := 0x7FFF_FFFF_FFFF_FFFF

  /** Rust's unsigned machine word. */
  type usize = n: int | 0 <= n < USIZE_LIMIT

  function Min(a: int, b: int): int {
    if a <= b then a else b
  }
}

=== FILE: records.dfy ===
/** The query layer over a parsed record: dotted capture names with
    optional `[i]` selectors are resolved against the capture tree, and the
    spans found are cut out of the record's bytes. */
module Records {
  import opened Primitives
  import opened Wrappers
  import opened Errors
  import Aux
  import opened Captures

  const MISSING_BRACKET: string := "missing closing ']'"
  const NON_NUMERIC: string := "non-numeric index"

  // ---------------------------------------------------------------------
  // Splitting names
  // ---------------------------------------------------------------------

  /** The parts joined back with the separator between them. */
  function JoinWith(parts: seq<string>, sep: char): string
    requires |parts| >= 1
  {
    if |parts| == 1 then parts[0] else parts[0] + [sep] + JoinWith(parts[1..], sep)
  }

  /** `str::split(sep)`: the maximal separator-free pieces, at least one
      (the empty string splits into one empty piece). */
  function Split(s: string, sep: char): (parts: seq<string>)
    ensures |parts| >= 1
    ensures forall i :: 0 <= i < |parts| ==> sep !in parts[i]
    ensures JoinWith(parts, sep) == s
  {
    if |s| == 0 then [""]
    else
      var rest := Split(s[1..], sep);
      if s[0] == sep then
        assert JoinWith([""] + rest, sep) == [sep] + JoinWith(rest, sep) by {
          assert ([""] + rest)[1..] == rest;
        }
        [""] + rest
      else
        var parts := [[s[0]] + rest[0]] + rest[1..];
        assert JoinWith(parts, sep) == [s[0]] + JoinWith(rest, sep) by {
          if |rest| > 1 {
            assert parts[1..] == rest[1..];
          }
        }
        assert s == [s[0]] + s[1..];
        parts
  }

  /** Splitting undoes joining separator-free pieces. */
  lemma {:induction false} SplitJoin(parts: seq<string>, sep: char)
    requires |parts| >= 1 && forall i :: 0 <= i < |parts| ==> sep !in parts[i]
    ensures Split(JoinWith(parts, sep), sep) == parts
    decreases |JoinWith(parts, sep)|, |parts[0]|
  {
    var s := JoinWith(parts, sep);
    if |parts[0]| == 0 {
      if |parts| > 1 {
        var tail := parts[1..];
        assert s == [sep] + JoinWith(tail, sep);
        assert s[1..] == JoinWith(tail, sep);
        SplitJoin(tail, sep);
        assert parts == [""] + tail;
      }
    } else {
      var p0 := parts[0];
      var shorter := [p0[1..]] + parts[1..];
      assert forall i :: 0 <= i < |shorter| ==> sep !in shorter[i] by {
        assert shorter[0] == p0[1..];
        forall i | 1 <= i < |shorter| ensures sep !in shorter[i] {
          assert shorter[i] == parts[i];
        }
      }
      assert JoinWith(shorter, sep) == s[1..] by {
        if |parts| > 1 {
          assert shorter[1..] == parts[1..];
        }
        assert s == p0 + (s[|p0|..]);
      }
      SplitJoin(shorter, sep);
      assert s[0] == p0[0] && s[0] != sep;
      assert p0 == [p0[0]] + p0[1..];
      assert shorter[1..] == parts[1..];
      assert parts == [[s[0]] + shorter[0]] + shorter[1..];
    }
  }

  /** Splitting a name joined at a separator splits both halves. */
  lemma {:induction false} SplitConcat(a: string, b: string, sep: char)
    ensures Split(a + [sep] + b, sep) == Split(a, sep) + Split(b, sep)
  {
    var pa, pb := Split(a, sep), Split(b, sep);
    var parts := pa + pb;
    NoSepConcat(pa, pb, sep);
    JoinConcat(pa, pb, sep);
    assert JoinWith(parts, sep) == a + [sep] + b;
    SplitJoin(parts, sep);
  }

  lemma {:induction false} NoSepConcat(xs: seq<string>, ys: seq<string>, sep: char)
    requires forall i :: 0 <= i < |xs| ==> sep !in xs[i]
    requires forall i :: 0 <= i < |ys| ==> sep !in ys[i]
    ensures forall i :: 0 <= i < |xs + ys| ==> sep !in (xs + ys)[i]
  {
    forall i | 0 <= i < |xs + ys| ensures sep !in (xs + ys)[i] {
      if i < |xs| { assert (xs + ys)[i] == xs[i]; } else { assert (xs + ys)[i] == ys[i - |xs|]; }
    }
  }

  lemma {:induction false} JoinConcat(xs: seq<string>, ys: seq<string>, sep: char)
    requires |xs| >= 1 && |ys| >= 1
    ensures JoinWith(xs + ys, sep) == JoinWith(xs, sep) + [sep] + JoinWith(ys, sep)
    decreases |xs|
  {
    if |xs| == 1 {
      assert (xs + ys)[1..] == ys;
    } else {
      assert (xs + ys)[1..] == xs[1..] + ys;
      JoinConcat(xs[1..], ys, sep);
    }
  }

  /** The first position of `c` in `s`: `str::find`. */
  function Find(s: string, c: char): (r: Option<nat>)
    ensures r.None? <==> c !in s
    ensures r.Some? ==> r.value < |s| && s[r.value] == c && c !in s[..r.value]
  {
    if |s| == 0 then None
    else if s[0] == c then Some(0)
    else
      match Find(s[1..], c)
      case None => None
      case Some(i) =>
        assert s[..i + 1] == [s[0]] + s[1..][..i];
        Some(i + 1)
  }

  /** The last position of `c` in `s`. */
  function RFind(s: string, c: char): (r: Option<nat>)
    ensures r.None? <==> c !in s
    ensures r.Some? ==> r.value < |s| && s[r.value] == c && c !in s[r.value + 1..]
  {
    if |s| == 0 then None
    else if s[|s| - 1] == c then Some(|s| - 1)
    else
      match RFind(s[..|s| - 1], c)
      case None =>
        assert s == s[..|s| - 1] + [s[|s| - 1]];
        None
      case Some(i) =>
        assert s[i + 1..] == s[..|s| - 1][i + 1..] + [s[|s| - 1]];
        Some(i)
  }

  /** `rsplitn(2, sep)`: the text after the last separator and, if there
      is a separator, the text before it. */
  function RSplitOnce(s: string, sep: char): (r: (Option<string>, string))
    ensures sep !in r.1
    ensures r.0.None? <==> sep !in s
    ensures r.0.None? ==> r.1 == s
    ensures r.0.Some? ==> s == r.0.value + [sep] + r.1
  {
    match RFind(s, sep)
    case None => (None, s)
    case Some(i) =>
      assert s == s[..i] + [sep] + s[i + 1..];
      (Some(s[..i]), s[i + 1..])
  }

  // ---------------------------------------------------------------------
  // Fragments `name` and `name[i]`
  // ---------------------------------------------------------------------

  /** Reads the optional `[i]` selector off one fragment of a name. The
      fragment is cut at its first `[`; it must then end in `]` and hold a
      `usize` in between, in the syntax of `str::parse::<usize>`. */
  function ParseFragment(fragment: string): (r: Result<(string, Option<usize>), NameError>)
    ensures '[' !in fragment ==> r == Success((fragment, None))
    ensures r.Failure? ==> '[' in fragment && r.error.InvalidCaptureName?
    ensures r.Success? ==> '[' !in r.value.0
    ensures r.Success? && r.value.1.Some? ==>
      |fragment| >= |r.value.0| + 2
      && var digits := fragment[|r.value.0| + 1..|fragment| - 1];
         fragment == r.value.0 + "[" + digits + "]"
         && Aux.FromStrRadix(digits, 10) == Some(r.value.1.value)
  {
    match Find(fragment, '[')
    case None => Success((fragment, None))
    case Some(pos) =>
      if fragment[|fragment| - 1] != ']' then Failure(InvalidCaptureName(MISSING_BRACKET))
      else
        var digits := fragment[pos + 1..|fragment| - 1];
        match Aux.FromStrRadix(digits, 10)
        case None => Failure(InvalidCaptureName(NON_NUMERIC))
        case Some(i) =>
          CutAtBracket(fragment, pos);
          Success((fragment[..pos], Some(i)))
  }

  lemma {:induction false} CutAtBracket(f: string, pos: nat)
    requires pos < |f| && f[pos] == '[' && f[|f| - 1] == ']'
    ensures pos < |f| - 1 && |f[..pos]| == pos
    ensures f == f[..pos] + "[" + f[pos + 1..|f| - 1] + "]"
  {
    assert f == f[..pos] + [f[pos]] + f[pos + 1..|f| - 1] + [f[|f| - 1]];
  }

  /** The two ways a selector can be malformed: no closing bracket at the
      end, or no `usize` between the brackets. */
  lemma {:induction false} ParseFragmentErrors(fragment: string)
    requires '[' in fragment
    ensures fragment[|fragment| - 1] != ']' ==> ParseFragment(fragment) == Failure(InvalidCaptureName(MISSING_BRACKET))
    ensures fragment[|fragment| - 1] == ']' ==>
      Find(fragment, '[').value < |fragment| - 1
      && (Aux.FromStrRadix(fragment[Find(fragment, '[').value + 1..|fragment| - 1], 10).None?
          <==> ParseFragment(fragment) == Failure(InvalidCaptureName(NON_NUMERIC)))
  {
  }

  /** One fragment as `get_capture` users write it. */
  function RenderFragment(name: string, index: Option<usize>): string {
    match index
    case None => name
    case Some(i) => name + "[" + Aux.ToDigits(i, 10, false) + "]"
  }

  /** A fragment written from a name without brackets and an index reads
      back as that name and index. */
  lemma {:induction false} ParseRenderFragment(name: string, index: Option<usize>)
    requires '[' !in name
    ensures ParseFragment(RenderFragment(name, index)) == Success((name, index))
  {
    if index.Some? {
      var digits := Aux.ToDigits(index.value, 10, false);
      var f := RenderFragment(name, index);
      assert f[|name|] == '[';
      assert f[..|name|] == name;
      assert Find(f, '[') == Some(|name|);
      assert f[|name| + 1..|f| - 1] == digits;
      Aux.FromStrRadixRoundTrip(index.value, 10, false);
    }
  }

  // ---------------------------------------------------------------------
  // Resolving names against the capture tree
  // ---------------------------------------------------------------------

  /** Descends from `current` into the child a parsed fragment names. */
  function Descend(current: SingleCapture, name: string, index: Option<usize>): (r: Result<SingleCapture, NameError>)
    ensures name !in current.children ==> r == Failure(NoSuchName(name))
    ensures name in current.children && current.children[name].Single? ==>
      r == (if index.Some? then Failure(MisplacedRepeatAccess(name)) else Success(current.children[name].single))
    ensures name in current.children && current.children[name].Repeat? && index.None? ==>
      r == Failure(MisplacedSingleAccess(name))
    ensures name in current.children && current.children[name].Repeat? && index.Some? ==>
      var items := current.children[name].items;
      r == (if |items| <= index.value then Failure(OutOfBounds(name, index.value, |items|))
            else Success(items[index.value]))
  {
    if name !in current.children then Failure(NoSuchName(name))
    else match current.children[name]
      case Single(c) =>
        if index.Some? then Failure(MisplacedRepeatAccess(name)) else Success(c)
      case Repeat(items) =>
        if index.None? then Failure(MisplacedSingleAccess(name))
        else if |items| <= index.value then Failure(OutOfBounds(name, index.value, |items|))
        else Success(items[index.value])
  }

  /** One step of the `for fragment in name.split(".")` loop. */
  function Step(current: SingleCapture, fragment: string): (r: Result<SingleCapture, NameError>)
    ensures ParseFragment(fragment).Failure? ==> r == Failure(ParseFragment(fragment).error)
    ensures ParseFragment(fragment).Success? ==>
      r == Descend(current, ParseFragment(fragment).value.0, ParseFragment(fragment).value.1)
  {
    var (name, index) :- ParseFragment(fragment);
    Descend(current, name, index)
  }

  /** Folds `Step` over the fragments, stopping at the first error. */
  function Resolve(current: SingleCapture, fragments: seq<string>): (r: Result<SingleCapture, NameError>)
    ensures |fragments| == 0 ==> r == Success(current)
    ensures |fragments| > 0 && Step(current, fragments[0]).Failure? ==> r == Failure(Step(current, fragments[0]).error)
    ensures |fragments| == 1 ==> r == Step(current, fragments[0])
    decreases |fragments|
  {
    if |fragments| == 0 then Success(current)
    else
      var next :- Step(current, fragments[0]);
      Resolve(next, fragments[1..])
  }

  /** `get_single_capture`. */
  function GetSingleCapture(root: SingleCapture, name: string): (r: Result<SingleCapture, NameError>)
    ensures '.' !in name ==> r == Step(root, name)
    ensures PlainName(name) ==> r == Descend(root, name, None)
  {
    SplitWithoutSeparator(name, '.');
    Resolve(root, Split(name, '.'))
  }

  /** A string without the separator splits into itself. */
  lemma {:induction false} SplitWithoutSeparator(s: string, sep: char)
    ensures sep !in s ==> Split(s, sep) == [s]
  {
    if sep !in s {
      SplitJoin([s], sep);
    }
  }

  /** A name path with its selectors, before it is written as a string. */
  datatype Selector = Selector(name: string, index: Option<usize>)

  predicate PlainName(name: string) {
    '.' !in name && '[' !in name
  }

  /** The capture a path of selectors leads to, read straight off the
      tree. */
  function Lookup(current: SingleCapture, path: seq<Selector>): (r: Result<SingleCapture, NameError>)
  {
    if |path| == 0 then Success(current)
    else
      var next :- Descend(current, path[0].name, path[0].index);
      Lookup(next, path[1..])
  }

  /** The dotted string a path of selectors is written as. */
  function RenderPath(path: seq<Selector>): (s: string)
    requires |path| >= 1
  {
    JoinWith(Fragments(path), '.')
  }

  function Fragments(path: seq<Selector>): (fs: seq<string>)
    ensures |fs| == |path|
  {
    seq(|path|, i requires 0 <= i < |path| => RenderFragment(path[i].name, path[i].index))
  }

  /** Writing a path of plain names and indices as a dotted string and
      resolving the string finds what the path leads to in the tree. */
  lemma {:induction false} GetSingleCaptureFollowsPath(root: SingleCapture, path: seq<Selector>)
    requires |path| >= 1 && forall i :: 0 <= i < |path| ==> PlainName(path[i].name)
    ensures GetSingleCapture(root, RenderPath(path)) == Lookup(root, path)
  {
    var fs := Fragments(path);
    forall i | 0 <= i < |fs| ensures '.' !in fs[i] {
      assert '.' !in Aux.ToDigits(if path[i].index.Some? then path[i].index.value else 0, 10, false);
    }
    SplitJoin(fs, '.');
    ResolveFragments(root, path);
  }

  lemma {:induction false} ResolveFragments(current: SingleCapture, path: seq<Selector>)
    requires forall i :: 0 <= i < |path| ==> PlainName(path[i].name)
    ensures Resolve(current, Fragments(path)) == Lookup(current, path)
    decreases |path|
  {
    if |path| > 0 {
      var fs := Fragments(path);
      ParseRenderFragment(path[0].name, path[0].index);
      assert fs[0] == RenderFragment(path[0].name, path[0].index);
      assert fs[1..] == Fragments(path[1..]);
      match Descend(current, path[0].name, path[0].index)
      case Failure(_) =>
      case Success(next) => ResolveFragments(next, path[1..]);
    }
  }

  /** Resolving `a.b` resolves `a` and then `b` from there. */
  lemma {:induction false} ResolveConcat(current: SingleCapture, xs: seq<string>, ys: seq<string>)
    ensures Resolve(current, xs + ys) ==
      (match Resolve(current, xs)
       case Failure(e) => Failure(e)
       case Success(c) => Resolve(c, ys))
    decreases |xs|
  {
    if |xs| == 0 {
      assert xs + ys == ys;
    } else {
      assert (xs + ys)[0] == xs[0] && (xs + ys)[1..] == xs[1..] + ys;
      match Step(current, xs[0])
      case Failure(_) =>
      case Success(next) => ResolveConcat(next, xs[1..], ys);
    }
  }

  lemma {:induction false} GetSingleCaptureConcat(root: SingleCapture, a: string, b: string)
    ensures GetSingleCapture(root, a + "." + b) ==
      (match GetSingleCapture(root, a)
       case Failure(e) => Failure(e)
       case Success(c) => GetSingleCapture(c, b))
  {
    SplitConcat(a, b, '.');
    ResolveConcat(root, Split(a, '.'), Split(b, '.'));
  }

  /** `get_repeat_captures`: the text before the last `.` is resolved as a
      single capture, and the last fragment must name a repeat capture
      there. The last fragment is taken literally, without selector. */
  function GetRepeatCaptures(root: SingleCapture, name: string): (r: Result<seq<SingleCapture>, NameError>)
    ensures var (init, last) := RSplitOnce(name, '.');
      var parent := if init.Some? then GetSingleCapture(root, init.value) else Success(root);
      (parent.Failure? ==> r == Failure(parent.error))
      && (parent.Success? && last !in parent.value.children ==> r == Failure(NoSuchName(last)))
      && (parent.Success? && last in parent.value.children && parent.value.children[last].Single? ==>
            r == Failure(MisplacedRepeatAccess(last)))
      && (parent.Success? && last in parent.value.children && parent.value.children[last].Repeat? ==>
            r == Success(parent.value.children[last].items))
  {
    var (init, last) := RSplitOnce(name, '.');
    var capture :- if init.Some? then GetSingleCapture(root, init.value) else Success(root);
    if last !in capture.children then Failure(NoSuchName(last))
    else match capture.children[last]
      case Repeat(items) => Success(items)
      case Single(_) => Failure(MisplacedRepeatAccess(last))
  }

  /** Digits contain neither separator nor bracket. */
  lemma {:induction false} DigitsArePlain(i: usize)
    ensures PlainName(Aux.ToDigits(i, 10, false)) && ']' !in Aux.ToDigits(i, 10, false)
  {
    var d := Aux.ToDigits(i, 10, false);
    assert forall k :: 0 <= k < |d| ==> Aux.IsDigit(d[k], 10);
  }

  /** `last[i]` against a capture whose child `last` is a repeat. */
  lemma {:induction false} IndexedFragment(p: SingleCapture, last: string, i: usize)
    requires PlainName(last) && last in p.children && p.children[last].Repeat?
    ensures var items := p.children[last].items;
      GetSingleCapture(p, RenderFragment(last, Some(i)))
        == if i < |items| then Success(items[i]) else Failure(OutOfBounds(last, i, |items|))
  {
    var frag := RenderFragment(last, Some(i));
    DigitsArePlain(i);
    ParseRenderFragment(last, Some(i));
    assert '.' !in frag;
    SingleFragment(p, frag);
  }

  /** `last[i]` as a single capture is element `i` of the repeat capture
      `last`, or `OutOfBounds` past its end. */
  lemma {:induction false} RepeatElementAgrees(root: SingleCapture, last: string, i: usize)
    requires PlainName(last) && GetRepeatCaptures(root, last).Success?
    ensures var items := GetRepeatCaptures(root, last).value;
      GetSingleCapture(root, RenderFragment(last, Some(i)))
        == if i < |items| then Success(items[i]) else Failure(OutOfBounds(last, i, |items|))
  {
    assert RSplitOnce(last, '.') == (None, last);
    IndexedFragment(root, last, i);
  }

  /** The same below a dotted prefix: `init.last[i]` is element `i` of
      `init.last`. */
  lemma {:induction false} NestedRepeatElementAgrees(root: SingleCapture, init: string, last: string, i: usize)
    requires PlainName(last) && GetRepeatCaptures(root, init + "." + last).Success?
    ensures var items := GetRepeatCaptures(root, init + "." + last).value;
      GetSingleCapture(root, init + "." + RenderFragment(last, Some(i)))
        == if i < |items| then Success(items[i]) else Failure(OutOfBounds(last, i, |items|))
  {
    var frag := RenderFragment(last, Some(i));
    var p := NestedRepeatParent(root, init, last);
    assert GetSingleCapture(root, init + "." + frag) == GetSingleCapture(p, frag) by {
      GetSingleCaptureConcat(root, init, frag);
    }
    IndexedFragment(p, last, i);
  }

  /** The repeat `init.last` is the child `last` of the capture `init`. */
  lemma {:induction false} NestedRepeatParent(root: SingleCapture, init: string, last: string) returns (p: SingleCapture)
    requires PlainName(last) && GetRepeatCaptures(root, init + "." + last).Success?
    ensures GetSingleCapture(root, init) == Success(p)
    ensures last in p.children && p.children[last].Repeat?
    ensures GetRepeatCaptures(root, init + "." + last).value == p.children[last].items
  {
    RSplitAtLast(init + "." + last, init, last);
    p := GetSingleCapture(root, init).value;
  }

  /** A string with a separator splits at its last one only. */
  lemma {:induction false} RSplitAtLast(s: string, a: string, b: string)
    requires s == a + ['.'] + b && '.' !in b
    ensures RSplitOnce(s, '.') == (Some(a), b)
  {
    assert s[|a|] == '.';
    var r := RFind(s, '.').value;
    assert r >= |a| by {
      assert s[|a|] == '.';
      assert forall k :: r < k < |s| ==> s[k] == s[r + 1..][k - r - 1];
    }
    assert r <= |a| by {
      assert forall k :: |a| < k < |s| ==> s[k] == b[k - |a| - 1];
    }
    assert s[..|a|] == a && s[|a| + 1..] == b;
  }

  // ---------------------------------------------------------------------
  // Spans found stay inside the data
  // ---------------------------------------------------------------------

  lemma {:induction false} ResolveWithin(current: SingleCapture, fragments: seq<string>, n: nat)
    requires SingleWithin(current, n) && Resolve(current, fragments).Success?
    ensures SingleWithin(Resolve(current, fragments).value, n)
    decreases |fragments|
  {
    if |fragments| > 0 {
      var next := Step(current, fragments[0]).value;
      var (name, index) := ParseFragment(fragments[0]).value;
      assert Within(current.children[name], n);
      ResolveWithin(next, fragments[1..], n);
    }
  }

  lemma {:induction false} GetRepeatCapturesWithin(root: SingleCapture, name: string, n: nat)
    requires SingleWithin(root, n) && GetRepeatCaptures(root, name).Success?
    ensures forall i :: 0 <= i < |GetRepeatCaptures(root, name).value| ==>
      SingleWithin(GetRepeatCaptures(root, name).value[i], n)
  {
    var (init, last) := RSplitOnce(name, '.');
    if init.Some? {
      ResolveWithin(root, Split(init.value, '.'), n);
      var p := GetSingleCapture(root, init.value).value;
      assert Within(p.children[last], n);
    } else {
      assert Within(root.children[last], n);
    }
  }

  // ---------------------------------------------------------------------
  // Records and sub-records
  // ---------------------------------------------------------------------

  /** The bytes of one span. */
  function Slice(data: seq<byte>, c: SingleCapture): (b: seq<byte>)
    requires c.startPos <= c.endPos <= |data|
    ensures |b| == c.endPos - c.startPos
  {
    data[c.startPos..c.endPos]
  }

  /** A parsed record: the root capture and the bytes it was parsed from. */
  datatype Record = Record(capture: SingleCapture, data: seq<byte>)
  {
    ghost predicate Valid() {
      SingleWithin(capture, |data|)
    }

    /** `Record::get_capture`: the bytes of a named single capture. */
    function GetCapture(name: string): (r: Result<seq<byte>, NameError>)
      requires Valid()
      ensures r.Failure? <==> GetSingleCapture(capture, name).Failure?
      ensures r.Failure? ==> r.error == GetSingleCapture(capture, name).error
      ensures r.Success? ==>
        var c := GetSingleCapture(capture, name).value;
        c.startPos <= c.endPos <= |data| && r.value == data[c.startPos..c.endPos]
    {
      var c :- GetSingleCapture(capture, name);
      ResolveWithin(capture, Split(name, '.'), |data|);
      Success(Slice(data, c))
    }

    /** `Record::get_captures`, with the iterator's items as a sequence. */
    function GetCaptures(name: string): (r: Result<seq<seq<byte>>, NameError>)
      requires Valid()
      ensures r.Failure? <==> GetRepeatCaptures(capture, name).Failure?
      ensures r.Failure? ==> r.error == GetRepeatCaptures(capture, name).error
      ensures r.Success? ==>
        var items := GetRepeatCaptures(capture, name).value;
        |r.value| == |items|
        && forall i :: 0 <= i < |items| ==>
             items[i].startPos <= items[i].endPos <= |data|
             && r.value[i] == data[items[i].startPos..items[i].endPos]
    {
      var items :- GetRepeatCaptures(capture, name);
      GetRepeatCapturesWithin(capture, name, |data|);
      Success(seq(|items|, i requires 0 <= i < |items| => Slice(data, items[i])))
    }

    /** `Record::get_all`: every byte the record was parsed from. */
    function GetAll(): (b: seq<byte>)
      ensures b == data
    {
      data
    }

    /** `Record::get_sub_record`: a view rooted at a named single capture. */
    function GetSubRecord(name: string): (r: Result<SubRecord, NameError>)
      requires Valid()
      ensures r.Failure? <==> GetSingleCapture(capture, name).Failure?
      ensures r.Success? ==> (r.value.Valid() && r.value.record == this
        && r.value.capture == GetSingleCapture(capture, name).value)
    {
      var c :- GetSingleCapture(capture, name);
      ResolveWithin(capture, Split(name, '.'), |data|);
      Success(SubRecord(this, c))
    }

    /** `Record::get_sub_records`, with the iterator's items as a sequence. */
    function GetSubRecords(name: string): (r: Result<seq<SubRecord>, NameError>)
      requires Valid()
      ensures r.Failure? <==> GetRepeatCaptures(capture, name).Failure?
      ensures r.Success? ==>
        var items := GetRepeatCaptures(capture, name).value;
        |r.value| == |items|
        && forall i :: 0 <= i < |items| ==>
             r.value[i].Valid() && r.value[i] == SubRecord(this, items[i])
    {
      var items :- GetRepeatCaptures(capture, name);
      GetRepeatCapturesWithin(capture, name, |data|);
      Success(seq(|items|, i requires 0 <= i < |items| => SubRecord(this, items[i])))
    }
  }

  /** A view of a record rooted at one of its single captures. */
  datatype SubRecord = SubRecord(record: Record, capture: SingleCapture)
  {
    ghost predicate Valid() {
      record.Valid() && SingleWithin(capture, |record.data|)
    }

    /** `SubRecord::get_capture`: names resolve from this view's capture,
        the bytes come from the whole record. */
    function GetCapture(name: string): (r: Result<seq<byte>, NameError>)
      requires Valid()
      ensures r.Failure? <==> GetSingleCapture(capture, name).Failure?
      ensures r.Success? ==>
        var c := GetSingleCapture(capture, name).value;
        c.startPos <= c.endPos <= |record.data| && r.value == record.data[c.startPos..c.endPos]
    {
      var c :- GetSingleCapture(capture, name);
      ResolveWithin(capture, Split(name, '.'), |record.data|);
      Success(Slice(record.data, c))
    }

    /** `SubRecord::get_captures`. */
    function GetCaptures(name: string): (r: Result<seq<seq<byte>>, NameError>)
      requires Valid()
      ensures r.Failure? <==> GetRepeatCaptures(capture, name).Failure?
      ensures r.Success? ==>
        var items := GetRepeatCaptures(capture, name).value;
        |r.value| == |items|
        && forall i :: 0 <= i < |items| ==>
             items[i].startPos <= items[i].endPos <= |record.data|
             && r.value[i] == record.data[items[i].startPos..items[i].endPos]
    {
      var items :- GetRepeatCaptures(capture, name);
      GetRepeatCapturesWithin(capture, name, |record.data|);
      Success(seq(|items|, i requires 0 <= i < |items| => Slice(record.data, items[i])))
    }

    /** `SubRecord::get_all`: the bytes of this view's span. */
    function GetAll(): (b: seq<byte>)
      requires Valid()
      ensures |b| == capture.endPos - capture.startPos
      ensures b == record.data[capture.startPos..capture.endPos]
    {
      Slice(record.data, capture)
    }

    /** `SubRecord::get_sub_record`. */
    function GetSubRecord(name: string): (r: Result<SubRecord, NameError>)
      requires Valid()
      ensures r.Failure? <==> GetSingleCapture(capture, name).Failure?
      ensures r.Success? ==> (r.value.Valid() && r.value.record == record
        && r.value.capture == GetSingleCapture(capture, name).value)
    {
      var c :- GetSingleCapture(capture, name);
      ResolveWithin(capture, Split(name, '.'), |record.data|);
      Success(SubRecord(record, c))
    }

    /** `SubRecord::get_sub_records`. */
    function GetSubRecords(name: string): (r: Result<seq<SubRecord>, NameError>)
      requires Valid()
      ensures r.Failure? <==> GetRepeatCaptures(capture, name).Failure?
      ensures r.Success? ==>
        var items := GetRepeatCaptures(capture, name).value;
        |r.value| == |items|
        && forall i :: 0 <= i < |items| ==>
             r.value[i].Valid() && r.value[i] == SubRecord(record, items[i])
    {
      var items :- GetRepeatCaptures(capture, name);
      GetRepeatCapturesWithin(capture, name, |record.data|);
      Success(seq(|items|, i requires 0 <= i < |items| => SubRecord(record, items[i])))
    }
  }

  /** Querying `a.b` on a record is querying `b` on the sub-record `a`. */
  lemma {:induction false} SubRecordQueryAgrees(rec: Record, a: string, b: string)
    requires rec.Valid() && rec.GetSubRecord(a).Success?
    ensures rec.GetCapture(a + "." + b) == rec.GetSubRecord(a).value.GetCapture(b)
  {
    GetSingleCaptureConcat(rec.capture, a, b);
  }

  /** The bytes a sub-record hands out as a whole are the bytes of the
      capture it was taken at, from a record or from another sub-record. */
  lemma {:induction false} SubRecordGetAllIsCapture(rec: Record, sub: SubRecord, name: string)
    requires rec.Valid() && sub.Valid()
    ensures rec.GetSubRecord(name).Success? <==> rec.GetCapture(name).Success?
    ensures rec.GetSubRecord(name).Success? ==> rec.GetSubRecord(name).value.GetAll() == rec.GetCapture(name).value
    ensures sub.GetSubRecord(name).Success? <==> sub.GetCapture(name).Success?
    ensures sub.GetSubRecord(name).Success? ==> sub.GetSubRecord(name).value.GetAll() == sub.GetCapture(name).value
  {
  }

  /** A record's queries are those of the sub-record rooted at its own
      capture, and when that capture spans all the data both hand out the
      same bytes as a whole. */
  lemma {:induction false} RecordIsRootSubRecord(rec: Record, name: string)
    requires rec.Valid()
    ensures SubRecord(rec, rec.capture).Valid()
    ensures rec.GetCapture(name) == SubRecord(rec, rec.capture).GetCapture(name)
    ensures rec.GetCaptures(name) == SubRecord(rec, rec.capture).GetCaptures(name)
    ensures rec.capture.startPos == 0 && rec.capture.endPos == |rec.data| ==>
      rec.GetAll() == SubRecord(rec, rec.capture).GetAll()
  {
  }

  /** The tree of the query examples: the single capture `a` and the
      repeat `b` of two elements. */
  function ExampleTree(a: SingleCapture, b0: SingleCapture, b1: SingleCapture): SingleCapture {
    SingleCapture(0, 0, map["a" := Single(a), "b" := Repeat([b0, b1])])
  }

  /** Plain names: found, unknown, and a repeat used as a single capture. */
  lemma {:induction false} PlainQueryExamples(a: SingleCapture, b0: SingleCapture, b1: SingleCapture)
    ensures GetSingleCapture(ExampleTree(a, b0, b1), "a") == Success(a)
    ensures GetSingleCapture(ExampleTree(a, b0, b1), "c") == Failure(NoSuchName("c"))
    ensures GetSingleCapture(ExampleTree(a, b0, b1), "b") == Failure(MisplacedSingleAccess("b"))
    ensures GetRepeatCaptures(ExampleTree(a, b0, b1), "b") == Success([b0, b1])
    ensures GetRepeatCaptures(ExampleTree(a, b0, b1), "a") == Failure(MisplacedRepeatAccess("a"))
  {
    var root := ExampleTree(a, b0, b1);
    SingleFragment(root, "a");
    SingleFragment(root, "c");
    SingleFragment(root, "b");
    assert RSplitOnce("b", '.') == (None, "b");
    assert RSplitOnce("a", '.') == (None, "a");
  }

  /** Indexed names: in range and past the end of a repeat. */
  lemma {:induction false} IndexQueryExamples(a: SingleCapture, b0: SingleCapture, b1: SingleCapture)
    ensures GetSingleCapture(ExampleTree(a, b0, b1), "b[1]") == Success(b1)
    ensures GetSingleCapture(ExampleTree(a, b0, b1), "b[2]") == Failure(OutOfBounds("b", 2, 2))
  {
    var root := ExampleTree(a, b0, b1);
    assert Aux.ToDigits(1, 10, false) == "1" && Aux.ToDigits(2, 10, false) == "2";
    assert RenderFragment("b", Some(1)) == "b[1]";
    assert RenderFragment("b", Some(2)) == "b[2]";
    IndexedFragment(root, "b", 1);
    IndexedFragment(root, "b", 2);
  }

  /** An index on a single capture. */
  lemma {:induction false} MisplacedIndexExample(a: SingleCapture, b0: SingleCapture, b1: SingleCapture)
    ensures GetSingleCapture(ExampleTree(a, b0, b1), "a[0]") == Failure(MisplacedRepeatAccess("a"))
  {
    var root := ExampleTree(a, b0, b1);
    assert Aux.ToDigits(0, 10, false) == "0";
    assert RenderFragment("a", Some(0)) == "a[0]";
    ParseRenderFragment("a", Some(0));
    DigitsArePlain(0);
    SingleFragment(root, "a[0]");
  }

  /** A selector without its closing bracket. */
  lemma {:induction false} MissingBracketExample(root: SingleCapture)
    ensures GetSingleCapture(root, "b[1") == Failure(InvalidCaptureName(MISSING_BRACKET))
  {
    assert "b[1"[1] == '[';
    ParseFragmentErrors("b[1");
    SingleFragment(root, "b[1");
  }

  /** A selector that is not a number. */
  lemma {:induction false} NonNumericExample(root: SingleCapture)
    ensures GetSingleCapture(root, "b[x]") == Failure(InvalidCaptureName(NON_NUMERIC))
  {
    assert "b[x]"[1] == '[';
    assert Find("b[x]", '[') == Some(1);
    assert "b[x]"[2..3] == "x";
    assert !Aux.IsDigit('x', 10);
    ParseFragmentErrors("b[x]");
    SingleFragment(root, "b[x]");
  }

  /** A fragment without a dot resolves in one step. */
  lemma {:induction false} SingleFragment(root: SingleCapture, fragment: string)
    requires '.' !in fragment
    ensures GetSingleCapture(root, fragment) == Step(root, fragment)
  {
    SplitJoin([fragment], '.');
    assert Split(fragment, '.') == [fragment];
    assert Split(fragment, '.')[1..] == [];
    match Step(root, fragment)
    case Failure(_) =>
    case Success(next) => assert Resolve(next, []) == Success(next);
  }
}

=== FILE: wrappers.dfy ===
/** Failure-compatible wrappers: `Option` for Rust's `Option` and `Result`
    for Rust's `Result`, both usable with `:-`. */
module Wrappers {

  datatype Option<+T> = None | Some(value: T) {

    predicate IsFailure() {
      None?
    }

    function PropagateFailure<U>(): Option<U>
      requires None?
    {
      None
    }

    function Extract(): T
      requires Some?
    {
      value
    }

    /** `Option::ok_or`. */
    function ToResult<E>(error: E): Result<T, E> {
      match this
      case Some(v) => Success(v)
      case None => Failure(error)
    }
  }

  datatype Result<+R, +E> = Success(value: R) | Failure(error: E) {

    predicate IsFailure() {
      Failure?
    }

    function PropagateFailure<U>(): Result<U, E>
      requires Failure?
    {
      Failure(error)
    }

    function Extract(): R
      requires Success?
    {
      value
    }
  }
}
